=== FILE: README.md ===
# Task manager core, modelled in Dafny

This project models the logic of a task manager. The system has three parts: a NestJS HTTP API, a React web client and a React Native mobile client. The model covers:

- **Sessions and tokens.**
  - Registration and login each mint an access/refresh JWT pair and store one session row. The row is keyed by the refresh token's `jti` and holds a bcrypt hash of that token.
  - Refresh is one-time-use rotation.
  - Logout deletes the session row matching `(jti, userId)`.
  - The access-token strategy refuses blacklisted `jti`s, then looks the user up.
- **The user registry.** It has an email-unique insert, lookups, pagination, an update with an email-conflict rule, and a delete.
- **The task store with a read-through cache.**
  - A page is cached under `tasks:all:<page>:<limit>`.
  - Every write drops all keys under `tasks:all`, so a list read after a write sees the store.
- **The key/value cache service**, including its prefix delete.
- **Small pure rules:**
  - log redaction;
  - the password rule, both on the server and in the clients;
  - the exception filter and the response wrapper;
  - the CORS allow-list;
  - the date conversions and the typing mask of the mobile task editor;
  - the mobile URL configuration;
  - the MQTT subscriber registry;
  - the web client's task-list hook and task form.

## How the model is built

- **Two styles.** A service or screen whose source updates state in place is a Dafny `class`. Pure logic is functions and lemmas.
- **The stores.**
  - Prisma tables are sequences of rows in store order.
  - Sessions are a map keyed by `jti`.
  - The cache is a map from key to value.
- **UI components and hooks.** Each one's state is a datatype (`Form`, `Page`, `Hook`). A pure step function (`Save`, `Submit`, `Fetch`, `LoadMore`) says what one event does. Each handler method is proved to perform exactly that step: `ensures State() == Step(old(State()), …)`.
- **Things the core receives from outside become parameters:**
  - the result of an awaited request;
  - random salts and UUIDs;
  - `Date.now()`;
  - `__DEV__`;
  - the `new URL` parser.
- **bcrypt** is a digest that remembers its salt and preimage. Only two facts about it are used: `compare(s, hash(s))` holds, and `compare(t, hash(s))` implies `t == s`. The second is the model's own assumption, not a property of bcrypt: real bcrypt reads only the first 72 bytes of its input (see `Crypto.CompareOnlyPreimage` under "Left out").
- **JWTs** (RFC 7519) are their claims plus the secret they were signed with. The claims are `sub` (section 4.1.2), `exp` (section 4.1.4), `iat` (section 4.1.6) and the optional `jti` (section 4.1.7).
- **Shared modules:**
  - `Base`: Option and Result.
  - `Strings`: JavaScript `trim`, `split`, `join`, `padStart` and ASCII `toLowerCase`.
  - `Arrays`: `filter` and `findIndex`.
  - `Json`: JavaScript values, `??` and truthiness.
  - `Entities`: rows, pages and cache values.
  - `Errors`: the HTTP messages and the exceptions the services throw.

## Model

| member | source | states |
|---|---|---|
| Jwt.Sign | backend/src/modules/auth/auth.service.ts:30-39 | A signed token carries the given subject, email and `jti`. It carries `iat = now` and `exp = iat + expiresIn`, and the secret it was signed with. |
| Jwt.Verify | backend/src/modules/auth/strategies/jwt.strategy.ts:20-24 | A token passes exactly when it was signed with the expected secret and has not expired. It then yields its claims. |
| Jwt.SecretIsolation | backend/src/modules/auth/strategies/jwt.strategy.ts:23 | A token never verifies under a secret other than its own. |
| Crypto.CompareHashed | backend/src/modules/auth/auth.service.ts:92 | `compare(s, hash(s))` holds for every salt. |
| Crypto.CompareOnlyPreimage | backend/src/modules/auth/auth.service.ts:92 | `compare(t, hash(s))` holds only when `t == s`. |
| Auth.MintPair | backend/src/modules/auth/auth.service.ts:30-39 | The access token has no `jti` and is signed with the access secret and lifetime. The refresh token carries the `jti` and is signed with the refresh secret and lifetime. Both carry the same subject and email. |
| Auth.PairSecretsSeparate | backend/src/modules/auth/auth.service.ts:31-38 | With distinct secrets, an access token is refused where a refresh token is checked, and the other way round. |
| Auth.SessionFor | backend/src/modules/auth/auth.service.ts:41-48 | The stored row's hash compares true for the refresh token and for nothing else. `userId` is the token's subject. `expiresAt` is the decoded `exp` times 1000. |
| Auth.CheckCredentials | backend/src/modules/auth/auth.service.ts:69-79 | Login checks pass exactly when the email is registered and the password compares against its hash. An unknown email and a wrong password both fail with `Unauthorized(INVALID_CREDENTIALS)`. |
| Auth.LoginIffPassword | backend/src/modules/auth/auth.service.ts:68-79 | With unique keys, login for a registered email succeeds if and only if the password is the one that was hashed for it. |
| Auth.CheckRefresh | backend/src/modules/auth/auth.service.ts:89-93 | Refresh checks pass exactly when a row exists for `jti`, it belongs to `userId`, and its hash compares against the presented token. Every failure is `Unauthorized(ACCESS_DENIED)`. |
| Auth.RefreshPresentsIssuedToken | backend/src/modules/auth/auth.service.ts:88-93 | A refresh that passes presents the very token that was stored. That token's `jti` is the row key and its subject is the caller. |
| Auth.ReplayRejected | backend/src/modules/auth/auth.service.ts:95 | Once the row is deleted, any refresh with its `jti` fails with `ACCESS_DENIED`. |
| Auth.Revoke | backend/src/modules/auth/auth.service.ts:102-104 | Logout removes a row exactly when both `jti` and `userId` match. Every other row is kept with its value. |
| Auth.RevokeIdempotent | backend/src/modules/auth/auth.service.ts:102-104 | A second logout with the same arguments changes nothing. |
| Auth.RevokeOnlyOwn | backend/src/modules/auth/auth.service.ts:102-104 | A logout by another user leaves the session map unchanged. |
| Auth.AuthService.GenerateTokens | backend/src/modules/auth/auth.service.ts:27-52 | Returns the minted pair and adds exactly one row, under the fresh `jti`, for the refresh token. |
| Auth.AuthService.Register | backend/src/modules/auth/auth.service.ts:54-66 | An email in use gives Conflict, and no user and no session are created. Otherwise one hashed-password user row and one session row are added, and the public user and the pair are returned. |
| Auth.AuthService.Login | backend/src/modules/auth/auth.service.ts:68-86 | Failing credentials give `Unauthorized(INVALID_CREDENTIALS)` and write no row. Otherwise one session row is added and the user is returned without its password. |
| Auth.AuthService.Refresh | backend/src/modules/auth/auth.service.ts:88-100 | A failed check gives `ACCESS_DENIED` with the sessions untouched. Otherwise the old row is deleted first. An absent user then gives NotFound with the row gone. Otherwise one new row is added for the new `jti`. |
| Auth.AuthService.Logout | backend/src/modules/auth/auth.service.ts:102-104 | The sessions become `Revoke` of the old sessions. |
| Auth.AuthService.GetProfile | backend/src/modules/auth/auth.service.ts:106-108 | Fails with `NotFound(USER_NOT_FOUND)` exactly for an absent id. Otherwise returns the public form of the stored row with that id, so its name and email are the stored ones. |
| Auth.RefreshThenReplay | backend/src/modules/auth/auth.service.ts:88-100 | After a successful refresh, the old token is refused and the newly minted refresh token is accepted. |
| JwtStrategy.BlacklistKey | backend/src/modules/auth/strategies/jwt.strategy.ts:29 | The key is `blacklist:access:` followed by exactly the `jti`. |
| JwtStrategy.Validate | backend/src/modules/auth/strategies/jwt.strategy.ts:27-36 | A blacklisted `jti` gives Unauthorized. Otherwise an absent subject gives NotFound. Success holds exactly when neither applies, and yields the subject's row without its password. |
| JwtStrategy.NoJtiSkipsBlacklist | backend/src/modules/auth/strategies/jwt.strategy.ts:28-31 | Without a `jti`, the result is the user lookup alone, whatever the cache holds. |
| JwtStrategy.AccessTokensNeverBlacklisted | backend/src/modules/auth/strategies/jwt.strategy.ts:28-31 | A minted access token is never refused by the blacklist. |
| JwtStrategy.MissingUserIsNotFound | backend/src/modules/auth/strategies/jwt.strategy.ts:33-35 | An absent user always fails. When the token is not blacklisted, the failure is the lookup's NotFound rather than Unauthorized. |
| Users.FindById | backend/src/modules/users/users.service.ts:64-74 | Fails with `NotFound(USER_NOT_FOUND)` exactly when no row has the id. Otherwise returns that row without its password. |
| Users.FindByEmail | backend/src/modules/users/users.service.ts:76-78 | None exactly when no row has that email. Otherwise a row of the table with exactly that email. |
| Users.FindByEmailUnique | backend/src/modules/users/users.service.ts:76-78 | With unique keys, the lookups by a row's email and by its id return that row. |
| Users.FindAll | backend/src/modules/users/users.service.ts:49-62 | `total` is the table size. The page holds `limit` rows, fewer on the last page and none past the end. Row `i` of the page is the public form of table row `(page-1)*limit + i`. |
| Entities.PageOf | backend/src/modules/tasks/tasks.service.ts:52-59 | `skip = (page-1)*limit`. The page holds `min(limit, max(0, n - skip))` rows, row `i` being table row `skip + i`, with `total = n`. |
| Entities.PagesCoverPrefix | backend/src/modules/tasks/tasks.service.ts:52-55 | Pages 1..n concatenated are exactly the first `min(n*limit, total)` rows, in order. |
| Users.ApplyUpdate | backend/src/modules/users/users.service.ts:89-93 | The corrected update row keeps the id and takes each given field. A new password is stored hashed, so it compares true. |
| Users.UpdatedPasswordRejected | backend/src/modules/users/users.service.ts:89-93 | After the update as written, the new password never compares true, so the user cannot log in with it. |
| Users.EmailConflictIff | backend/src/modules/users/users.service.ts:84-87 | With unique keys, the update's email conflict holds exactly when another user's row has that email. The user's own email is accepted. |
| Users.UpdateKeepsKeysUnique | backend/src/modules/users/users.service.ts:84-93 | Rewriting one row with its own id and a non-conflicting email keeps ids and emails unique. |
| Users.UsersService.Create | backend/src/modules/users/users.service.ts:28-47 | An email in use gives Conflict and inserts nothing. Otherwise exactly one row is appended with the hashed password, and it is returned without the password. |
| Users.UsersService.UpdateAsWritten | backend/src/modules/users/users.service.ts:80-94 | As the code runs: the email conflict is checked first. An absent id reaches the store and fails with its missing-record error. Otherwise the row is rewritten with the password as given. |
| Users.UsersService.Update | backend/src/modules/users/users.service.ts:80-94 | As evidently intended: an absent id gives NotFound, and an email conflict gives Conflict. Otherwise exactly that row changes, with a hashed password. The keys stay unique. |
| Users.UsersService.Delete | backend/src/modules/users/users.service.ts:96-102 | An absent id gives NotFound and deletes nothing. Otherwise exactly that row is removed and returned. |
| Tasks.ListKey | backend/src/modules/tasks/tasks.service.ts:43 | The list key starts with `tasks:all`. |
| Tasks.ListKeyInjective | backend/src/modules/tasks/tasks.service.ts:43 | Two different `(page, limit)` queries never share a cache key. |
| Tasks.DueDateField | backend/src/modules/tasks/tasks.service.ts:30 | An absent or empty due date is stored as no date. Any other due date is kept. |
| Tasks.ApplyUpdate | backend/src/modules/tasks/tasks.service.ts:76-82 | The id and owner are kept. Each set field replaces the old one, and an empty due date leaves the old one. |
| Tasks.FindById | backend/src/modules/tasks/tasks.service.ts:65-71 | Fails with `NotFound(TASK_NOT_FOUND)` exactly when no row has the id. Otherwise returns that row. |
| Tasks.NoListCachedIsCoherent | backend/src/modules/tasks/tasks.service.ts:42-63 | A cache holding no `tasks:all` key holds no stale page. |
| Tasks.NewTask | backend/src/modules/tasks/tasks.service.ts:25-33 | The inserted row has the given id and owner, the DTO's title and description, the status TODO when none is given, and the due date `DueDateField` keeps. |
| Tasks.ParseStatus | backend/src/modules/tasks/http-dtos/create-task.http-dto.ts:15-18 | Only a string naming a `TaskStatus` value is a status. |
| Tasks.TextField | backend/src/modules/tasks/tasks.service.ts:23 | A string field is read as that string, and any other value as `undefined`. |
| Tasks.CreateDtoOf | backend/src/modules/tasks/http-dtos/create-task.http-dto.ts:5-24 | The service's DTO carries the body's title, and its description and due date when they are strings. |
| Tasks.OwnerOf | backend/src/modules/tasks/tasks.service.ts:23 | The owner `create` destructures is present exactly when the body has a string `userId`. |
| Tasks.ValidatedBodyHasNoOwner | backend/src/main.ts:37-43 | For every body the whitelisting pipe lets through, the owner `create` reads is `undefined`, because the DTO declares no `userId`. |
| Tasks.PipeExamples | backend/src/main.ts:37-43 | A body with a title and status passes the pipe. A body that also names a `userId` is refused. |
| Tasks.InsertTask | backend/src/modules/tasks/tasks.service.ts:25-33 | A row without an owner is refused with the store's message. Any other row is appended as `NewTask`. |
| Tasks.TasksService.CreateWithOwner | backend/src/modules/tasks/tasks.service.ts:22-40 | The insert, then the list-key drop and the TaskCreated notification of the owner. A refused insert fails with the table, events and cache unchanged. |
| Tasks.TasksService.CreateAsWritten | backend/src/modules/tasks/tasks.service.ts:22-40 | The owner read from a body the pipe accepted is `undefined`, so the shared insert step refuses the row. The call fails with the store's message, and the table, events and cache are unchanged. |
| Tasks.TasksService.Create | backend/src/modules/tasks/tasks.service.ts:22-40 | The corrected `create`, owned by the authenticated caller, through the same insert step. It appends one row and publishes TaskCreated to that owner. It then drops every cache key under `tasks:all`, leaving no list cached, or does nothing to the cache when the store cannot list keys. |
| Tasks.TasksService.FindAll | backend/src/modules/tasks/tasks.service.ts:42-63 | A truthy cached value is returned and nothing is written. Otherwise the table page is returned and cached under its key. From a cache with no list entries, or a coherent one, the result is the current table page, and a coherent cache stays coherent. |
| Tasks.TasksService.Update | backend/src/modules/tasks/tasks.service.ts:73-89 | An absent id gives NotFound, with table, cache and events untouched. Otherwise that row is rewritten, TaskUpdated is published and the list keys are dropped. |
| Tasks.TasksService.Delete | backend/src/modules/tasks/tasks.service.ts:91-98 | An absent id gives NotFound with nothing touched. Otherwise exactly that row is removed, TaskDeleted is published and the list keys are dropped. |
| Tasks.DeleteThenList | backend/src/modules/tasks/tasks.service.ts:91-98 | After a delete, `findAll` returns the current table page: no stale page is served. |
| Cache.WithoutPrefixed | backend/src/infra/cache/redis.service.ts:23-33 | Exactly the keys that do not start with the prefix remain, with their values. |
| Cache.WithoutPrefixedIdempotent | backend/src/infra/cache/redis.service.ts:23-33 | Deleting by a prefix twice is the same as deleting once. |
| Cache.WithoutShorterPrefix | backend/src/infra/cache/redis.service.ts:23-33 | No key that starts with the prefix survives. |
| Cache.TaskListKey | backend/src/infra/cache/redis.service.ts:35-37 | The key is `tasks:<userId>:` followed by the query, or by `all` when the query is absent or empty. |
| Cache.UserProfileKey | backend/src/infra/cache/redis.service.ts:39-41 | The key is `user:` followed by exactly the user id. |
| Cache.RedisService.Get | backend/src/infra/cache/redis.service.ts:11-13 | The stored value when the key is present, otherwise none. |
| Cache.RedisService.Set | backend/src/infra/cache/redis.service.ts:15-17 | The key now maps to the value, and a following get yields it. |
| Cache.RedisService.Del | backend/src/infra/cache/redis.service.ts:19-21 | Removes that key and leaves every other key unchanged. |
| Cache.RedisService.DelByPattern | backend/src/infra/cache/redis.service.ts:23-33 | With a store that lists keys, the cache becomes `WithoutPrefixed(old, pattern)`. Without one, nothing changes. |
| SanitizeLog.SanitizeForLog | backend/src/common/utils/sanitize-log.util.ts:13-20 | The output has the same keys. A key whose lower-cased name is sensitive maps to `[REDACTED]`, and every other key keeps its value. |
| SanitizeLog.SanitizeIdempotent | backend/src/common/utils/sanitize-log.util.ts:13-20 | Sanitising twice is sanitising once. |
| SanitizeLog.SameLowerCaseSameVerdict | backend/src/common/utils/sanitize-log.util.ts:17 | Keys that agree after lower-casing are redacted alike. |
| SanitizeLog.CaseInsensitiveExamples | backend/src/common/utils/sanitize-log.util.ts:17 | `Password` and `TOKEN` are sensitive. |
| SanitizeLog.NestedUntouched | backend/src/common/utils/sanitize-log.util.ts:14-19 | A nested object under a harmless key is returned unchanged, sensitive inner keys included. |
| PasswordRule.Scan | backend/src/modules/users/http-dtos/create-user.http-dto.ts:18 | One pass over the password records exactly whether it has an upper-case letter, a digit, a `[\W_]` character and a line terminator. |
| PasswordRule.ServerRule | backend/src/modules/users/http-dtos/create-user.http-dto.ts:15-21 | The server accepts exactly the passwords that have length ≥ 8, an upper-case letter, a digit, a `[\W_]` character and no line terminator. |
| PasswordRule.ServerRefusals | backend/src/modules/users/http-dtos/create-user.http-dto.ts:17-18 | A password that is too short, or lacks an upper-case letter, a digit or a special character, is refused. |
| PasswordRule.StrongExample | backend/__test__/app.e2e-spec.ts:43 | `Senha@123` is accepted by the server and by the clients. |
| PasswordRule.WeakExample | backend/__test__/auth.integration.spec.ts:140 | `senhafraca` is refused by the server and by the clients. |
| PasswordRule.ClientCriteria | mobile/src/screens/RegisterScreen.tsx:19-24 | A password meets all client criteria if and only if it has length ≥ 8, an upper-case letter, a digit and a `[\W_]` character. |
| PasswordRule.ServerImpliesClient | mobile/src/screens/RegisterScreen.tsx:19-24 | Every password the server accepts meets the client criteria. |
| PasswordRule.ClientMatchesServerWithoutLineBreaks | mobile/src/screens/RegisterScreen.tsx:19-24 | Without line terminators, the client criteria and the server rule agree exactly. |
| PasswordRule.ClientAcceptsWhatServerRefuses | mobile/src/screens/RegisterScreen.tsx:19-24 | They differ in general: `Senha@123\n` meets every client criterion but the server refuses it. |
| ExceptionFilter.Field | backend/src/infra/http/filters/http-exception.filter.ts:24-26 | `b.key` is the field's value on an object that has the key, and undefined otherwise. |
| ExceptionFilter.Catch | backend/src/infra/http/filters/http-exception.filter.ts:8-36 | A non-HTTP exception gives `500` with the default message and error. An HttpException keeps its status. A string body becomes the message, with the class name as the error. For an object body, `message` and `error` fall back to the default message and the class name when absent or null. |
| ExceptionFilter.ToJson | backend/src/infra/http/filters/http-exception.filter.ts:35 | The body has exactly the keys `statusCode`, `message` and `error`, holding the caught status code, message and error. |
| ExceptionFilter.FromServiceError | backend/src/infra/http/filters/http-exception.filter.ts:17-33 | Only the store's missing-record error is not an HttpException. |
| ExceptionFilter.ServiceErrorResponse | backend/src/infra/http/filters/http-exception.filter.ts:13-35 | Each service error reaches the client with its status (409, 401, 404, or 500 for the missing record) and with its own message. A store refusal, which the task controller wraps in `InternalServerErrorException` (tasks.controller.ts:20-22), gives 500 with the store's message. |
| ExceptionFilter.AbsentUserUpdateStatus | backend/src/modules/users/users.service.ts:80-82 | The missing-record error reaches the client as a 500 with the default body. The intended `NotFound(USER_NOT_FOUND)` would reach it as a 404 with its message. |
| ResponseInterceptor.Intercept | backend/src/infra/http/interceptors/response.interceptor.ts:17-24 | A paginated response passes unchanged. Anything else becomes an object with the single key `data`, holding the value, or null for null or undefined. |
| ResponseInterceptor.InterceptShape | backend/src/infra/http/interceptors/response.interceptor.ts:5-13 | Every result has a `data` key, and the result is paginated exactly when the input was. |
| ResponseInterceptor.InterceptTwice | backend/src/infra/http/interceptors/response.interceptor.ts:19-22 | Intercepting twice equals intercepting once exactly for paginated responses. |
| Cors.TrimmedPieces | backend/src/main.ts:19-20 | One piece per comma-separated part of the setting, each piece trimmed. |
| Cors.AllowedOriginsShape | backend/src/main.ts:18-21 | The allow-list holds only non-empty trimmed pieces, and every non-empty trimmed piece is on it. |
| Cors.UnsetMeansEmpty | backend/src/main.ts:18 | An unset (`''`) setting gives an empty allow-list. |
| Cors.Decide | backend/src/main.ts:24-31 | A request is allowed exactly when it has no origin or its origin is listed. Otherwise the error names the origin. |
| Cors.EmptyListAllowsOnlyOriginless | backend/src/main.ts:26 | With an empty list, only requests without an origin pass. |
| Cors.ListedOriginAllowed | backend/src/main.ts:18-27 | An origin written first in the setting, with blanks before it and a comma after it, is allowed. |
| CreateTaskScreen.IsoToDisplay | mobile/src/screens/CreateTaskScreen.tsx:29-33 | The result is empty exactly when the input is. |
| CreateTaskScreen.IsoToDisplayParts | mobile/src/screens/CreateTaskScreen.tsx:29-33 | `yyyy-mm-dd` with dash-free parts becomes `dd/mm/yyyy`. |
| CreateTaskScreen.DisplayToIso | mobile/src/screens/CreateTaskScreen.tsx:36-41 | The result is non-empty exactly when the input splits on `/` into three parts and the last has at least 4 characters. |
| CreateTaskScreen.DisplayToIsoYearFirst | mobile/src/screens/CreateTaskScreen.tsx:40 | A converted date starts with the year part followed by `-`. |
| CreateTaskScreen.DisplayToIsoPadded | mobile/src/screens/CreateTaskScreen.tsx:36-41 | Any three `/`-free parts with a year of at least 4 characters become the year, `-`, the month left-padded with `0` to two characters, `-`, and the day padded the same way. Longer parts are kept whole. |
| CreateTaskScreen.PadOneChar | mobile/src/screens/CreateTaskScreen.tsx:40 | `padStart(2, '0')` puts a `0` before a one-character part. |
| CreateTaskScreen.DisplayToIsoPadExample | mobile/src/screens/CreateTaskScreen.tsx:36-41 | `1/2/2024` becomes `2024-02-01`. |
| CreateTaskScreen.DisplayToIsoParts | mobile/src/screens/CreateTaskScreen.tsx:36-41 | `dd/mm/yyyy` with two-character day and month becomes `yyyy-mm-dd`, the padding changing nothing. |
| CreateTaskScreen.IsoRoundTrip | mobile/src/screens/CreateTaskScreen.tsx:29-41 | For a well-formed `yyyy-mm-dd`, `displayToISO(isoToDisplay(s)) == s`. |
| CreateTaskScreen.DisplayRoundTrip | mobile/src/screens/CreateTaskScreen.tsx:29-41 | For a well-formed `dd/mm/yyyy`, `isoToDisplay(displayToISO(s)) == s`. |
| CreateTaskScreen.TypedDigits | mobile/src/screens/CreateTaskScreen.tsx:103 | The digits of the text, in order, cut to the first 8: a prefix of all the digits, whose length is the smaller of 8 and their number. |
| CreateTaskScreen.Mask | mobile/src/screens/CreateTaskScreen.tsx:102-107 | The mask holds only digits and `/`. A slash sits at index 2 when more than 2 digits were typed, and at index 5 when more than 4. |
| CreateTaskScreen.MaskKeepsDigits | mobile/src/screens/CreateTaskScreen.tsx:103-106 | Removing the slashes from the mask gives the first ≤ 8 digits typed. |
| CreateTaskScreen.MaskAccepted | mobile/src/screens/CreateTaskScreen.tsx:102-106 | Any input with at least 8 digits masks to a date that `displayToISO` accepts. |
| CreateTaskScreen.SavePayload | mobile/src/screens/CreateTaskScreen.tsx:80-85 | The title is trimmed. An empty trimmed description becomes undefined. The due date is the converted date, or undefined when the conversion gives `''`. |
| CreateTaskScreen.FailureAlert | mobile/src/screens/CreateTaskScreen.tsx:95 | The alert shows the server's message, or `Falha ao salvar tarefa` when that is null or undefined. |
| CreateTaskScreen.Save | mobile/src/screens/CreateTaskScreen.tsx:73-99 | A blank title shows `O título é obrigatório` and sends nothing. Otherwise exactly one create or update with the payload is sent, and loading ends. Success closes the screen; failure shows the failure alert. |
| CreateTaskScreen.SaveSendsAtMostOne | mobile/src/screens/CreateTaskScreen.tsx:74-91 | A press sends at most one request, and sends one exactly when the title is not blank. |
| CreateTaskScreen.Screen.constructor | mobile/src/screens/CreateTaskScreen.tsx:48-53 | Starts with empty fields, status TODO and not loading. |
| CreateTaskScreen.Screen.HandleDateTyping | mobile/src/screens/CreateTaskScreen.tsx:102-108 | Only the displayed date changes, to the mask of the text. |
| CreateTaskScreen.Screen.HandleSave | mobile/src/screens/CreateTaskScreen.tsx:73-99 | The new state is `Save` of the old one. |
| RegisterScreen.FailureMessage | mobile/src/screens/RegisterScreen.tsx:47-49 | A null or undefined message gives `Erro ao criar conta`. An array is joined with line breaks. Any other value is shown as it is. |
| RegisterScreen.ValidationMessagesOnePerLine | mobile/src/screens/RegisterScreen.tsx:49 | Two messages are shown as `a\nb`. |
| RegisterScreen.Submit | mobile/src/screens/RegisterScreen.tsx:34-53 | An empty field gives `Preencha todos os campos` and sends nothing. A weak password, checked after that, gives `Senha fraca` and sends nothing. Otherwise one registration is sent with the name trimmed and the email trimmed and lower-cased. Loading ends, and a failure shows its message. |
| RegisterScreen.SentOnlyWhenValid | mobile/src/screens/RegisterScreen.tsx:35-45 | A registration is sent only when every field is non-empty and the password meets the criteria. What is sent is the normalised form. |
| RegisterScreen.SentRegistrationIsNormalised | mobile/src/screens/RegisterScreen.tsx:39-45 | What reaches `register` meets all four criteria and has no upper-case ASCII letter in the email. |
| RegisterScreen.SubmitSendsAtMostOne | mobile/src/screens/RegisterScreen.tsx:34-53 | A press sends at most one registration. |
| RegisterScreen.Screen.constructor | mobile/src/screens/RegisterScreen.tsx:27-31 | Starts with empty fields and not loading. |
| RegisterScreen.Screen.Type | mobile/src/screens/RegisterScreen.tsx:70-91 | Typing changes only the three text fields. |
| RegisterScreen.Screen.HandleRegister | mobile/src/screens/RegisterScreen.tsx:34-53 | The new state is `Submit` of the old one. |
| RegisterPage.ErrorFor | frontend/src/pages/Register.tsx:40-46 | An Axios error's array message is joined with `, `. Its other message is kept, or replaced by the default when null or undefined. Any other error gives the default. |
| RegisterPage.Submit | frontend/src/pages/Register.tsx:28-50 | A weak password sets the error and sends nothing. Otherwise the error is cleared and the fields are sent as typed. Success navigates to `/`; failure sets `ErrorFor`. Loading ends either way. |
| RegisterPage.SentPasswordMeetsCriteria | frontend/src/pages/Register.tsx:21-33 | Whatever is sent is exactly what was typed, and its password meets all four criteria. |
| RegisterPage.SameCriteriaAsMobile | frontend/src/pages/Register.tsx:21-26 | For a filled-in form, the web page and the mobile screen send for exactly the same passwords. |
| RegisterPage.RegisterPage.constructor | frontend/src/pages/Register.tsx:12-17 | Starts with empty fields, no error and not loading. |
| RegisterPage.RegisterPage.HandleSubmit | frontend/src/pages/Register.tsx:28-50 | The new state is `Submit` of the old one. |
| MobileEnv.StripTrailingSlashes | mobile/src/config/env.ts:5 | The result is a prefix of the input that does not end in `/`, and everything removed is `/`. |
| MobileEnv.NormalizeUrl | mobile/src/config/env.ts:4-6 | The result is a prefix of the trimmed value with only slashes removed, and it does not end in `/`. |
| MobileEnv.NormalizeIdempotentWhenNoInnerSpace | mobile/src/config/env.ts:4-6 | Normalising twice is normalising once, provided the result does not end in whitespace. |
| MobileEnv.NormalizeNotIdempotent | mobile/src/config/env.ts:4-6 | Without that condition it is not idempotent: `x /` normalises to `x `, which normalises to `x`. |
| MobileEnv.ParseUrl | mobile/src/config/env.ts:8-23 | Succeeds with the normalised URL exactly when it parses and its protocol is allowed. Otherwise it fails with the invalid-URL message or the protocol message. |
| MobileEnv.ResolveRequiredUrl | mobile/src/config/env.ts:25-42 | A given value is parsed. A missing one gives the fallback in development and the required error in release. |
| MobileEnv.ResolveOptionalUrl | mobile/src/config/env.ts:44-60 | Never fails. A value that parses is used. An invalid or missing one gives the fallback in development and none in release. |
| MobileEnv.ReleaseOptionalIsValidated | mobile/src/config/env.ts:44-60 | In release, an optional URL is absent or a normalised URL with an allowed protocol and no trailing slash. |
| MobileEnv.RequiredIsValidatedOrFallback | mobile/src/config/env.ts:25-42 | A resolved required URL is the development fallback, or the normalised given value with an allowed protocol. |
| MobileEnv.MissingApiUrl | mobile/src/config/env.ts:62-67 | Without a setting, the API URL is the local server in development and an error in release. |
| MobileEnv.ApiProtocols | mobile/src/config/env.ts:62-67 | A resolved API URL from a setting has protocol `http:` or `https:`. |
| MobileEnv.MqttProtocols | mobile/src/config/env.ts:69-74 | In release, a resolved MQTT URL has protocol `ws:` or `wss:`. |
| MqttService.TopicFor | mobile/mqtt/mqttService.ts:43 | The topic is `tasks/notifications/` followed by exactly the user id. |
| MqttService.Deliveries | mobile/mqtt/mqttService.ts:27-35 | A payload that does not parse calls nothing. Otherwise there is one call per registered callback, in registration order, with the payload. |
| MqttService.Without | mobile/mqtt/mqttService.ts:53 | The callback no longer appears in the list. |
| MqttService.WithoutKeepsOthers | mobile/mqtt/mqttService.ts:52-55 | Unsubscribing keeps exactly the other callbacks. |
| MqttService.SubscribeThenUnsubscribe | mobile/mqtt/mqttService.ts:47-55 | Subscribing a new callback and calling its closure gives back the list as it was, in order. |
| MqttService.MqttService.constructor | mobile/mqtt/mqttService.ts:11-12 | Starts with no client, no subscribers and no superseded connection. |
| MqttService.MqttService.Connect | mobile/mqtt/mqttService.ts:14-20 | A no-op while connected. Otherwise a new connection, with id `mobile_<userId>_<now>`, becomes the current one. The old one is not ended and joins the superseded connections. Subscribers are untouched. |
| MqttService.MqttService.ConnectEndingPrevious | mobile/mqtt/mqttService.ts:14-20 | The corrected `connect`: as `Connect`, but the replaced connection is ended, so no superseded connection appears. It keeps the current client on its own user's topic. |
| MqttService.MqttService.HandleConnected | mobile/mqtt/mqttService.ts:22-25 | The connection that fired is marked connected. The current client, whichever connection fired, subscribes to the topic of the user that `connect` was given for the firing connection. With no superseded connection, the current client stays on its own user's topic. |
| MqttService.MqttService.HandleMessage | mobile/mqtt/mqttService.ts:27-35 | The calls made are exactly `Deliveries` of the topic's callbacks. |
| MqttService.MqttService.OnNotification | mobile/mqtt/mqttService.ts:47-51 | Appends the callback to the user's topic and returns a closure naming that topic and callback. |
| MqttService.MqttService.Unsubscribe | mobile/mqtt/mqttService.ts:52-55 | The topic's list becomes `Without` of it, and is written back even when it was empty. |
| MqttService.MqttService.Disconnect | mobile/mqtt/mqttService.ts:58-62 | No client and no subscribers remain. Superseded connections are left as they were. |
| MqttService.SubscribeUnsubscribe | mobile/mqtt/mqttService.ts:47-55 | Subscribing and then unsubscribing restores the topic's list and touches no other topic. |
| MqttService.DisconnectSilences | mobile/mqtt/mqttService.ts:58-62 | After a disconnect, no message reaches any callback. |
| MqttService.LateConnectSubscribesPreviousUser | mobile/mqtt/mqttService.ts:14-25 | After `connect` for one user and then for another, the first connection's late `connect` event subscribes the second user's client to the first user's topic. |
| MqttService.CorrectedConnectKeepsOwnTopic | mobile/mqtt/mqttService.ts:14-25 | With the corrected `connect`, the same sequence leaves the current client subscribed to its own user's topic only. |
| UseTasks.Prepend | frontend/src/hooks/useTasks.ts:75 | The created task comes first, followed by the old list. |
| UseTasks.ReplaceById | frontend/src/hooks/useTasks.ts:81 | Same length. Every task with the id is replaced by the updated one, and all others are kept in place. |
| UseTasks.ReplaceAbsentIsIdentity | frontend/src/hooks/useTasks.ts:81 | Replacing an id that is not on the list changes nothing. |
| UseTasks.RemoveById | frontend/src/hooks/useTasks.ts:87 | No task with the id remains, and the list does not grow. |
| UseTasks.RemoveKeepsOthers | frontend/src/hooks/useTasks.ts:87 | Exactly the tasks with other ids remain. |
| UseTasks.RemoveKeepsOrder | frontend/src/hooks/useTasks.ts:87 | Removing from a concatenation removes from each part, so the order is kept. |
| UseTasks.CreateThenRemove | frontend/src/hooks/useTasks.ts:73-88 | Creating a task with a new id and removing it gives back the list. |
| UseTasks.Fetch | frontend/src/hooks/useTasks.ts:24-56 | One request is sent for page `pageNum` with limit 10. A loaded page replaces or extends the list, moves `pageRef` and sets `hasMore = pageNum < totalPages`. A failure in replace mode sets the error. A cancellation changes nothing else. The mode's loading flag ends cleared. |
| UseTasks.LoadMore | frontend/src/hooks/useTasks.ts:67-71 | Nothing happens while loading. Otherwise the next page is fetched in append mode. |
| UseTasks.LoadMoreExtendsPrefix | frontend/src/hooks/useTasks.ts:67-71 | When the list holds pages 1..n, loading more gives pages 1..n+1: the first `(n+1)*10` rows in order. |
| UseTasks.FirstPageStartsPrefix | frontend/src/hooks/useTasks.ts:41-45 | Page 1 in replace mode makes the list exactly page 1. |
| UseTasks.TasksHook.constructor | frontend/src/hooks/useTasks.ts:14-21 | Starts with an empty list, nothing loading, no more pages, no error and page 1. |
| UseTasks.TasksHook.FetchPage | frontend/src/hooks/useTasks.ts:24-56 | The new state is `Fetch` of the old one. |
| UseTasks.TasksHook.DoLoadMore | frontend/src/hooks/useTasks.ts:67-71 | The new state is `LoadMore` of the old one. |
| UseTasks.TasksHook.CreateTask | frontend/src/hooks/useTasks.ts:73-77 | Returns the created task and prepends it. Nothing else changes. |
| UseTasks.TasksHook.UpdateTask | frontend/src/hooks/useTasks.ts:79-83 | Returns the updated task and replaces it by id. Nothing else changes. |
| UseTasks.TasksHook.RemoveTask | frontend/src/hooks/useTasks.ts:85-88 | Removes the tasks with the id. Nothing else changes. |
| TaskForm.InitialForm | frontend/src/components/TaskForm.tsx:13-19 | Absent fields start empty, and the status defaults to TODO. A non-empty due date is cut at the first `T`. There is no error and nothing is submitted. |
| TaskForm.Submit | frontend/src/components/TaskForm.tsx:21-34 | A blank title sets `O título é obrigatório` and submits nothing. Otherwise the error is cleared and one payload is submitted: the trimmed title, the trimmed description or undefined, the status, and the due date or undefined. |
| TaskForm.SubmittedTitleIsTrimmed | frontend/src/components/TaskForm.tsx:23-29 | A submitted title is non-empty and has no surrounding whitespace. |
| TaskForm.EditUnchanged | frontend/src/components/TaskForm.tsx:13-34 | Opening the form on a task and submitting it unchanged sends the task's fields back, with the due date cut to its date part. |
| TaskForm.TaskFormView.constructor | frontend/src/components/TaskForm.tsx:13-19 | The state is `InitialForm` of the task given. |
| TaskForm.TaskFormView.HandleSubmit | frontend/src/components/TaskForm.tsx:21-34 | The new state is `Submit` of the old one. |

## Left out

- Logging (`Logger`, `console.*`), Swagger, helmet and module wiring are not modelled. They do not affect results.
- The validation pipe (backend/src/main.ts:37-43) is not modelled as a step. Its effect is built into the DTO types: each field has the type its validators admit, a DTO field that is not declared is absent, and the `requires` clauses listed below state the numeric and format checks.
- **Things from outside become inputs:**
  - The random `jti`, the bcrypt salts, the store-generated ids and `Date.now()` are inputs.
  - Time-to-live values of the cache are not modelled.
  - `createdAt` and `updatedAt` are not modelled.
- **Libraries are abstract:**
  - bcrypt's cost factor and real hashing are not modelled. Digests are abstract.
  - JWT signatures and the base64url encoding are not modelled. A token verifies exactly under its own secret.
  - The `new URL` parser is the parameter `protocolOf`.
- **MQTT:**
  - Publishing from the backend is kept as a log of events; delivery and QoS are not modelled.
  - On the mobile side, `client.end()`, the `error` event, reconnection and the broker's own subscription state are not modelled beyond the list of topics asked for. A superseded connection's own subscriptions and messages are not modelled. Only its `connect` event, which acts on the current client, is.
  - A callback that throws inside the message handler is not modelled.
- **Requests and concurrency:**
  - Each awaited request and its answer are one atomic step.
  - Interleaving of concurrent requests is not modelled.
  - In `useTasks`, cancelling the previous request through the `AbortController` is not modelled. It is seen only as the `Cancelled` outcome of the request itself.
- **Rendering and navigation.** Rendering, navigation other than the web register page's `navigate('/')`, the browser's `required` check and the date picker are not modelled.
- **Strings.**
  - Strings are sequences of characters. JavaScript's UTF-16 lengths are not modelled.
  - `toLowerCase` is modelled for ASCII letters only.
  - `trim` uses the ECMAScript whitespace and line-terminator set.
- **Cache.** The store's `keys(pattern + '*')` is read as a prefix listing. This is exact for the pattern `tasks:all` the core uses; other glob characters in a pattern are not modelled.
- Crypto.CompareOnlyPreimage: assumes that a hash matches only its own input. bcryptjs uses only the first 72 bytes of the input. A password longer than 72 bytes therefore matches any string that shares its first 72 bytes. Every HS256 refresh token minted for one user, access tokens included, shares the header and the start of the `{"sub":"<userId>"…` payload, so its first 72 bytes are the same and `compare` accepts any of them against the stored hash. Auth.SessionFor ("compares true for the refresh token and nothing else"), Auth.LoginIffPassword and Auth.RefreshPresentsIssuedToken hold only under this assumption. For refresh the gap has no effect in the code, because the session row is selected by the verified token's own `jti`.
- Cors.EmptyListAllowsOnlyOriginless: the CORS rule is modelled as two separate facts: an empty setting gives an empty list (`UnsetMeansEmpty`), and an empty list lets only origin-less requests through (`EmptyListAllowsOnlyOriginless`). Their composition over `AllowedOrigins` is not stated as one lemma.
- Users.UsersService.Update: requires `dto.email` not to be `Some("")`. `UpdateUserHttpDto` validates an email with `@IsEmail` when one is present (backend/src/modules/users/http-dtos/update-user.http.dto.ts:10-13), so an empty one never reaches the service.
- Users.UsersService.UpdateAsWritten: carries the same requirement, for the same reason.
- Tasks.TasksService.FindAll: requires `page >= 1` and `limit >= 1`, as `PaginationQueryDto` enforces with `@Min(1)`.
- Users.FindAll: carries the same requirement, for the same reason.
- Tasks.TasksService.Create: the status default of TODO comes from the database schema. The schema is not part of this model.
- Tasks.TasksService.CreateAsWritten: takes the task's owner column to be required, as every row the seed script writes carries one (backend/prisma/seed-tasks.ts:173). The schema is not part of this model. With an optional column the store would instead keep an ownerless row and publish to `tasks/notifications/undefined`. The store's error message is a parameter. The pipe's `@IsDateString` format check on the due date is not modelled, and any string passes it.
- Tasks.ApplyUpdate: an explicit JSON `null` passes `@IsOptional` and reaches the store through `{ ...dto }`. The model does not tell `null` from an absent field. In the store a `null` description clears it, and a `null` title or status is refused. The model keeps the old value in all three cases. A `null` due date is modelled, since the `dto.dueDate ? … : undefined` guard drops it.
- Users.UsersService.UpdateAsWritten: explicit JSON `null` fields are not modelled either. A `null` name, email or password is refused by the store, which answers with 500, while the model keeps the old value and succeeds. The same holds for Users.UsersService.Update and Users.ApplyUpdate.
- Tasks.DueDateField: a set due date is kept as the string sent. The conversion `new Date(dueDate)` and the stored timestamp are not modelled (tasks.service.ts:30 and :80).
- UseTasks.Fetch: a request is recorded as its page and limit. The search and status filters spread into it are not modelled.
- PasswordRule.ServerRule: the server's `@IsString` check is implied by the types.

## Findings

| source | as written | input that shows it | evidently intended | confidence | as-written member | corrected member |
|---|---|---|---|---|---|---|
| backend/src/modules/users/users.service.ts:89-93 | `update` writes `data: { ...dto }`, so a new password is stored as plain text, and `bcrypt.compare` at login never matches it | `update(id, { password: "Nova@1234" })`, then `login` with `Nova@1234` | hash the new password as `create` does (users.service.ts:38-39) | high; not executed | Users.UpdatedPasswordRejected | Users.ApplyUpdate |
| backend/src/modules/users/users.service.ts:80-82 | `findById(id)` is not awaited, so `userExists` is a promise and always truthy. The guard never fires, and an absent id reaches `prisma.user.update`. That throws the store's missing-record error, which the filter answers with 500 | `update("no-such-id", { name: "x" })` on a table without that id | `NotFound(USER_NOT_FOUND)`, answered with 404 | high; not executed | Users.UsersService.UpdateAsWritten | Users.UsersService.Update |
| mobile/mqtt/mqttService.ts:14-25 | `connect` replaces `this.client` without ending the old client, which goes on connecting. The old client's `connect` handler captured the old `userId` but subscribes the current `this.client`. | `connect(url, "u1")` while the broker is unreachable, then `connect(url, "u2")`; the first client connects later | end the replaced client, so that only the current user's topic is subscribed | medium; not executed | MqttService.LateConnectSubscribesPreviousUser | MqttService.MqttService.ConnectEndingPrevious |
| backend/src/modules/tasks/tasks.service.ts:22-40 | `create` takes the owner from `dto.userId`. `CreateTaskHttpDto` declares no `userId`, and the validation pipe refuses a body that sends one (main.ts:37-43). So the owner is always `undefined` and the insert fails | `POST /api/v1/tasks` with `{ title: "t" }` by a signed-in user | the task is owned by, and its notification sent to, the authenticated caller | medium; not executed; that the insert fails assumes a required owner column, the schema not being part of this model | Tasks.TasksService.CreateAsWritten | Tasks.TasksService.Create |

=== FILE: arrays.dfy ===
/** The JavaScript array operations the core uses (`filter` and
    `findIndex`), with the facts about them that the reducers, the subscriber
    registry and the row lookups rely on. */
module Arrays {

  /** `s.filter(keep)`: the elements that pass, in their original order. */
  function Filter<T>(s: seq<T>, keep: T -> bool): (r: seq<T>)
    ensures |r| <= |s|
    ensures forall i :: 0 <= i < |r| ==> keep(r[i])
  {
    if s == [] then []
    else (if keep(s[0]) then [s[0]] else []) + Filter(s[1..], keep)
  }

  /** Nothing is added: every element kept comes from the input. */
  lemma {:induction false} FilterSubset<T>(s: seq<T>, keep: T -> bool)
    ensures forall x :: x in Filter(s, keep) ==> x in s
  {
    if s != [] {
      FilterSubset(s[1..], keep);
    }
  }

  /** Nothing that passes is dropped. */
  lemma {:induction false} FilterKeepsPassing<T>(s: seq<T>, keep: T -> bool, i: nat)
    requires i < |s| && keep(s[i])
    ensures s[i] in Filter(s, keep)
  {
    if i > 0 {
      FilterKeepsPassing(s[1..], keep, i - 1);
    }
  }

  /** Filtering a concatenation filters each part and keeps their order. */
  lemma {:induction false} FilterConcat<T>(a: seq<T>, b: seq<T>, keep: T -> bool)
    ensures Filter(a + b, keep) == Filter(a, keep) + Filter(b, keep)
  {
    if a == [] {
      assert a + b == b;
    } else {
      assert (a + b)[0] == a[0];
      assert (a + b)[1..] == a[1..] + b;
      FilterConcat(a[1..], b, keep);
    }
  }

  /** When every element passes, nothing is removed. */
  lemma {:induction false} FilterKeepsAll<T>(s: seq<T>, keep: T -> bool)
    requires forall i :: 0 <= i < |s| ==> keep(s[i])
    ensures Filter(s, keep) == s
  {
    if s != [] {
      FilterKeepsAll(s[1..], keep);
      assert [s[0]] + s[1..] == s;
    }
  }

  /** Filtering twice with the same test is filtering once. */
  lemma FilterIdempotent<T>(s: seq<T>, keep: T -> bool)
    ensures Filter(Filter(s, keep), keep) == Filter(s, keep)
  {
    var r := Filter(s, keep);
    FilterKeepsAll(r, keep);
  }

  /** `s.findIndex(p)`: the first index whose element passes, or -1. */
  function FindIndex<T>(s: seq<T>, p: T -> bool): (i: int)
    ensures -1 <= i < |s|
    ensures 0 <= i ==> p(s[i]) && forall k :: 0 <= k < i ==> !p(s[k])
    ensures i == -1 <==> forall k :: 0 <= k < |s| ==> !p(s[k])
  {
    if s == [] then -1
    else if p(s[0]) then 0
    else
      var j := FindIndex(s[1..], p);
      if j == -1 then -1 else j + 1
  }
}

=== FILE: auth_service.dfy ===
/** `AuthService`: registration, login, refresh-token rotation, logout and
    the profile lookup. Each successful register, login or refresh mints an
    access/refresh token pair and stores one session row, keyed by the
    refresh token's `jti`, holding a bcrypt hash of that refresh token. The
    random `jti`, the bcrypt salts and the current time are inputs. */
module Auth {
  import opened Base
  import opened Crypto
  import opened Jwt
  import opened Errors
  import opened Entities
  import Users

  /** The `JWT` section of the configuration: secrets and lifetimes (seconds). */
  datatype JwtConfig = JwtConfig(secret: string, expiration: nat, refreshSecret: string, refreshExpiration: nat)

  /** A `refreshToken` row (its id is the key of the session map). */
  datatype Session = Session(token: Digest<Token>, userId: string, expiresAt: int)

  datatype TokenPair = TokenPair(access: Token, refresh: Token)

  /** `{ user, access_token, refresh_token }` */
  datatype AuthResult = AuthResult(user: PublicUser, tokens: TokenPair)

  datatype LoginDto = LoginDto(email: string, password: string)

  /** The two tokens `_generateTokens` signs: the access token without a
      `jti`, under the access secret; the refresh token with the `jti`, under
      the refresh secret. */
  function MintPair(userId: string, email: string, jti: string, cfg: JwtConfig, now: int): (p: TokenPair)
    ensures p.access.claims.jti == None && p.refresh.claims.jti == Some(jti)
    ensures p.access.claims.sub == userId && p.refresh.claims.sub == userId
    ensures p.access.claims.email == email && p.refresh.claims.email == email
    ensures p.access.secret == cfg.secret && p.refresh.secret == cfg.refreshSecret
    ensures p.access.claims.exp == now + cfg.expiration && p.refresh.claims.exp == now + cfg.refreshExpiration
  {
    TokenPair(Sign(userId, email, None, cfg.secret, now, cfg.expiration),
              Sign(userId, email, Some(jti), cfg.refreshSecret, now, cfg.refreshExpiration))
  }

  /** With distinct secrets, neither token of a pair passes for the other
      kind: an access token is refused where a refresh token is expected,
      and the other way round. */
  lemma PairSecretsSeparate(userId: string, email: string, jti: string, cfg: JwtConfig, now: int, at: int)
    requires cfg.secret != cfg.refreshSecret
    ensures Verify(MintPair(userId, email, jti, cfg, now).access, cfg.refreshSecret, at) == Failure(InvalidSignature)
    ensures Verify(MintPair(userId, email, jti, cfg, now).refresh, cfg.secret, at) == Failure(InvalidSignature)
  {
    var p := MintPair(userId, email, jti, cfg, now);
    SecretIsolation(p.access, cfg.refreshSecret, at);
    SecretIsolation(p.refresh, cfg.secret, at);
  }

  /** The row stored for a refresh token: its hash, its subject, and its
      `exp` claim (seconds) as milliseconds. */
  function SessionFor(refresh: Token, salt: nat): (s: Session)
    ensures Compare(refresh, s.token)
    ensures forall other :: Compare(other, s.token) ==> other == refresh
    ensures s.userId == refresh.claims.sub && s.expiresAt == Decode(refresh).exp * 1000
  {
    Session(Hash(refresh, salt), refresh.claims.sub, Decode(refresh).exp * 1000)
  }

  /** Every row holds the hash of a refresh token whose `jti` is the row's key
      and whose subject is the row's user, and expires with that token. */
  ghost predicate SessionsWellFormed(sessions: map<string, Session>) {
    forall j :: j in sessions ==>
      sessions[j].token.preimage.claims.jti == Some(j) &&
      sessions[j].token.preimage.claims.sub == sessions[j].userId &&
      sessions[j].expiresAt == sessions[j].token.preimage.claims.exp * 1000
  }

  /** The two checks of `login`: an unknown email and a wrong password fail
      alike, with `INVALID_CREDENTIALS`. */
  function CheckCredentials(rows: seq<User>, dto: LoginDto): (r: Result<User, ServiceError>)
    ensures r.Success? <==>
              Users.FindByEmail(rows, dto.email).Some? &&
              CompareCredential(dto.password, Users.FindByEmail(rows, dto.email).value.password)
    ensures r.Success? ==> r.value == Users.FindByEmail(rows, dto.email).value && r.value.email == dto.email
    ensures r.Failure? ==> r.error == Unauthorized(INVALID_CREDENTIALS)
  {
    var found := Users.FindByEmail(rows, dto.email);
    if found.None? then Failure(Unauthorized(INVALID_CREDENTIALS))
    else if !CompareCredential(dto.password, found.value.password) then Failure(Unauthorized(INVALID_CREDENTIALS))
    else Success(found.value)
  }

  /** A login succeeds exactly for a registered email and the password that
      was hashed for it. */
  lemma LoginIffPassword(rows: seq<User>, k: nat, password: string)
    requires Users.UniqueKeys(rows) && k < |rows| && rows[k].password.Hashed?
    ensures CheckCredentials(rows, LoginDto(rows[k].email, password)).Success? <==>
              password == rows[k].password.digest.preimage
  {
    Users.FindByEmailUnique(rows, k);
    if CheckCredentials(rows, LoginDto(rows[k].email, password)).Success? {
      CompareOnlyPreimage(rows[k].password.digest.preimage, password, rows[k].password.digest.salt);
    }
  }

  /** The three checks of `refresh`, all failing with `ACCESS_DENIED`: a row
      for `jti` exists, belongs to `userId`, and holds the hash of the
      presented token. */
  function CheckRefresh(sessions: map<string, Session>, userId: string, jti: string, raw: Token): (r: Result<Session, ServiceError>)
    ensures r.Success? <==> jti in sessions && sessions[jti].userId == userId && Compare(raw, sessions[jti].token)
    ensures r.Success? ==> r.value == sessions[jti]
    ensures r.Failure? ==> r.error == Unauthorized(ACCESS_DENIED)
  {
    if jti !in sessions || sessions[jti].userId != userId then Failure(Unauthorized(ACCESS_DENIED))
    else if !Compare(raw, sessions[jti].token) then Failure(Unauthorized(ACCESS_DENIED))
    else Success(sessions[jti])
  }

  /** A refresh only goes through with the very token that was stored: its
      `jti` is the row's key and its subject the caller. */
  lemma RefreshPresentsIssuedToken(sessions: map<string, Session>, userId: string, jti: string, raw: Token)
    requires SessionsWellFormed(sessions)
    requires CheckRefresh(sessions, userId, jti, raw).Success?
    ensures raw == sessions[jti].token.preimage
    ensures raw.claims.jti == Some(jti) && raw.claims.sub == userId
  {
    CompareOnlyPreimage(sessions[jti].token.preimage, raw, sessions[jti].token.salt);
  }

  /** Once a row is gone, refreshing with it fails whatever is presented: a
      rotated refresh token cannot be replayed. */
  lemma ReplayRejected(sessions: map<string, Session>, userId: string, jti: string, raw: Token)
    ensures CheckRefresh(sessions - {jti}, userId, jti, raw) == Failure(Unauthorized(ACCESS_DENIED))
  {
  }

  /** `deleteMany({ where: { id: jti, userId } })` */
  function Revoke(sessions: map<string, Session>, userId: string, jti: string): (r: map<string, Session>)
    ensures jti in sessions && sessions[jti].userId == userId ==> jti !in r
    ensures forall j :: j in r <==> j in sessions && !(j == jti && sessions[j].userId == userId)
    ensures forall j :: j in r ==> r[j] == sessions[j]
  {
    if jti in sessions && sessions[jti].userId == userId then sessions - {jti} else sessions
  }

  /** A second logout with the same arguments changes nothing. */
  lemma RevokeIdempotent(sessions: map<string, Session>, userId: string, jti: string)
    ensures Revoke(Revoke(sessions, userId, jti), userId, jti) == Revoke(sessions, userId, jti)
  {
  }

  /** Another user's logout never removes a row. */
  lemma RevokeOnlyOwn(sessions: map<string, Session>, userId: string, jti: string)
    requires jti in sessions && sessions[jti].userId != userId
    ensures Revoke(sessions, userId, jti) == sessions
  {
  }

  class AuthService {
    const users: Users.UsersService
    const config: JwtConfig
    var sessions: map<string, Session>

    ghost predicate Valid()
      reads this, users
    {
      users.Valid() && SessionsWellFormed(sessions)
    }

    constructor (users: Users.UsersService, config: JwtConfig)
      requires users.Valid()
      ensures Valid() && sessions == map[] && this.users == users && this.config == config
    {
      this.users := users;
      this.config := config;
      sessions := map[];
    }

    /** `_generateTokens`: signs the pair and stores exactly one new row,
        under the fresh `jti`, for the refresh token. */
    method GenerateTokens(userId: string, email: string, jti: string, now: int, salt: nat) returns (pair: TokenPair)
      requires Valid() && jti !in sessions
      modifies this
      ensures Valid()
      ensures pair == MintPair(userId, email, jti, config, now)
      ensures sessions == old(sessions)[jti := SessionFor(pair.refresh, salt)]
    {
      pair := MintPair(userId, email, jti, config, now);
      sessions := sessions[jti := SessionFor(pair.refresh, salt)];
    }

    /** `register`: Conflict (no user, no row) for an email in use; otherwise
        one new user and one new session. */
    method Register(dto: Users.CreateUserDto, newId: string, passwordSalt: nat, jti: string, now: int, tokenSalt: nat)
      returns (r: Result<AuthResult, ServiceError>)
      requires Valid() && Users.FreshId(users.rows, newId) && jti !in sessions
      modifies this, users
      ensures Valid()
      ensures Users.FindByEmail(old(users.rows), dto.email).Some? ==>
                r == Failure(Conflict(EMAIL_ALREADY_EXISTS)) &&
                users.rows == old(users.rows) && sessions == old(sessions)
      ensures Users.FindByEmail(old(users.rows), dto.email).None? ==>
                var pair := MintPair(newId, dto.email, jti, config, now);
                users.rows == old(users.rows) + [User(newId, dto.name, dto.email, Hashed(Hash(dto.password, passwordSalt)))] &&
                sessions == old(sessions)[jti := SessionFor(pair.refresh, tokenSalt)] &&
                r == Success(AuthResult(PublicUser(newId, dto.name, dto.email), pair))
    {
      if Users.FindByEmail(users.rows, dto.email).Some? {
        return Failure(Conflict(EMAIL_ALREADY_EXISTS));
      }
      var created := users.Create(dto, newId, passwordSalt);
      var user := created.value;
      var pair := GenerateTokens(user.id, user.email, jti, now, tokenSalt);
      r := Success(AuthResult(user, pair));
    }

    /** `login`: Unauthorized with the same message for an unknown email and
        a wrong password, no row written; otherwise the user without its
        password and one new session. */
    method Login(dto: LoginDto, jti: string, now: int, salt: nat) returns (r: Result<AuthResult, ServiceError>)
      requires Valid() && jti !in sessions
      modifies this
      ensures Valid()
      ensures CheckCredentials(users.rows, dto).Failure? ==>
                r == Failure(Unauthorized(INVALID_CREDENTIALS)) && sessions == old(sessions)
      ensures CheckCredentials(users.rows, dto).Success? ==>
                var u := CheckCredentials(users.rows, dto).value;
                var pair := MintPair(u.id, u.email, jti, config, now);
                sessions == old(sessions)[jti := SessionFor(pair.refresh, salt)] &&
                r == Success(AuthResult(Public(u), pair))
    {
      var checked := CheckCredentials(users.rows, dto);
      if checked.Failure? {
        return Failure(checked.error);
      }
      var u := checked.value;
      var pair := GenerateTokens(u.id, u.email, jti, now, salt);
      r := Success(AuthResult(Public(u), pair));
    }

    /** `refresh`: ACCESS_DENIED with the sessions untouched unless the row
        checks out; otherwise the row is deleted first, then the user is
        looked up (NotFound leaves the row deleted and mints nothing), then a
        new pair is minted for the caller's `userId` and `email`. */
    method Refresh(userId: string, email: string, jti: string, raw: Token, newJti: string, now: int, salt: nat)
      returns (r: Result<AuthResult, ServiceError>)
      requires Valid() && newJti !in sessions
      modifies this
      ensures Valid()
      ensures CheckRefresh(old(sessions), userId, jti, raw).Failure? ==>
                r == Failure(Unauthorized(ACCESS_DENIED)) && sessions == old(sessions)
      ensures CheckRefresh(old(sessions), userId, jti, raw).Success? && Users.FreshId(users.rows, userId) ==>
                r == Failure(NotFound(USER_NOT_FOUND)) && sessions == old(sessions) - {jti}
      ensures CheckRefresh(old(sessions), userId, jti, raw).Success? && !Users.FreshId(users.rows, userId) ==>
                var pair := MintPair(userId, email, newJti, config, now);
                sessions == (old(sessions) - {jti})[newJti := SessionFor(pair.refresh, salt)] &&
                r == Success(AuthResult(Users.FindById(users.rows, userId).value, pair))
    {
      var checked := CheckRefresh(sessions, userId, jti, raw);
      if checked.Failure? {
        return Failure(checked.error);
      }
      sessions := sessions - {jti};
      var user := Users.FindById(users.rows, userId);
      if user.Failure? {
        return Failure(user.error);
      }
      var pair := GenerateTokens(userId, email, newJti, now, salt);
      r := Success(AuthResult(user.value, pair));
    }

    /** `logout`: removes the row only when both `jti` and `userId` match. */
    method Logout(userId: string, jti: string)
      requires Valid()
      modifies this
      ensures Valid()
      ensures sessions == Revoke(old(sessions), userId, jti)
    {
      sessions := Revoke(sessions, userId, jti);
    }

    /** `getProfile`: the user by id, NotFound when absent. */
    function GetProfile(userId: string): (r: Result<PublicUser, ServiceError>)
      reads this, users
      ensures r.Failure? <==> Users.FreshId(users.rows, userId)
      ensures r.Failure? ==> r.error == NotFound(USER_NOT_FOUND)
      ensures r.Success? ==>
                r.value.id == userId &&
                exists k :: 0 <= k < |users.rows| && users.rows[k].id == userId && r.value == Public(users.rows[k])
    {
      Users.FindById(users.rows, userId)
    }
  }

  /** Rotation end to end: after a successful refresh the old refresh token
      is refused, and the new one is accepted. */
  method RefreshThenReplay(s: AuthService, userId: string, email: string, jti: string, raw: Token,
                           newJti: string, now: int, salt: nat)
    requires s.Valid() && newJti !in s.sessions
    requires CheckRefresh(s.sessions, userId, jti, raw).Success? && !Users.FreshId(s.users.rows, userId)
    modifies s
    ensures CheckRefresh(s.sessions, userId, jti, raw).Failure?
    ensures CheckRefresh(s.sessions, userId, newJti, MintPair(userId, email, newJti, s.config, now).refresh).Success?
  {
    var _ := s.Refresh(userId, email, jti, raw, newJti, now, salt);
    CompareHashed(MintPair(userId, email, newJti, s.config, now).refresh, salt);
  }
}

=== FILE: base.dfy ===
/** Failure-compatible wrappers shared by every module of the model: a value
    that may be absent (JavaScript's `undefined`/`null`) and the outcome of an
    operation that may throw. */
module Base {

  datatype Option<+T> = None | Some(value: T) {
    predicate IsFailure() { None? }

    function PropagateFailure<U>(): Option<U>
      requires None?
    {
      None
    }

    function Extract(): T
      requires Some?
    {
      value
    }

    /** `x ?? d` */
    function GetOr(default: T): T {
      match this
      case Some(v) => v
      case None => default
    }
  }

  /** The outcome of an operation that either returns a value or throws `E`. */
  datatype Result<+R, +E> = Success(value: R) | Failure(error: E) {
    predicate IsFailure() { Failure? }

    function PropagateFailure<U>(): Result<U, E>
      requires Failure?
    {
      Failure(error)
    }

    function Extract(): R
      requires Success?
    {
      value
    }
  }
}

=== FILE: cors.dfy ===
/** The CORS rule of the HTTP server's bootstrap: the allow-list is the
    `CORS_ORIGINS` setting split on commas, each entry trimmed, empty entries
    dropped; a request without an origin is always let through, any other
    only when its origin is on the list. */
module Cors {
  import opened Base
  import opened Strings
  import Arrays

  /** `allowedOrigins`, for `setting` = `process.env.CORS_ORIGINS ?? ''`. */
  function AllowedOrigins(setting: string): seq<string> {
    Arrays.Filter(TrimmedPieces(setting), (o: string) => o != "")
  }

  /** The list holds exactly the non-empty trimmed pieces of the setting. */
  lemma AllowedOriginsShape(setting: string)
    ensures var pieces := TrimmedPieces(setting);
            var allowed := AllowedOrigins(setting);
            (forall i :: 0 <= i < |allowed| ==> allowed[i] != "" && allowed[i] in pieces) &&
            (forall i :: 0 <= i < |pieces| && pieces[i] != "" ==> pieces[i] in allowed)
  {
    var pieces := TrimmedPieces(setting);
    Arrays.FilterSubset(pieces, (o: string) => o != "");
    forall i | 0 <= i < |pieces| && pieces[i] != ""
      ensures pieces[i] in AllowedOrigins(setting)
    {
      Arrays.FilterKeepsPassing(pieces, (o: string) => o != "", i);
    }
  }

  /** `split(',').map((o) => o.trim())` */
  function TrimmedPieces(setting: string): (r: seq<string>)
    ensures |r| == |Split(setting, ',')|
    ensures forall i :: 0 <= i < |r| ==> r[i] == Trim(Split(setting, ',')[i])
  {
    var parts := Split(setting, ',');
    seq(|parts|, i requires 0 <= i < |parts| => Trim(parts[i]))
  }

  /** With the variable unset (read as `''`) or empty, the list is empty. */
  lemma UnsetMeansEmpty(setting: string)
    requires |setting| == 0
    ensures AllowedOrigins(setting) == []
  {
    assert Split(setting, ',') == [setting];
    assert TrimmedPieces(setting) == [setting];
  }

  datatype Decision = Allow | Deny(message: string)

  /** The `origin` callback; an empty origin header counts as none. */
  function Decide(allowed: seq<string>, origin: Option<string>): (r: Decision)
    ensures r == Allow <==> origin.None? || origin.value == "" || origin.value in allowed
    ensures r.Deny? ==> r.message == "Origem não permitida por CORS: " + origin.value
  {
    if origin.None? || origin.value == "" || origin.value in allowed then Allow
    else Deny("Origem não permitida por CORS: " + origin.value)
  }

  /** With an empty list (see `UnsetMeansEmpty`), only requests without an
      origin get through. */
  lemma EmptyListAllowsOnlyOriginless(allowed: seq<string>, origin: Option<string>)
    requires |allowed| == 0
    ensures Decide(allowed, origin) == Allow <==> origin.None? || origin.value == ""
  {
  }

  /** An origin listed between commas, with spaces around it, is allowed. */
  lemma ListedOriginAllowed(before: string, origin: string, after: string)
    requires ',' !in before && ',' !in origin
    requires origin != "" && Trim(origin) == origin
    requires forall i :: 0 <= i < |before| ==> IsJsWhitespace(before[i])
    ensures Decide(AllowedOrigins(before + origin + "," + after), Some(origin)) == Allow
  {
    var setting := before + origin + "," + after;
    assert ',' !in before + origin;
    assert setting == (before + origin) + [','] + after;
    SplitAtFirst(before + origin, ',', after);
    assert Split(setting, ',')[0] == before + origin;
    TrimAfterBlank(before, origin);
    assert TrimmedPieces(setting)[0] == origin;
  }

  /** Leading whitespace does not survive a trim. */
  lemma {:induction false} TrimAfterBlank(blank: string, s: string)
    requires forall i :: 0 <= i < |blank| ==> IsJsWhitespace(blank[i])
    requires s != "" && Trim(s) == s
    ensures Trim(blank + s) == s
  {
    if blank != [] {
      assert (blank + s)[1..] == blank[1..] + s;
      TrimAfterBlank(blank[1..], s);
      assert TrimStart(blank + s) == TrimStart(blank[1..] + s);
    } else {
      assert blank + s == s;
    }
  }
}

=== FILE: create_task_screen.dfy ===
/** The task editor screen of the mobile client: conversion between the
    stored `yyyy-mm-dd` date and the displayed `dd/mm/yyyy` one, the mask
    applied while the date is typed, and the save handler's guard and
    payload. */
module CreateTaskScreen {
  import opened Base
  import opened Strings
  import opened Json
  import opened Entities
  import opened Ui
  import Arrays

  /** Destructuring a missing array element and printing it gives `undefined`. */
  function PartOr(parts: seq<string>, i: nat): string {
    if i < |parts| then parts[i] else "undefined"
  }

  /** `isoToDisplay`: `yyyy-mm-dd` to `dd/mm/yyyy`; empty stays empty. */
  function IsoToDisplay(iso: string): (r: string)
    ensures iso == "" <==> r == ""
  {
    if iso == "" then ""
    else
      var parts := Split(iso, '-');
      PartOr(parts, 2) + "/" + PartOr(parts, 1) + "/" + PartOr(parts, 0)
  }

  /** `displayToISO`: `dd/mm/yyyy` to `yyyy-mm-dd`, with the day and month
      left-padded with `0` to two characters; empty unless the input has
      exactly three `/`-separated parts and the last has at least four
      characters. */
  function DisplayToIso(display: string): (r: string)
    ensures var parts := Split(display, '/');
            r != "" <==> |parts| == 3 && |parts[2]| >= 4
  {
    var parts := Split(display, '/');
    if |parts| != 3 || |parts[2]| < 4 then ""
    else parts[2] + "-" + PadStart(parts[1], 2, '0') + "-" + PadStart(parts[0], 2, '0')
  }

  /** A converted date starts with the year part, followed by `-`. */
  lemma DisplayToIsoYearFirst(display: string)
    requires DisplayToIso(display) != ""
    ensures var parts, r := Split(display, '/'), DisplayToIso(display);
            |r| > |parts[2]| && r[..|parts[2]|] == parts[2] && r[|parts[2]|] == '-'
  {
  }

  predicate AllDigits(s: string) {
    forall i :: 0 <= i < |s| ==> IsAsciiDigit(s[i])
  }

  lemma DigitsHaveNoSeparator(s: string, sep: char)
    requires AllDigits(s) && !IsAsciiDigit(sep)
    ensures sep !in s
  {
  }

  /** Splitting `a<sep>b<sep>c` with separator-free pieces gives the pieces. */
  lemma SplitThree(a: string, b: string, c: string, sep: char)
    requires sep !in a && sep !in b && sep !in c
    ensures Split(a + [sep] + b + [sep] + c, sep) == [a, b, c]
  {
    assert a + [sep] + b + [sep] + c == a + [sep] + (b + [sep] + c);
    SplitAtFirst(a, sep, b + [sep] + c);
    SplitAtFirst(b, sep, c);
    SplitWithoutSeparator(c, sep);
  }

  lemma PadTwoDigits(s: string)
    requires |s| == 2
    ensures PadStart(s, 2, '0') == s
  {
    var r := PadStart(s, 2, '0');
    assert r[0..] == r;
  }

  lemma IsoToDisplayParts(yyyy: string, mm: string, dd: string)
    requires '-' !in yyyy && '-' !in mm && '-' !in dd
    ensures IsoToDisplay(yyyy + "-" + mm + "-" + dd) == dd + "/" + mm + "/" + yyyy
  {
    SplitThree(yyyy, mm, dd, '-');
  }

  /** Any three `/`-free parts with a year of at least four characters are
      reordered, the day and month left-padded with `0` to two characters and
      never shortened. */
  lemma DisplayToIsoPadded(dd: string, mm: string, yyyy: string)
    requires '/' !in dd && '/' !in mm && '/' !in yyyy && |yyyy| >= 4
    ensures DisplayToIso(dd + "/" + mm + "/" + yyyy) ==
              yyyy + "-" + PadStart(mm, 2, '0') + "-" + PadStart(dd, 2, '0')
  {
    SplitThree(dd, mm, yyyy, '/');
  }

  /** A one-character part gains a leading `0`. */
  lemma PadOneChar(c: char)
    ensures PadStart([c], 2, '0') == ['0', c]
  {
    var r := PadStart([c], 2, '0');
    assert r[1..] == [c];
  }

  /** A one-digit day and month gain a leading `0`: `1/2/2024` becomes
      `2024-02-01`. */
  lemma DisplayToIsoPadExample()
    ensures DisplayToIso("1" + "/" + "2" + "/" + "2024") == "2024" + "-" + "02" + "-" + "01"
  {
    DisplayToIsoPadded("1", "2", "2024");
    PadOneChar('2');
    PadOneChar('1');
  }

  lemma DisplayToIsoParts(dd: string, mm: string, yyyy: string)
    requires '/' !in dd && '/' !in mm && '/' !in yyyy
    requires |dd| == 2 && |mm| == 2 && |yyyy| >= 4
    ensures DisplayToIso(dd + "/" + mm + "/" + yyyy) == yyyy + "-" + mm + "-" + dd
  {
    DisplayToIsoPadded(dd, mm, yyyy);
    PadTwoDigits(mm);
    PadTwoDigits(dd);
  }

  /** A well-formed stored date survives the trip to the display and back. */
  lemma IsoRoundTrip(yyyy: string, mm: string, dd: string)
    requires |yyyy| == 4 && |mm| == 2 && |dd| == 2
    requires AllDigits(yyyy) && AllDigits(mm) && AllDigits(dd)
    ensures DisplayToIso(IsoToDisplay(yyyy + "-" + mm + "-" + dd)) == yyyy + "-" + mm + "-" + dd
  {
    DigitsHaveNoSeparator(yyyy, '-'); DigitsHaveNoSeparator(mm, '-'); DigitsHaveNoSeparator(dd, '-');
    DigitsHaveNoSeparator(yyyy, '/'); DigitsHaveNoSeparator(mm, '/'); DigitsHaveNoSeparator(dd, '/');
    IsoToDisplayParts(yyyy, mm, dd);
    DisplayToIsoParts(dd, mm, yyyy);
  }

  /** And a well-formed displayed date survives the trip to storage and back. */
  lemma DisplayRoundTrip(dd: string, mm: string, yyyy: string)
    requires |yyyy| == 4 && |mm| == 2 && |dd| == 2
    requires AllDigits(yyyy) && AllDigits(mm) && AllDigits(dd)
    ensures IsoToDisplay(DisplayToIso(dd + "/" + mm + "/" + yyyy)) == dd + "/" + mm + "/" + yyyy
  {
    DigitsHaveNoSeparator(yyyy, '-'); DigitsHaveNoSeparator(mm, '-'); DigitsHaveNoSeparator(dd, '-');
    DigitsHaveNoSeparator(yyyy, '/'); DigitsHaveNoSeparator(mm, '/'); DigitsHaveNoSeparator(dd, '/');
    DisplayToIsoParts(dd, mm, yyyy);
    IsoToDisplayParts(yyyy, mm, dd);
  }

  /** `text.replace(/\D/g, '').slice(0, 8)` */
  function TypedDigits(text: string): (d: string)
    ensures |d| <= 8 && AllDigits(d)
    ensures var all := Arrays.Filter(text, IsAsciiDigit);
            d <= all && |d| == if |all| <= 8 then |all| else 8
  {
    var all := Arrays.Filter(text, IsAsciiDigit);
    if |all| <= 8 then all else all[..8]
  }

  /** `handleDateTyping`: the digits typed so far, with `/` after the day
      and after the month once there are digits beyond them. */
  function Mask(text: string): (r: string)
    ensures forall i :: 0 <= i < |r| ==> IsAsciiDigit(r[i]) || r[i] == '/'
    ensures |TypedDigits(text)| > 2 ==> |r| > 2 && r[2] == '/'
    ensures |TypedDigits(text)| > 4 ==> |r| > 5 && r[5] == '/'
  {
    Slashed(TypedDigits(text))
  }

  /** The formatting step of the mask, on the digits alone. */
  function Slashed(d: string): string {
    if |d| > 4 then d[..2] + "/" + d[2..4] + "/" + d[4..]
    else if |d| > 2 then d[..2] + "/" + d[2..]
    else d
  }

  predicate NotSlash(c: char) {
    c != '/'
  }

  /** Dropping the slashes from the mask gives back the digits. */
  lemma MaskKeepsDigits(text: string)
    ensures Arrays.Filter(Mask(text), NotSlash) == TypedDigits(text)
  {
    SlashedKeepsDigits(TypedDigits(text));
  }

  lemma SlashedKeepsDigits(d: string)
    requires AllDigits(d)
    ensures Arrays.Filter(Slashed(d), NotSlash) == d
  {
    if |d| > 4 {
      var a, b, c := d[..2], d[2..4], d[4..];
      assert Slashed(d) == (a + "/" + b) + "/" + c;
      DropSlash(a + "/" + b, c);
      DropSlash(a, b);
      KeepAllDigits(a); KeepAllDigits(b); KeepAllDigits(c);
      assert a + b + c == d;
    } else if |d| > 2 {
      var a, b := d[..2], d[2..];
      assert Slashed(d) == a + "/" + b;
      DropSlash(a, b);
      KeepAllDigits(a); KeepAllDigits(b);
      assert a + b == d;
    } else {
      KeepAllDigits(d);
    }
  }

  lemma DropSlash(a: string, b: string)
    ensures Arrays.Filter(a + "/" + b, NotSlash) == Arrays.Filter(a, NotSlash) + Arrays.Filter(b, NotSlash)
  {
    var slash := "/";
    assert Arrays.Filter(slash, NotSlash) == [];
    Arrays.FilterConcat(a + slash, b, NotSlash);
    Arrays.FilterConcat(a, slash, NotSlash);
  }

  lemma KeepAllDigits(s: string)
    requires AllDigits(s)
    ensures Arrays.Filter(s, NotSlash) == s
  {
    Arrays.FilterKeepsAll(s, NotSlash);
  }

  /** Once eight digits are typed, the mask is a date `displayToISO` takes. */
  lemma MaskAccepted(text: string)
    requires |Arrays.Filter(text, IsAsciiDigit)| >= 8
    ensures DisplayToIso(Mask(text)) != ""
  {
    var d := TypedDigits(text);
    assert |d| == 8;
    SlashedDate(d);
  }

  lemma SlashedDate(d: string)
    requires |d| == 8 && AllDigits(d)
    ensures DisplayToIso(Slashed(d)) != ""
  {
    var a, b, c := d[..2], d[2..4], d[4..];
    DigitsHaveNoSeparator(a, '/'); DigitsHaveNoSeparator(b, '/'); DigitsHaveNoSeparator(c, '/');
    SplitThree(a, b, c, '/');
    assert Slashed(d) == a + ['/'] + b + ['/'] + c;
  }

  /** The body `handleSave` sends: trimmed title, trimmed description or
      none, the converted date or none. */
  function SavePayload(title: string, description: string, status: TaskStatus, dueDateDisplay: string): (p: TaskPayload)
    ensures p.title == Trim(title) && p.status == status
    ensures p.description == NonEmpty(Trim(description))
    ensures p.dueDate.None? <==> DisplayToIso(dueDateDisplay) == ""
    ensures p.dueDate.Some? ==> p.dueDate.value == DisplayToIso(dueDateDisplay)
  {
    TaskPayload(Trim(title), NonEmpty(Trim(description)), status, NonEmpty(DisplayToIso(dueDateDisplay)))
  }

  datatype SaveRequest = CreateTask(payload: TaskPayload) | UpdateTask(id: string, payload: TaskPayload)

  const SAVE_FAILED: string := "Falha ao salvar tarefa"
  const TITLE_REQUIRED: string := "O título é obrigatório"

  /** `isEditing && taskId`: an update of that task, a create otherwise. */
  function RequestFor(taskId: Option<string>, payload: TaskPayload): SaveRequest {
    if taskId.Some? && taskId.value != "" then UpdateTask(taskId.value, payload) else CreateTask(payload)
  }

  /** The alert a failed request shows: the server's message, or the
      default when it is null or undefined. */
  function FailureAlert(message: Value): (a: Alert)
    ensures a.title == "Erro"
    ensures !IsNullish(message) ==> a.message == message
    ensures IsNullish(message) ==> a.message == Str(SAVE_FAILED)
  {
    Alert("Erro", Coalesce(message, Str(SAVE_FAILED)))
  }

  /** The screen's state: the form fields, the loading flag, and what the
      screen has shown, sent and whether it has navigated back. */
  datatype Form = Form(title: string, description: string, status: TaskStatus, dueDateDisplay: string,
                       isLoading: bool, alerts: seq<Alert>, requests: seq<SaveRequest>, closed: bool)

  /** One press of the save button. A blank title shows the title alert and
      sends nothing; otherwise one request is sent, after which the screen
      closes (success) or shows the failure alert, and loading ends. */
  function Save(f: Form, taskId: Option<string>, failure: Option<Value>): (g: Form)
    ensures g.title == f.title && g.description == f.description && g.status == f.status
    ensures g.dueDateDisplay == f.dueDateDisplay
    ensures IsBlank(f.title) ==>
              g.alerts == f.alerts + [Alert("Erro", Str(TITLE_REQUIRED))] && g.requests == f.requests &&
              g.isLoading == f.isLoading && g.closed == f.closed
    ensures !IsBlank(f.title) ==>
              g.requests == f.requests + [RequestFor(taskId, SavePayload(f.title, f.description, f.status, f.dueDateDisplay))] &&
              !g.isLoading && g.closed == (f.closed || failure.None?) &&
              (failure.None? ==> g.alerts == f.alerts) &&
              (failure.Some? ==> g.alerts == f.alerts + [FailureAlert(failure.value)])
  {
    if IsBlank(f.title) then f.(alerts := f.alerts + [Alert("Erro", Str(TITLE_REQUIRED))])
    else
      var sent := f.(requests := f.requests + [RequestFor(taskId, SavePayload(f.title, f.description, f.status, f.dueDateDisplay))],
                     isLoading := false);
      if failure.None? then sent.(closed := true)
      else sent.(alerts := f.alerts + [FailureAlert(failure.value)])
  }

  /** A press sends at most one request, and sends one exactly when the
      title is not blank. */
  lemma SaveSendsAtMostOne(f: Form, taskId: Option<string>, failure: Option<Value>)
    ensures var g := Save(f, taskId, failure);
            f.requests <= g.requests && |g.requests| <= |f.requests| + 1 &&
            (|g.requests| == |f.requests| + 1 <==> !IsBlank(f.title))
  {
  }

  class Screen {
    var title: string
    var description: string
    var status: TaskStatus
    var dueDateDisplay: string
    var isLoading: bool
    var alerts: seq<Alert>
    var requests: seq<SaveRequest>
    var closed: bool

    function State(): Form
      reads this
    {
      Form(title, description, status, dueDateDisplay, isLoading, alerts, requests, closed)
    }

    constructor ()
      ensures State() == Form("", "", Todo, "", false, [], [], false)
    {
      title, description, status, dueDateDisplay := "", "", Todo, "";
      isLoading, alerts, requests, closed := false, [], [], false;
    }

    /** The date field's `onChangeText`. */
    method HandleDateTyping(text: string)
      modifies this
      ensures State() == old(State()).(dueDateDisplay := Mask(text))
    {
      dueDateDisplay := Mask(text);
    }

    /** `handleSave`. `taskId` is the route's task id; `failure` is the
        rejected request's `response.data.message` (Undefined when absent),
        or None when the request succeeds. */
    method HandleSave(taskId: Option<string>, failure: Option<Value>)
      modifies this
      ensures State() == Save(old(State()), taskId, failure)
    {
      var g := Save(State(), taskId, failure);
      alerts, requests, isLoading, closed := g.alerts, g.requests, g.isLoading, g.closed;
    }
  }
}

=== FILE: crypto.dfy ===
/** bcrypt, as the core uses it: `hash(plain, cost)` draws a random salt and
    `compare(plain, hash)` tells whether `plain` is what was hashed. The model
    keeps the salt (supplied by the caller, since randomness is an input here)
    and the hashed value; nothing but `Compare` looks inside a digest, so the
    only facts the rest of the model can use are the two lemmas below. */
module Crypto {

  datatype Digest<T> = Digest(salt: nat, preimage: T)

  function Hash<T>(plain: T, salt: nat): Digest<T> {
    Digest(salt, plain)
  }

  predicate Compare<T(==)>(plain: T, digest: Digest<T>) {
    digest.preimage == plain
  }

  /** `compare(s, hash(s))` holds, whatever salt was drawn. */
  lemma CompareHashed<T>(s: T, salt: nat)
    ensures Compare(s, Hash(s, salt))
  {
  }

  /** `compare(t, hash(s))` holds only for `t == s`. */
  lemma CompareOnlyPreimage<T>(s: T, t: T, salt: nat)
    requires Compare(t, Hash(s, salt))
    ensures t == s
  {
  }

  /** What a password column can hold: a bcrypt hash, or (when a write skipped
      hashing) the plain text itself. `bcrypt.compare` against a value that is
      not a bcrypt hash never succeeds. */
  datatype Credential = Hashed(digest: Digest<string>) | Plain(text: string)

  predicate CompareCredential(password: string, stored: Credential) {
    stored.Hashed? && Compare(password, stored.digest)
  }
}

/** Signed JSON Web Tokens (RFC 7519): the claims `sub` (section 4.1.2),
    `exp` (section 4.1.4), `iat` (section 4.1.6) and the optional `jti`
    (section 4.1.7), plus the secret the token was signed with. Signatures and
    the base64url wire format are not modelled: a token verifies under a
    secret exactly when it was signed with that secret. */
module Jwt {
  import opened Base

  datatype Claims = Claims(sub: string, email: string, jti: Option<string>, iat: int, exp: int)

  datatype Token = Token(claims: Claims, secret: string)

  /** `jwtService.sign(payload, {secret, expiresIn})` at time `now` (seconds). */
  function Sign(sub: string, email: string, jti: Option<string>, secret: string, now: int, expiresIn: nat): (t: Token)
    ensures t.claims.sub == sub && t.claims.email == email && t.claims.jti == jti
    ensures t.claims.exp == t.claims.iat + expiresIn && t.claims.iat == now
    ensures t.secret == secret
  {
    Token(Claims(sub, email, jti, now, now + expiresIn), secret)
  }

  /** `jwtService.decode(token)`: reads the claims without checking anything. */
  function Decode(t: Token): Claims {
    t.claims
  }

  datatype VerifyError = InvalidSignature | Expired

  /** Signature and expiry check, as passport-jwt performs it before `validate`. */
  function Verify(t: Token, secret: string, now: int): (r: Result<Claims, VerifyError>)
    ensures r.Success? <==> t.secret == secret && now < t.claims.exp
    ensures r.Success? ==> r.value == t.claims
  {
    if t.secret != secret then Failure(InvalidSignature)
    else if now >= t.claims.exp then Failure(Expired)
    else Success(t.claims)
  }

  /** A token never verifies under a secret other than the one it was signed with. */
  lemma SecretIsolation(t: Token, other: string, now: int)
    requires other != t.secret
    ensures Verify(t, other, now) == Failure(InvalidSignature)
  {
  }
}

=== FILE: entities.dfy ===
/** The messages of `HTTP_MESSAGES` and the exceptions the services throw. */
module Errors {

  const INVALID_CREDENTIALS: string := "Credências inválidas"
  const ACCESS_DENIED: string := "Acesso negado"
  const USER_NOT_FOUND: string := "Usuário não encontrado"
  const EMAIL_ALREADY_EXISTS: string := "E-mail de usuário já cadastrado"
  const TASK_NOT_FOUND: string := "Tarefa não encontra"

  /** What a service operation can throw: NestJS's `ConflictException`,
      `UnauthorizedException` (with or without a message) and
      `NotFoundException`, and Prisma's "record to update/delete not found"
      error, which is not an HTTP exception. */
  datatype ServiceError =
    | Conflict(message: string)
    | Unauthorized(reason: string)
    | UnauthorizedNoMessage
    | NotFound(message: string)
    | RecordNotFound
    | StoreRefused(detail: string)
}

/** The rows of the relational store and the values the cache holds. */
module Entities {
  import opened Base
  import opened Crypto
  import Json

  datatype User = User(id: string, name: string, email: string, password: Credential)

  /** A user as `_userFieldsToGet` selects it: every field but the password. */
  datatype PublicUser = PublicUser(id: string, name: string, email: string)

  function Public(u: User): PublicUser {
    PublicUser(u.id, u.name, u.email)
  }

  datatype TaskStatus = Todo | InProgress | Done

  datatype Task = Task(
    id: string,
    title: string,
    description: Option<string>,
    status: TaskStatus,
    dueDate: Option<string>,
    userId: string)

  /** `new PaginatedResultDto(data, total, page, limit)` */
  datatype Paginated<T> = Paginated(data: seq<T>, total: nat, page: int, limit: int)

  /** `(page - 1) * limit`: the rows before a page. */
  function Skip(page: int, limit: int): (n: nat)
    requires page >= 1 && limit >= 1
    ensures n == (page - 1) * limit
  {
    (page - 1) * limit
  }

  /** `findMany({ skip: (page - 1) * limit, take: limit })` with `count()`, for
      the page and limit `PaginationQueryDto` admits (both at least 1). */
  function PageOf<T>(rows: seq<T>, page: int, limit: int): (r: Paginated<T>)
    requires page >= 1 && limit >= 1
    ensures r.total == |rows| && r.page == page && r.limit == limit
    ensures var skip := Skip(page, limit);
            |r.data| == if skip >= |rows| then 0
                        else if |rows| - skip < limit then |rows| - skip
                        else limit
    ensures var skip := Skip(page, limit);
            |r.data| <= limit && (|r.data| > 0 ==> skip + |r.data| <= |rows|)
    ensures forall i :: 0 <= i < |r.data| ==> r.data[i] == rows[Skip(page, limit) + i]
  {
    var skip := Skip(page, limit);
    var from := if skip < |rows| then skip else |rows|;
    var to := if from + limit < |rows| then from + limit else |rows|;
    Paginated(rows[from..to], |rows|, page, limit)
  }

  /** Every page is a window of `limit` consecutive rows: pages 1..n cover the
      first n * limit rows in order. */
  lemma {:induction false} PagesCoverPrefix<T>(rows: seq<T>, limit: int, n: nat)
    requires limit >= 1
    ensures |Concat(rows, limit, n)| == if n * limit < |rows| then n * limit else |rows|
    ensures Concat(rows, limit, n) == rows[..if n * limit < |rows| then n * limit else |rows|]
  {
    if n > 0 {
      PagesCoverPrefix(rows, limit, n - 1);
      var prev := if (n - 1) * limit < |rows| then (n - 1) * limit else |rows|;
      var next := if n * limit < |rows| then n * limit else |rows|;
      assert Skip(n, limit) == (n - 1) * limit;
      assert PageOf(rows, n, limit).data == rows[prev..next];
      assert rows[..prev] + rows[prev..next] == rows[..next];
    }
  }

  /** The data of pages 1..n concatenated. */
  function Concat<T>(rows: seq<T>, limit: int, n: nat): seq<T>
    requires limit >= 1
  {
    if n == 0 then [] else Concat(rows, limit, n - 1) + PageOf(rows, n, limit).data
  }

  /** What the cache holds: a task-list page, or any other JSON value written
      by code outside the core. */
  datatype CacheValue = TaskPage(result: Paginated<Task>) | Other(value: Json.Value)

  /** `if (cached)`: a page object is truthy; other values by JavaScript's rule. */
  predicate Truthy(v: CacheValue) {
    v.TaskPage? || Json.Truthy(v.value)
  }
}

=== FILE: exception_filter.dfy ===
/** `GlobalExceptionFilter.catch`: every exception becomes a response with
    a status code and the body `{ statusCode, message, error }`. */
module ExceptionFilter {
  import opened Json
  import opened Errors

  /** What reaches the filter: an `HttpException` (status, class name and
      the body `getResponse()` returns) or anything else. */
  datatype Exception = HttpException(status: int, name: string, body: Value) | OtherError

  datatype ErrorBody = ErrorBody(statusCode: int, message: Value, error: Value)

  const DEFAULT_MESSAGE: string := "Internal server error"
  const DEFAULT_ERROR: string := "Internal Server Error"

  /** `b.key` on an object body (arrays have neither key). */
  function Field(body: Value, key: string): (v: Value)
    ensures HasKey(body, key) ==> v == body.fields[key]
    ensures !HasKey(body, key) ==> v == Undefined
  {
    if body.Obj? && key in body.fields then body.fields[key] else Undefined
  }

  function Catch(e: Exception): (r: ErrorBody)
    ensures e.OtherError? ==> r == ErrorBody(500, Str(DEFAULT_MESSAGE), Str(DEFAULT_ERROR))
    ensures e.HttpException? ==> r.statusCode == e.status
    ensures e.HttpException? && e.body.Str? ==> r.message == e.body && r.error == Str(e.name)
    ensures e.HttpException? && (e.body.Obj? || e.body.Arr?) ==>
              (IsNullish(Field(e.body, "message")) ==> r.message == Str(DEFAULT_MESSAGE)) &&
              (!IsNullish(Field(e.body, "message")) ==> r.message == Field(e.body, "message")) &&
              (IsNullish(Field(e.body, "error")) ==> r.error == Str(e.name)) &&
              (!IsNullish(Field(e.body, "error")) ==> r.error == Field(e.body, "error"))
    ensures e.HttpException? && !(e.body.Str? || e.body.Obj? || e.body.Arr?) ==>
              r == ErrorBody(e.status, Str(DEFAULT_MESSAGE), Str(DEFAULT_ERROR))
  {
    match e
    case OtherError => ErrorBody(500, Str(DEFAULT_MESSAGE), Str(DEFAULT_ERROR))
    case HttpException(status, name, body) =>
      if body.Str? then ErrorBody(status, body, Str(name))
      else if body.Obj? || body.Arr? then
        ErrorBody(status, Coalesce(Field(body, "message"), Str(DEFAULT_MESSAGE)),
                  Coalesce(Field(body, "error"), Str(name)))
      else ErrorBody(status, Str(DEFAULT_MESSAGE), Str(DEFAULT_ERROR))
  }

  /** The JSON the filter writes: exactly the three keys. */
  function ToJson(b: ErrorBody): (v: Value)
    ensures v.Obj? && v.fields.Keys == {"statusCode", "message", "error"}
    ensures v.fields["statusCode"] == Num(b.statusCode)
    ensures v.fields["message"] == b.message && v.fields["error"] == b.error
  {
    Obj(map["statusCode" := Num(b.statusCode), "message" := b.message, "error" := b.error])
  }

  /** The exceptions the services throw, as NestJS builds them:
      `new XException(message)` has the body `{ statusCode, message, error }`,
      `new UnauthorizedException()` the body `{ statusCode, message:
      'Unauthorized' }`; Prisma's missing-record error is not an
      `HttpException`. */
  function FromServiceError(e: ServiceError): (x: Exception)
    ensures e.RecordNotFound? <==> x.OtherError?
  {
    match e
    case Conflict(m) => HttpException(409, "ConflictException", NestBody(409, Str(m), Some("Conflict")))
    case Unauthorized(m) => HttpException(401, "UnauthorizedException", NestBody(401, Str(m), Some("Unauthorized")))
    case UnauthorizedNoMessage => HttpException(401, "UnauthorizedException", NestBody(401, Str("Unauthorized"), None))
    case NotFound(m) => HttpException(404, "NotFoundException", NestBody(404, Str(m), Some("Not Found")))
    case RecordNotFound => OtherError
    case StoreRefused(m) => HttpException(500, "InternalServerErrorException", NestBody(500, Str(m), Some("Internal Server Error")))
  }

  datatype MaybeText = None | Some(text: string)

  function NestBody(status: int, message: Value, error: MaybeText): (v: Value)
    ensures v.Obj? && "message" in v.fields && v.fields["message"] == message
    ensures error.Some? ==> "error" in v.fields && v.fields["error"] == Str(error.text)
    ensures error.None? ==> "error" !in v.fields
  {
    var base := map["statusCode" := Num(status), "message" := message];
    Obj(if error.Some? then base["error" := Str(error.text)] else base)
  }

  /** The HTTP status a service error reaches the client with. */
  function StatusOf(e: ServiceError): int {
    match e
    case Conflict(_) => 409
    case Unauthorized(_) => 401
    case UnauthorizedNoMessage => 401
    case NotFound(_) => 404
    case RecordNotFound => 500
    case StoreRefused(_) => 500
  }

  /** Every service error reaches the client with its status, and every
      message-carrying one with its message. */
  lemma ServiceErrorResponse(e: ServiceError)
    ensures Catch(FromServiceError(e)).statusCode == StatusOf(e)
    ensures (e.Conflict? || e.NotFound?) ==> Catch(FromServiceError(e)).message == Str(e.message)
    ensures e.StoreRefused? ==> Catch(FromServiceError(e)) == ErrorBody(500, Str(e.detail), Str("Internal Server Error"))
    ensures e.Unauthorized? ==> Catch(FromServiceError(e)) == ErrorBody(401, Str(e.reason), Str("Unauthorized"))
    ensures e.UnauthorizedNoMessage? ==>
              Catch(FromServiceError(e)) == ErrorBody(401, Str("Unauthorized"), Str("UnauthorizedException"))
  {
  }

  /** An update of an absent user, as `UsersService.update` is written, ends
      in the store's missing-record error and so in a 500; the NotFound the
      service means to throw would reach the client as a 404. */
  lemma AbsentUserUpdateStatus()
    ensures Catch(FromServiceError(RecordNotFound)) == ErrorBody(500, Str(DEFAULT_MESSAGE), Str(DEFAULT_ERROR))
    ensures Catch(FromServiceError(NotFound(USER_NOT_FOUND))).statusCode == 404
    ensures Catch(FromServiceError(NotFound(USER_NOT_FOUND))).message == Str(USER_NOT_FOUND)
  {
  }
}

=== FILE: json.dfy ===
/** JavaScript values as the HTTP layer and the loggers see them: what a
    handler returns, what an exception carries, what a log record holds.
    Numbers are integers here; floating point is not part of this model. */
module Json {
  import Strings

  datatype Value =
    | Undefined
    | Null
    | Bool(b: bool)
    | Num(n: int)
    | Str(s: string)
    | Arr(items: seq<Value>)
    | Obj(fields: map<string, Value>)

  /** `v === null || v === undefined` */
  predicate IsNullish(v: Value) {
    v.Undefined? || v.Null?
  }

  /** `v ?? d` */
  function Coalesce(v: Value, d: Value): (r: Value)
    ensures IsNullish(v) ==> r == d
    ensures !IsNullish(v) ==> r == v
  {
    if IsNullish(v) then d else v
  }

  /** JavaScript truthiness (`if (v)`). */
  predicate Truthy(v: Value) {
    match v
    case Undefined => false
    case Null => false
    case Bool(b) => b
    case Num(n) => n != 0
    case Str(s) => s != ""
    case Arr(_) => true
    case Obj(_) => true
  }

  /** `Object.prototype.hasOwnProperty`-style key test: `key in v` for an object. */
  predicate HasKey(v: Value, key: string) {
    v.Obj? && key in v.fields
  }

  /** `String(v)`, as `Array.prototype.join` and template strings render a
      value: an array joins its elements with `,`, a null or undefined
      element counting as empty. */
  function ToText(v: Value): (t: string)
    ensures v.Str? ==> t == v.s
    ensures v.Num? && v.n >= 0 ==> t == Strings.NatToString(v.n)
  {
    match v
    case Undefined => "undefined"
    case Null => "null"
    case Bool(b) => if b then "true" else "false"
    case Num(n) => if n < 0 then "-" + Strings.NatToString(-n) else Strings.NatToString(n)
    case Str(s) => s
    case Arr(items) =>
      Strings.Join(seq(|items|, i requires 0 <= i < |items| =>
                         if IsNullish(items[i]) then "" else ToText(items[i])), ",")
    case Obj(_) => "[object Object]"
  }

  /** `items.join(sep)` */
  function JoinValues(items: seq<Value>, sep: string): (t: string)
    ensures (forall i :: 0 <= i < |items| ==> items[i].Str?) ==>
              t == Strings.Join(seq(|items|, i requires 0 <= i < |items| => items[i].s), sep)
  {
    var texts := seq(|items|, i requires 0 <= i < |items| => if IsNullish(items[i]) then "" else ToText(items[i]));
    if forall i :: 0 <= i < |items| ==> items[i].Str? then
      assert texts == seq(|items|, i requires 0 <= i < |items| => items[i].s);
      Strings.Join(texts, sep)
    else
      Strings.Join(texts, sep)
  }
}

=== FILE: jwt_strategy.dfy ===
/** `JwtStrategy.validate`: runs after the access token's signature and
    expiry have been checked. A token with a `jti` is refused when the cache
    holds a truthy value under `blacklist:access:<jti>`; the subject is then
    looked up, and an absent user makes the lookup throw NotFound. The
    function reads the cache and the user table and writes neither. */
module JwtStrategy {
  import opened Base
  import opened Errors
  import opened Entities
  import opened Jwt
  import Users
  import Auth

  const BLACKLIST_PREFIX: string := "blacklist:access:"

  function BlacklistKey(jti: string): (key: string)
    ensures BLACKLIST_PREFIX <= key && key[|BLACKLIST_PREFIX|..] == jti
  {
    BLACKLIST_PREFIX + jti
  }

  /** `if (payload.jti)`: present and non-empty. */
  predicate HasJti(payload: Claims) {
    payload.jti.Some? && payload.jti.value != ""
  }

  predicate Blacklisted(payload: Claims, cache: map<string, CacheValue>) {
    HasJti(payload) && BlacklistKey(payload.jti.value) in cache && Truthy(cache[BlacklistKey(payload.jti.value)])
  }

  function Validate(payload: Claims, cache: map<string, CacheValue>, rows: seq<User>): (r: Result<PublicUser, ServiceError>)
    ensures Blacklisted(payload, cache) ==> r == Failure(UnauthorizedNoMessage)
    ensures !Blacklisted(payload, cache) && Users.FreshId(rows, payload.sub) ==> r == Failure(NotFound(USER_NOT_FOUND))
    ensures r.Success? <==> !Blacklisted(payload, cache) && !Users.FreshId(rows, payload.sub)
    ensures r.Success? ==>
              r.value.id == payload.sub &&
              exists k :: 0 <= k < |rows| && rows[k].id == payload.sub && r.value == Public(rows[k])
  {
    if Blacklisted(payload, cache) then Failure(UnauthorizedNoMessage)
    else Users.FindById(rows, payload.sub)
  }

  /** A payload without a `jti` is never refused by the blacklist, whatever
      the cache holds: only the user lookup decides. */
  lemma NoJtiSkipsBlacklist(payload: Claims, cache: map<string, CacheValue>, rows: seq<User>)
    requires payload.jti.None?
    ensures Validate(payload, cache, rows) == Users.FindById(rows, payload.sub)
  {
  }

  /** Access tokens carry no `jti`, so blacklisting never rejects them. */
  lemma AccessTokensNeverBlacklisted(userId: string, email: string, jti: string, cfg: Auth.JwtConfig, now: int,
                                     cache: map<string, CacheValue>, rows: seq<User>)
    ensures var access := Auth.MintPair(userId, email, jti, cfg, now).access;
            Validate(Decode(access), cache, rows) == Users.FindById(rows, userId)
  {
    var access := Auth.MintPair(userId, email, jti, cfg, now).access;
    NoJtiSkipsBlacklist(Decode(access), cache, rows);
  }

  /** A user that does not exist is refused with the lookup's NotFound, not
      with Unauthorized: the check after the lookup is never reached. */
  lemma MissingUserIsNotFound(payload: Claims, cache: map<string, CacheValue>, rows: seq<User>)
    requires Users.FreshId(rows, payload.sub)
    ensures Validate(payload, cache, rows).Failure?
    ensures !Blacklisted(payload, cache) ==> Validate(payload, cache, rows) == Failure(NotFound(USER_NOT_FOUND))
  {
  }
}

=== FILE: mobile_env.dfy ===
/** The URL settings of the mobile client: normalising a configured URL,
    validating it, and falling back or failing when it is missing. The URL
    parser is a parameter: `protocolOf(u)` is the `protocol` of `new URL(u)`,
    or None when the constructor throws. Whether the build is a development
    build (`__DEV__`) is a parameter too. */
module MobileEnv {
  import opened Base
  import opened Strings

  const LOCAL_API_URL: string := "http://172.25.96.1:3000/api"
  const LOCAL_MQTT_URL: string := "ws://localhost:9001"

  /** `replace(/\/+$/, '')`: every trailing `/` removed. */
  function StripTrailingSlashes(s: string): (r: string)
    ensures r <= s
    ensures r == [] || r[|r| - 1] != '/'
    ensures forall i :: |r| <= i < |s| ==> s[i] == '/'
  {
    if s != [] && s[|s| - 1] == '/' then StripTrailingSlashes(s[..|s| - 1]) else s
  }

  /** `normalizeUrl`: trimmed, then without trailing slashes. */
  function NormalizeUrl(value: string): (r: string)
    ensures r <= Trim(value)
    ensures r == [] || r[|r| - 1] != '/'
    ensures forall i :: |r| <= i < |Trim(value)| ==> Trim(value)[i] == '/'
  {
    StripTrailingSlashes(Trim(value))
  }

  /** Normalising again changes nothing, unless removing the slashes left
      whitespace at the end. */
  lemma NormalizeIdempotentWhenNoInnerSpace(value: string)
    requires var r := NormalizeUrl(value); r == [] || !IsJsWhitespace(r[|r| - 1])
    ensures NormalizeUrl(NormalizeUrl(value)) == NormalizeUrl(value)
  {
    var t, r := Trim(value), NormalizeUrl(value);
    TrimShape(value);
    if r != [] {
      assert r[0] == t[0];
    }
    TrimOfTrimmed(r);
  }

  /** Without that condition normalising is not idempotent: a space before
      the trailing slash survives the first pass and is trimmed by the second. */
  lemma NormalizeNotIdempotent()
    ensures NormalizeUrl("x /") == "x "
    ensures NormalizeUrl(NormalizeUrl("x /")) == "x"
  {
    var s := "x /";
    assert TrimStart(s) == s;
    assert TrimEnd(s) == s;
    assert StripTrailingSlashes(s) == StripTrailingSlashes("x ");
    var t := "x ";
    assert TrimStart(t) == t;
    assert TrimEnd(t) == TrimEnd("x");
  }

  function InvalidUrlMessage(name: string, value: string): string {
    "[config] " + name + " has an invalid URL: " + value
  }

  function ProtocolMessage(name: string, protocols: seq<string>): string {
    "[config] " + name + " must use one of: " + Join(protocols, ", ")
  }

  function RequiredMessage(name: string): string {
    "[config] " + name + " is required in release builds. Configure it in EAS environment variables or mobile/eas.json."
  }

  /** `parseUrl`: the normalised value when it parses and its protocol is
      allowed; the thrown error's message otherwise. */
  function ParseUrl(name: string, value: string, protocols: seq<string>, protocolOf: string -> Option<string>): (r: Result<string, string>)
    ensures r.Success? <==> protocolOf(NormalizeUrl(value)).Some? && protocolOf(NormalizeUrl(value)).value in protocols
    ensures r.Success? ==> r.value == NormalizeUrl(value)
    ensures protocolOf(NormalizeUrl(value)).None? ==> r == Failure(InvalidUrlMessage(name, value))
    ensures protocolOf(NormalizeUrl(value)).Some? && protocolOf(NormalizeUrl(value)).value !in protocols ==>
              r == Failure(ProtocolMessage(name, protocols))
  {
    var normalized := NormalizeUrl(value);
    var parsed := protocolOf(normalized);
    if parsed.None? then Failure(InvalidUrlMessage(name, value))
    else if parsed.value !in protocols then Failure(ProtocolMessage(name, protocols))
    else Success(normalized)
  }

  /** `rawValue?.trim()` is truthy. */
  predicate Given(rawValue: Option<string>) {
    rawValue.Some? && !IsBlank(rawValue.value)
  }

  /** `resolveRequiredUrl` */
  function ResolveRequiredUrl(name: string, rawValue: Option<string>, protocols: seq<string>, devFallback: string,
                              dev: bool, protocolOf: string -> Option<string>): (r: Result<string, string>)
    ensures Given(rawValue) ==> r == ParseUrl(name, rawValue.value, protocols, protocolOf)
    ensures !Given(rawValue) && dev ==> r == Success(devFallback)
    ensures !Given(rawValue) && !dev ==> r == Failure(RequiredMessage(name))
  {
    if Given(rawValue) then ParseUrl(name, rawValue.value, protocols, protocolOf)
    else if dev then Success(devFallback)
    else Failure(RequiredMessage(name))
  }

  /** `resolveOptionalUrl`: never fails; an invalid or missing value gives the
      fallback in development builds and nothing in release builds. */
  function ResolveOptionalUrl(name: string, rawValue: Option<string>, protocols: seq<string>, devFallback: string,
                              dev: bool, protocolOf: string -> Option<string>): (r: Option<string>)
    ensures var parsed := if Given(rawValue) then ParseUrl(name, rawValue.value, protocols, protocolOf)
                          else Failure("");
            (parsed.Success? ==> r == Some(parsed.value)) &&
            (parsed.Failure? && dev ==> r == Some(devFallback)) &&
            (parsed.Failure? && !dev ==> r == None)
  {
    if Given(rawValue) then
      match ParseUrl(name, rawValue.value, protocols, protocolOf)
      case Success(u) => Some(u)
      case Failure(_) => if dev then Some(devFallback) else None
    else if dev then Some(devFallback) else None
  }

  /** In a release build an optional URL is either absent or a validated,
      normalised URL with an allowed protocol and no trailing slash. */
  lemma ReleaseOptionalIsValidated(name: string, rawValue: Option<string>, protocols: seq<string>, devFallback: string,
                                   protocolOf: string -> Option<string>)
    ensures var r := ResolveOptionalUrl(name, rawValue, protocols, devFallback, false, protocolOf);
            r.Some? ==>
              Given(rawValue) && r.value == NormalizeUrl(rawValue.value) &&
              protocolOf(r.value).Some? && protocolOf(r.value).value in protocols &&
              (r.value == [] || r.value[|r.value| - 1] != '/')
  {
    var r := ResolveOptionalUrl(name, rawValue, protocols, devFallback, false, protocolOf);
    if r.Some? {
      assert Given(rawValue);
      assert ParseUrl(name, rawValue.value, protocols, protocolOf).Success?;
    }
  }

  /** A required URL that resolves is, likewise, validated or the fallback. */
  lemma RequiredIsValidatedOrFallback(name: string, rawValue: Option<string>, protocols: seq<string>, devFallback: string,
                                      dev: bool, protocolOf: string -> Option<string>)
    ensures var r := ResolveRequiredUrl(name, rawValue, protocols, devFallback, dev, protocolOf);
            r.Success? ==>
              (dev && r.value == devFallback) ||
              (Given(rawValue) && r.value == NormalizeUrl(rawValue.value) &&
               protocolOf(r.value).Some? && protocolOf(r.value).value in protocols)
  {
  }

  /** `API_URL` */
  function ApiUrl(rawValue: Option<string>, dev: bool, protocolOf: string -> Option<string>): Result<string, string> {
    ResolveRequiredUrl("EXPO_PUBLIC_API_URL", rawValue, ["http:", "https:"], LOCAL_API_URL, dev, protocolOf)
  }

  /** `MQTT_URL` */
  function MqttUrl(rawValue: Option<string>, dev: bool, protocolOf: string -> Option<string>): Option<string> {
    ResolveOptionalUrl("EXPO_PUBLIC_MQTT_URL", rawValue, ["ws:", "wss:"], LOCAL_MQTT_URL, dev, protocolOf)
  }

  /** A release build without an API URL refuses to start; a development
      build uses the local server. */
  lemma MissingApiUrl(dev: bool, protocolOf: string -> Option<string>)
    ensures ApiUrl(None, dev, protocolOf) == if dev then Success(LOCAL_API_URL) else Failure(RequiredMessage("EXPO_PUBLIC_API_URL"))
  {
  }

  /** The API URL accepts only the `http:` and `https:` protocols. */
  lemma ApiProtocols(raw: string, dev: bool, protocolOf: string -> Option<string>)
    requires !IsBlank(raw)
    ensures var p := protocolOf(NormalizeUrl(raw));
            ApiUrl(Some(raw), dev, protocolOf).Success? ==> p == Some("http:") || p == Some("https:")
  {
    var p := protocolOf(NormalizeUrl(raw));
    if ApiUrl(Some(raw), dev, protocolOf).Success? {
      assert ParseUrl("EXPO_PUBLIC_API_URL", raw, ["http:", "https:"], protocolOf).Success?;
      assert p.value in ["http:", "https:"];
    }
  }

  /** In a release build the MQTT URL has the `ws:` or `wss:` protocol. */
  lemma MqttProtocols(raw: string, protocolOf: string -> Option<string>)
    requires !IsBlank(raw)
    ensures var p := protocolOf(NormalizeUrl(raw));
            MqttUrl(Some(raw), false, protocolOf).Some? ==> p == Some("ws:") || p == Some("wss:")
  {
    var p := protocolOf(NormalizeUrl(raw));
    if MqttUrl(Some(raw), false, protocolOf).Some? {
      assert ParseUrl("EXPO_PUBLIC_MQTT_URL", raw, ["ws:", "wss:"], protocolOf).Success?;
      assert p.value in ["ws:", "wss:"];
    }
  }
}

=== FILE: mqtt_service.dfy ===
/** The mobile client's MQTT notification service: one broker connection and
    a registry of callbacks per topic. A callback is known by its identity
    (the service compares callbacks with `!==`), modelled as a number. The
    broker connection is a record of what the service asked of it. */
module MqttService {
  import opened Base
  import opened Strings
  import opened Json
  import Arrays

  type Callback = nat

  const TOPIC_PREFIX: string := "tasks/notifications/"

  /** `tasks/notifications/${userId}` */
  function TopicFor(userId: string): (topic: string)
    ensures TOPIC_PREFIX <= topic && topic[|TOPIC_PREFIX|..] == userId
  {
    TOPIC_PREFIX + userId
  }

  /** `mobile_${userId}_${Date.now()}`, the clock reading being a parameter. */
  function ClientId(userId: string, now: nat): string {
    "mobile_" + userId + "_" + NatToString(now)
  }

  /** A broker connection: where it goes, the user its `connect` handler
      subscribes for, whether it is connected, and the topics subscribed. */
  datatype Client = Client(brokerUrl: string, clientId: string, userId: string, connected: bool, topics: seq<string>)

  /** One call `cb(payload)`. */
  datatype Delivery = Delivery(callback: Callback, payload: Value)

  /** What the unsubscribe closure returned by `onNotification` captures. */
  datatype Unsubscriber = Unsubscriber(topic: string, callback: Callback)

  /** The calls a message makes: one per registered callback, in
      registration order, and none when the payload does not parse. */
  function Deliveries(callbacks: seq<Callback>, payload: Option<Value>): (d: seq<Delivery>)
    ensures payload.None? ==> d == []
    ensures payload.Some? ==> |d| == |callbacks|
    ensures payload.Some? ==> forall i :: 0 <= i < |d| ==> d[i] == Delivery(callbacks[i], payload.value)
  {
    if payload.None? then []
    else seq(|callbacks|, i requires 0 <= i < |callbacks| => Delivery(callbacks[i], payload.value))
  }

  /** `list.filter((cb) => cb !== callback)` */
  function Without(callbacks: seq<Callback>, callback: Callback): (r: seq<Callback>)
    ensures callback !in r
  {
    var r := Arrays.Filter(callbacks, (c: Callback) => c != callback);
    assert forall i :: 0 <= i < |r| ==> r[i] != callback;
    r
  }

  /** Removing a callback keeps every other one that was registered. */
  lemma WithoutKeepsOthers(callbacks: seq<Callback>, callback: Callback)
    ensures forall c :: c in Without(callbacks, callback) <==> c in callbacks && c != callback
  {
    Arrays.FilterSubset(callbacks, (c: Callback) => c != callback);
    forall i | 0 <= i < |callbacks| && callbacks[i] != callback
      ensures callbacks[i] in Without(callbacks, callback)
    {
      Arrays.FilterKeepsPassing(callbacks, (c: Callback) => c != callback, i);
    }
  }

  /** Subscribing a new callback and unsubscribing it gives back the list as
      it was, in the same order. */
  lemma SubscribeThenUnsubscribe(callbacks: seq<Callback>, callback: Callback)
    requires callback !in callbacks
    ensures Without(callbacks + [callback], callback) == callbacks
  {
    var keep := (c: Callback) => c != callback;
    Arrays.FilterConcat(callbacks, [callback], keep);
    Arrays.FilterKeepsAll(callbacks, keep);
    assert Arrays.Filter([callback], keep) == [];
  }

  /** The connection whose event fires: the current one, or one that a later
      `connect` replaced without ending it. */
  datatype Emitter = Current | Superseded(index: nat)

  class MqttService {
    var client: Option<Client>
    var subscribers: map<string, seq<Callback>>
    /** Connections that `connect` replaced: nothing ends them, so they keep
        connecting, and their handlers still act on the service. */
    var superseded: seq<Client>

    constructor ()
      ensures client == None && subscribers == map[] && superseded == []
    {
      client := None;
      subscribers := map[];
      superseded := [];
    }

    /** `subscribers.get(topic) ?? []` */
    function Listeners(topic: string): seq<Callback>
      reads this
    {
      if topic in subscribers then subscribers[topic] else []
    }

    /** The current connection subscribes only to its own user's topic. */
    predicate OwnTopicOnly()
      reads this
    {
      client.Some? ==> forall i :: 0 <= i < |client.value.topics| ==> client.value.topics[i] == TopicFor(client.value.userId)
    }

    /** `connect`: a no-op while connected; otherwise a new connection
        takes the place of the old one, which is not ended. */
    method Connect(brokerUrl: string, userId: string, now: nat)
      modifies this
      ensures old(client).Some? && old(client).value.connected ==> client == old(client) && superseded == old(superseded)
      ensures !(old(client).Some? && old(client).value.connected) ==>
                client == Some(Client(brokerUrl, ClientId(userId, now), userId, false, [])) &&
                superseded == old(superseded) + (if old(client).Some? then [old(client).value] else [])
      ensures subscribers == old(subscribers)
    {
      if client.Some? && client.value.connected {
        return;
      }
      if client.Some? {
        superseded := superseded + [client.value];
      }
      client := Some(Client(brokerUrl, ClientId(userId, now), userId, false, []));
    }

    /** `connect` as it is evidently meant: the connection being replaced is
        ended first, so no connection outlives its place. */
    method ConnectEndingPrevious(brokerUrl: string, userId: string, now: nat)
      modifies this
      ensures old(client).Some? && old(client).value.connected ==> client == old(client)
      ensures !(old(client).Some? && old(client).value.connected) ==>
                client == Some(Client(brokerUrl, ClientId(userId, now), userId, false, []))
      ensures superseded == old(superseded) && subscribers == old(subscribers)
      ensures old(OwnTopicOnly()) ==> OwnTopicOnly()
    {
      if client.Some? && client.value.connected {
        return;
      }
      client := Some(Client(brokerUrl, ClientId(userId, now), userId, false, []));
    }

    /** A connection's `connect` event. Its handler subscribes the user id
        that `connect` was given for that connection, and it subscribes the
        service's current client, whichever connection fired. */
    method HandleConnected(from: Emitter)
      requires from.Superseded? ==> from.index < |superseded|
      modifies this
      ensures from.Current? && old(client).None? ==> client == None && superseded == old(superseded)
      ensures from.Current? && old(client).Some? ==>
                client == Some(old(client).value.(connected := true,
                                                  topics := old(client).value.topics + [TopicFor(old(client).value.userId)])) &&
                superseded == old(superseded)
      ensures from.Superseded? ==>
                superseded == old(superseded)[from.index := old(superseded)[from.index].(connected := true)] &&
                client == (if old(client).None? then None
                           else Some(old(client).value.(topics := old(client).value.topics +
                                                         [TopicFor(old(superseded)[from.index].userId)])))
      ensures old(superseded) == [] && old(OwnTopicOnly()) ==> OwnTopicOnly()
      ensures subscribers == old(subscribers)
    {
      match from
      case Current =>
        if client.Some? {
          var c := client.value;
          client := Some(c.(connected := true, topics := c.topics + [TopicFor(c.userId)]));
        }
      case Superseded(i) =>
        var late := superseded[i];
        superseded := superseded[i := late.(connected := true)];
        if client.Some? {
          var c := client.value;
          client := Some(c.(topics := c.topics + [TopicFor(late.userId)]));
        }
    }

    /** The connection's `message` event: each callback registered for the
        topic is called with the parsed payload, in order. `payload` is None
        when the message is not valid JSON. */
    method HandleMessage(topic: string, payload: Option<Value>) returns (calls: seq<Delivery>)
      ensures calls == Deliveries(Listeners(topic), payload)
    {
      calls := [];
      if payload.None? {
        return;
      }
      var callbacks := Listeners(topic);
      var i := 0;
      while i < |callbacks|
        invariant 0 <= i <= |callbacks|
        invariant |calls| == i
        invariant forall k :: 0 <= k < i ==> calls[k] == Delivery(callbacks[k], payload.value)
      {
        calls := calls + [Delivery(callbacks[i], payload.value)];
        i := i + 1;
      }
    }

    /** `onNotification`: appends the callback to the user's topic and
        returns the closure that removes it. */
    method OnNotification(userId: string, callback: Callback) returns (unsubscribe: Unsubscriber)
      modifies this
      ensures subscribers == old(subscribers)[TopicFor(userId) := old(Listeners(TopicFor(userId))) + [callback]]
      ensures unsubscribe == Unsubscriber(TopicFor(userId), callback)
      ensures client == old(client)
    {
      var topic := TopicFor(userId);
      subscribers := subscribers[topic := Listeners(topic) + [callback]];
      unsubscribe := Unsubscriber(topic, callback);
    }

    /** Calling the closure: every occurrence of the callback leaves the
        topic's list, which is written back even when it had none. */
    method Unsubscribe(u: Unsubscriber)
      modifies this
      ensures subscribers == old(subscribers)[u.topic := Without(old(Listeners(u.topic)), u.callback)]
      ensures client == old(client)
    {
      subscribers := subscribers[u.topic := Without(Listeners(u.topic), u.callback)];
    }

    /** `disconnect`: the current connection is dropped and every callback
        forgotten; superseded connections are not reached. */
    method Disconnect()
      modifies this
      ensures client == None && subscribers == map[] && superseded == old(superseded)
    {
      client := None;
      subscribers := map[];
    }
  }

  /** A screen that subscribes and later unsubscribes leaves the registry of
      its topic as it found it, and no other topic is touched. */
  method SubscribeUnsubscribe(s: MqttService, userId: string, callback: Callback)
    requires callback !in s.Listeners(TopicFor(userId))
    modifies s
    ensures s.Listeners(TopicFor(userId)) == old(s.Listeners(TopicFor(userId)))
    ensures forall t :: t != TopicFor(userId) ==> s.Listeners(t) == old(s.Listeners(t))
  {
    var before := s.Listeners(TopicFor(userId));
    var u := s.OnNotification(userId, callback);
    s.Unsubscribe(u);
    SubscribeThenUnsubscribe(before, callback);
  }

  /** After a disconnect no message reaches any callback. */
  method DisconnectSilences(s: MqttService, topic: string, payload: Option<Value>) returns (calls: seq<Delivery>)
    modifies s
    ensures calls == []
  {
    s.Disconnect();
    calls := s.HandleMessage(topic, payload);
  }

  /** Two `connect` calls for different users before the first connection
      succeeds: when the first one connects late, the current client, which
      belongs to the second user, is subscribed to the first user's topic. */
  method LateConnectSubscribesPreviousUser(s: MqttService, url: string, first: string, second: string, t1: nat, t2: nat)
    requires s.client.None? && first != second
    modifies s
    ensures s.client.Some? && s.client.value.userId == second
    ensures TopicFor(first) in s.client.value.topics && TopicFor(first) != TopicFor(second)
    ensures !s.OwnTopicOnly()
  {
    s.Connect(url, first, t1);
    s.Connect(url, second, t2);
    s.HandleConnected(Superseded(|s.superseded| - 1));
    assert s.client.value.topics == [TopicFor(first)];
  }

  /** With the corrected `connect`, a run that starts from a fresh service
      keeps the current client on its own user's topic only. */
  method CorrectedConnectKeepsOwnTopic(s: MqttService, url: string, first: string, second: string, t1: nat, t2: nat)
    requires s.client.None? && s.superseded == []
    modifies s
    ensures s.client.Some? && s.client.value.userId == second
    ensures s.superseded == [] && s.OwnTopicOnly()
  {
    s.ConnectEndingPrevious(url, first, t1);
    s.ConnectEndingPrevious(url, second, t2);
    s.HandleConnected(Current);
  }
}

=== FILE: password_rule.dfy ===
/** The password rules. The server validates `CreateUserHttpDto.password`
    with a minimum length of 8 and the pattern
    `^(?=.*[A-Z])(?=.*\d)(?=.*[\W_]).+$` (no flags); the registration screens
    of the web and mobile clients check four separate criteria first. In the
    pattern `.` matches any character but a line terminator, so the server
    also refuses a password that contains one; the clients' criteria do not
    look at line terminators. Lengths count characters. */
module PasswordRule {
  import opened Strings

  predicate HasUpper(p: string) {
    exists i :: 0 <= i < |p| && IsAsciiUpper(p[i])
  }

  predicate HasDigit(p: string) {
    exists i :: 0 <= i < |p| && IsAsciiDigit(p[i])
  }

  /** `[\W_]`: a character that is not an ASCII letter or digit. */
  predicate HasSpecial(p: string) {
    exists i :: 0 <= i < |p| && !IsAsciiAlnum(p[i])
  }

  predicate HasLineTerminator(p: string) {
    exists i :: 0 <= i < |p| && IsLineTerminator(p[i])
  }

  /** What one left-to-right pass of the pattern has seen. */
  datatype Seen = Seen(upper: bool, digit: bool, special: bool, lineBreak: bool)

  function Scan(p: string): (r: Seen)
    ensures r.upper <==> HasUpper(p)
    ensures r.digit <==> HasDigit(p)
    ensures r.special <==> HasSpecial(p)
    ensures r.lineBreak <==> HasLineTerminator(p)
  {
    if p == [] then Seen(false, false, false, false)
    else
      var rest := Scan(p[1..]);
      assert forall i :: 1 <= i < |p| ==> p[i] == p[1..][i - 1];
      Seen(rest.upper || IsAsciiUpper(p[0]),
           rest.digit || IsAsciiDigit(p[0]),
           rest.special || !IsAsciiAlnum(p[0]),
           rest.lineBreak || IsLineTerminator(p[0]))
  }

  /** `@MinLength(8)` and `@Matches(...)` on the password. */
  predicate ServerAccepts(p: string) {
    var seen := Scan(p);
    |p| >= 8 && seen.upper && seen.digit && seen.special && !seen.lineBreak
  }

  /** The server rule, criterion by criterion. */
  lemma ServerRule(p: string)
    ensures ServerAccepts(p) <==>
              |p| >= 8 && HasUpper(p) && HasDigit(p) && HasSpecial(p) && !HasLineTerminator(p)
  {
  }

  /** One entry of `PASSWORD_CRITERIA` (mobile) / `passwordCriteria` (web). */
  datatype Criterion = MinLength8 | UpperLetter | Digit | SpecialChar

  const CRITERIA: seq<Criterion> := [MinLength8, UpperLetter, Digit, SpecialChar]

  predicate Met(c: Criterion, p: string) {
    match c
    case MinLength8 => |p| >= 8
    case UpperLetter => HasUpper(p)
    case Digit => HasDigit(p)
    case SpecialChar => HasSpecial(p)
  }

  /** `criteria.some((c) => !c.test(p))`: some criterion fails. */
  predicate Weak(p: string) {
    exists i :: 0 <= i < |CRITERIA| && !Met(CRITERIA[i], p)
  }

  lemma ClientCriteria(p: string)
    ensures !Weak(p) <==> |p| >= 8 && HasUpper(p) && HasDigit(p) && HasSpecial(p)
  {
    if !(|p| >= 8 && HasUpper(p) && HasDigit(p) && HasSpecial(p)) {
      if |p| < 8 { assert !Met(CRITERIA[0], p); }
      else if !HasUpper(p) { assert !Met(CRITERIA[1], p); }
      else if !HasDigit(p) { assert !Met(CRITERIA[2], p); }
      else { assert !Met(CRITERIA[3], p); }
    }
  }

  /** Whatever the server accepts, the clients let through. */
  lemma ServerImpliesClient(p: string)
    requires ServerAccepts(p)
    ensures !Weak(p)
  {
    ClientCriteria(p);
  }

  /** Without line terminators, the clients and the server agree exactly. */
  lemma ClientMatchesServerWithoutLineBreaks(p: string)
    requires !HasLineTerminator(p)
    ensures !Weak(p) <==> ServerAccepts(p)
  {
    ClientCriteria(p);
  }

  /** They do not agree in general: a password with a line break meets every
      client criterion and is still refused by the server. */
  lemma ClientAcceptsWhatServerRefuses()
    ensures !Weak("Senha@123\n") && !ServerAccepts("Senha@123\n")
  {
    var p := "Senha@123\n";
    assert IsAsciiUpper(p[0]) && IsAsciiDigit(p[6]) && !IsAsciiAlnum(p[5]);
    ClientCriteria(p);
    assert IsLineTerminator(p[9]);
  }

  /** The accepted example of the integration tests. */
  lemma StrongExample()
    ensures ServerAccepts("Senha@123") && !Weak("Senha@123")
  {
    var good := "Senha@123";
    assert IsAsciiUpper(good[0]) && IsAsciiDigit(good[6]) && !IsAsciiAlnum(good[5]);
    assert !HasLineTerminator(good) by {
      forall i | 0 <= i < |good| ensures !IsLineTerminator(good[i]) {
        assert good[i] < '~';
      }
    }
    ServerRule(good);
    ClientCriteria(good);
  }

  /** The refused example of the integration tests. */
  lemma WeakExample()
    ensures !ServerAccepts("senhafraca") && Weak("senhafraca")
  {
    var weak := "senhafraca";
    assert !HasUpper(weak) by {
      forall i | 0 <= i < |weak| ensures !IsAsciiUpper(weak[i]) {
        assert IsAsciiLower(weak[i]);
      }
    }
    ServerRule(weak);
    assert !Met(CRITERIA[1], weak);
  }

  /** Each missing ingredient alone makes the server refuse. */
  lemma ServerRefusals(p: string)
    ensures |p| < 8 ==> !ServerAccepts(p)
    ensures !HasUpper(p) ==> !ServerAccepts(p)
    ensures !HasDigit(p) ==> !ServerAccepts(p)
    ensures !HasSpecial(p) ==> !ServerAccepts(p)
  {
  }
}

=== FILE: redis_service.dfy ===
/** `RedisService`: a key/value cache with get, set, delete, and a delete of
    every key that starts with a prefix (the store's `keys(pattern + '*')`
    listing; the glob is read as a plain prefix, which is what it means for
    the patterns the core passes). Time-to-live is not modelled. */
module Cache {
  import opened Base
  import opened Entities

  /** The cache after every key starting with `prefix` is gone. */
  function WithoutPrefixed(m: map<string, CacheValue>, prefix: string): (r: map<string, CacheValue>)
    ensures forall k :: k in r <==> k in m && !(prefix <= k)
    ensures forall k :: k in r ==> r[k] == m[k]
  {
    map k | k in m && !(prefix <= k) :: m[k]
  }

  /** Removing the keys under a prefix twice is removing them once. */
  lemma WithoutPrefixedIdempotent(m: map<string, CacheValue>, prefix: string)
    ensures WithoutPrefixed(WithoutPrefixed(m, prefix), prefix) == WithoutPrefixed(m, prefix)
  {
  }

  /** Every key under a longer prefix is also under the shorter one. */
  lemma WithoutShorterPrefix(m: map<string, CacheValue>, prefix: string, key: string)
    requires prefix <= key
    ensures key !in WithoutPrefixed(m, prefix)
  {
  }

  /** `taskListKey(userId, query)`: `tasks:<userId>:<query>`, the query
      defaulting to `all` when absent or empty. */
  function TaskListKey(userId: string, query: Option<string>): (key: string)
    ensures "tasks:" + userId + ":" <= key
    ensures query.None? || query == Some("") ==> key == "tasks:" + userId + ":all"
    ensures query.Some? && query.value != "" ==> key[|"tasks:" + userId + ":"|..] == query.value
  {
    "tasks:" + userId + ":" + (if query.Some? && query.value != "" then query.value else "all")
  }

  /** `userProfileKey(userId)`: `user:<userId>`. */
  function UserProfileKey(userId: string): (key: string)
    ensures "user:" <= key && key[|"user:"|..] == userId
  {
    "user:" + userId
  }

  class RedisService {
    var entries: map<string, CacheValue>
    /** Whether the underlying store exposes a `keys` listing. */
    const storeHasKeys: bool

    constructor (storeHasKeys: bool)
      ensures entries == map[] && this.storeHasKeys == storeHasKeys
    {
      entries := map[];
      this.storeHasKeys := storeHasKeys;
    }

    function Get(key: string): (r: Option<CacheValue>)
      reads this
      ensures r.Some? <==> key in entries
      ensures r.Some? ==> r.value == entries[key]
    {
      if key in entries then Some(entries[key]) else None
    }

    method Set(key: string, value: CacheValue)
      modifies this
      ensures entries == old(entries)[key := value]
      ensures Get(key) == Some(value)
    {
      entries := entries[key := value];
    }

    /** `del(key)` removes that key and no other. */
    method Del(key: string)
      modifies this
      ensures entries == old(entries) - {key}
      ensures forall k :: k != key ==> Get(k) == old(Get(k))
    {
      entries := entries - {key};
    }

    /** `delByPattern(pattern)`: lists the keys under `pattern` and deletes
        them one by one; a no-op when the store has no `keys` listing. */
    method DelByPattern(pattern: string)
      modifies this
      ensures storeHasKeys ==> entries == WithoutPrefixed(old(entries), pattern)
      ensures !storeHasKeys ==> entries == old(entries)
    {
      if storeHasKeys {
        var listed := set k | k in entries && pattern <= k;
        var pending := listed;
        while pending != {}
          invariant pending <= listed
          invariant entries == old(entries) - (listed - pending)
          decreases pending
        {
          var k :| k in pending;
          Del(k);
          pending := pending - {k};
        }
        assert entries == WithoutPrefixed(old(entries), pattern);
      }
    }
  }
}

=== FILE: register_page.dfy ===
/** The registration page of the web client: the password criteria guard,
    the error line and the request sent to `register`. The page sends the
    fields exactly as typed; the browser's own `required` field check is not
    part of this model. */
module RegisterPage {
  import opened Base
  import opened Json
  import PasswordRule
  import RegisterScreen
  import Ui

  const WEAK_MESSAGE: string := "A senha não atende a todos os critérios de segurança"
  const REGISTER_FAILED: string := "Erro ao criar conta"

  /** The arguments of one `register(name, email, password)` call. */
  datatype Registration = Registration(name: string, email: string, password: string)

  /** How `register` rejected: an Axios error with `response.data.message`
      (Undefined when absent), or any other thrown value. */
  datatype Failure = AxiosError(message: Value) | OtherError

  /** The error line for a rejected registration: an array of messages is
      joined with `, `; a missing message or a non-Axios error gives the
      default. */
  function ErrorFor(failure: Failure): (e: Value)
    ensures failure.OtherError? ==> e == Str(REGISTER_FAILED)
    ensures failure.AxiosError? && failure.message.Arr? ==> e == Str(JoinValues(failure.message.items, ", "))
    ensures failure.AxiosError? && IsNullish(failure.message) ==> e == Str(REGISTER_FAILED)
    ensures failure.AxiosError? && !failure.message.Arr? && !IsNullish(failure.message) ==> e == failure.message
  {
    match failure
    case OtherError => Str(REGISTER_FAILED)
    case AxiosError(m) => if m.Arr? then Str(JoinValues(m.items, ", ")) else Coalesce(m, Str(REGISTER_FAILED))
  }

  /** The page's state: the fields, the error line (a string, or whatever
      value the API sent as its message), the loading flag, the
      registrations sent and the paths navigated to. */
  datatype Page = Page(name: string, email: string, password: string, error: Value, isLoading: bool,
                       registrations: seq<Registration>, navigations: seq<string>)

  /** One submission (`handleSubmit`). `failure` is how `register` rejected,
      or None when it succeeded. */
  function Submit(p: Page, failure: Option<Failure>): (q: Page)
    ensures q.name == p.name && q.email == p.email && q.password == p.password
    ensures PasswordRule.Weak(p.password) ==> q == p.(error := Str(WEAK_MESSAGE))
    ensures !PasswordRule.Weak(p.password) ==>
              q.registrations == p.registrations + [Registration(p.name, p.email, p.password)] &&
              !q.isLoading &&
              (failure.None? ==> q.error == Str("") && q.navigations == p.navigations + ["/"]) &&
              (failure.Some? ==> q.error == ErrorFor(failure.value) && q.navigations == p.navigations)
  {
    if PasswordRule.Weak(p.password) then p.(error := Str(WEAK_MESSAGE))
    else
      var sent := p.(error := Str(""), isLoading := false,
                     registrations := p.registrations + [Registration(p.name, p.email, p.password)]);
      if failure.None? then sent.(navigations := p.navigations + ["/"])
      else sent.(error := ErrorFor(failure.value))
  }

  /** A submission sends only a password that meets all four criteria, and
      what it sends is what was typed. */
  lemma SentPasswordMeetsCriteria(p: Page, failure: Option<Failure>)
    requires |Submit(p, failure).registrations| > |p.registrations|
    ensures var r := Submit(p, failure).registrations[|p.registrations|];
            r == Registration(p.name, p.email, p.password) &&
            |r.password| >= 8 && PasswordRule.HasUpper(r.password) &&
            PasswordRule.HasDigit(r.password) && PasswordRule.HasSpecial(r.password)
  {
    PasswordRule.ClientCriteria(p.password);
  }

  /** The web page and the mobile screen refuse the same passwords. */
  lemma SameCriteriaAsMobile(name: string, email: string, password: string, error: Value, failure: Option<Failure>,
                             alerts: seq<Ui.Alert>, failureMessage: Option<Value>)
    requires name != "" && email != "" && password != ""
    ensures var web := Submit(Page(name, email, password, error, false, [], []), failure);
            var mobile := RegisterScreen.Submit(RegisterScreen.Form(name, email, password, false, alerts, []), failureMessage);
            |web.registrations| == |mobile.registrations|
  {
  }

  class RegisterPage {
    var name: string
    var email: string
    var password: string
    var error: Value
    var isLoading: bool
    var registrations: seq<Registration>
    var navigations: seq<string>

    function State(): Page
      reads this
    {
      Page(name, email, password, error, isLoading, registrations, navigations)
    }

    constructor ()
      ensures State() == Page("", "", "", Str(""), false, [], [])
    {
      name, email, password, error, isLoading := "", "", "", Str(""), false;
      registrations, navigations := [], [];
    }

    /** `handleSubmit`: the error is cleared and loading set before the
        request; loading is cleared after it, whatever its result. */
    method HandleSubmit(failure: Option<Failure>)
      modifies this
      ensures State() == Submit(old(State()), failure)
    {
      var q := Submit(State(), failure);
      error, isLoading, registrations, navigations := q.error, q.isLoading, q.registrations, q.navigations;
    }
  }
}

=== FILE: register_screen.dfy ===
/** The registration screen of the mobile client: the emptiness guard, the
    password criteria, the normalisation of what is sent to `register`, and
    the alert shown when registration fails. */
module RegisterScreen {
  import opened Base
  import opened Strings
  import opened Json
  import opened Ui
  import PasswordRule

  const FILL_ALL: string := "Preencha todos os campos"
  const WEAK_TITLE: string := "Senha fraca"
  const WEAK_MESSAGE: string := "A senha não atende a todos os critérios de segurança"
  const REGISTER_FAILED: string := "Erro ao criar conta"

  /** One call of `register(name, email, password)`. */
  datatype Registration = Registration(name: string, email: string, password: string)

  /** The alert's message for the rejected request's `response.data.message`:
      the default when it is null or undefined, an array joined with line
      breaks, any other value as it is. */
  function FailureMessage(message: Value): (m: Value)
    ensures IsNullish(message) ==> m == Str(REGISTER_FAILED)
    ensures message.Arr? ==> m == Str(JoinValues(message.items, "\n"))
    ensures !IsNullish(message) && !message.Arr? ==> m == message
  {
    var msg := Coalesce(message, Str(REGISTER_FAILED));
    if msg.Arr? then Str(JoinValues(msg.items, "\n")) else msg
  }

  /** The screen's state, with the alerts shown and the registrations sent. */
  datatype Form = Form(name: string, email: string, password: string, isLoading: bool,
                       alerts: seq<Alert>, registrations: seq<Registration>)

  /** One press of the button (`handleRegister`). `failure` is the rejected
      request's message, or None when `register` succeeds. An empty field is
      reported before a weak password; only a form that passes both sends. */
  function Submit(f: Form, failure: Option<Value>): (g: Form)
    ensures g.name == f.name && g.email == f.email && g.password == f.password
    ensures f.name == "" || f.email == "" || f.password == "" ==>
              g == f.(alerts := f.alerts + [Alert("Erro", Str(FILL_ALL))])
    ensures f.name != "" && f.email != "" && f.password != "" && PasswordRule.Weak(f.password) ==>
              g == f.(alerts := f.alerts + [Alert(WEAK_TITLE, Str(WEAK_MESSAGE))])
    ensures f.name != "" && f.email != "" && f.password != "" && !PasswordRule.Weak(f.password) ==>
              g.registrations == f.registrations + [Registration(Trim(f.name), ToLowerAscii(Trim(f.email)), f.password)] &&
              !g.isLoading &&
              (failure.None? ==> g.alerts == f.alerts) &&
              (failure.Some? ==> g.alerts == f.alerts + [Alert("Erro", FailureMessage(failure.value))])
  {
    if f.name == "" || f.email == "" || f.password == "" then
      f.(alerts := f.alerts + [Alert("Erro", Str(FILL_ALL))])
    else if PasswordRule.Weak(f.password) then
      f.(alerts := f.alerts + [Alert(WEAK_TITLE, Str(WEAK_MESSAGE))])
    else
      var sent := f.(registrations := f.registrations + [Registration(Trim(f.name), ToLowerAscii(Trim(f.email)), f.password)],
                     isLoading := false);
      if failure.None? then sent
      else sent.(alerts := f.alerts + [Alert("Erro", FailureMessage(failure.value))])
  }

  /** Only a complete form with a password that meets the criteria sends,
      and what it sends is normalised. */
  lemma SentOnlyWhenValid(f: Form, failure: Option<Value>)
    requires |Submit(f, failure).registrations| > |f.registrations|
    ensures f.name != "" && f.email != "" && f.password != "" && !PasswordRule.Weak(f.password)
    ensures Submit(f, failure).registrations[|f.registrations|] ==
              Registration(Trim(f.name), ToLowerAscii(Trim(f.email)), f.password)
  {
  }

  /** Whatever reaches `register` meets the four criteria and carries no
      upper case ASCII letter in the e-mail. */
  lemma SentRegistrationIsNormalised(f: Form, failure: Option<Value>)
    requires |Submit(f, failure).registrations| > |f.registrations|
    ensures var r := Submit(f, failure).registrations[|f.registrations|];
            |r.password| >= 8 && PasswordRule.HasUpper(r.password) &&
            PasswordRule.HasDigit(r.password) && PasswordRule.HasSpecial(r.password) &&
            (forall i :: 0 <= i < |r.email| ==> !IsAsciiUpper(r.email[i]))
  {
    SentOnlyWhenValid(f, failure);
    PasswordRule.ClientCriteria(f.password);
    LowerHasNoUpper(Trim(f.email));
  }

  lemma LowerHasNoUpper(s: string)
    ensures forall i :: 0 <= i < |ToLowerAscii(s)| ==> !IsAsciiUpper(ToLowerAscii(s)[i])
  {
  }

  /** A press sends at most one registration. */
  lemma SubmitSendsAtMostOne(f: Form, failure: Option<Value>)
    ensures var g := Submit(f, failure);
            f.registrations <= g.registrations && |g.registrations| <= |f.registrations| + 1
  {
  }

  /** The message list of a validation error is shown one entry per line. */
  lemma ValidationMessagesOnePerLine(a: string, b: string)
    ensures FailureMessage(Arr([Str(a), Str(b)])) == Str(a + "\n" + b)
  {
    var items := [Str(a), Str(b)];
    assert seq(|items|, i requires 0 <= i < |items| => items[i].s) == [a, b];
    assert [a, b][1..] == [b];
    assert Join([b], "\n") == b;
    assert Join([a, b], "\n") == a + "\n" + Join([b], "\n");
  }

  class Screen {
    var name: string
    var email: string
    var password: string
    var isLoading: bool
    var alerts: seq<Alert>
    var registrations: seq<Registration>

    function State(): Form
      reads this
    {
      Form(name, email, password, isLoading, alerts, registrations)
    }

    constructor ()
      ensures State() == Form("", "", "", false, [], [])
    {
      name, email, password, isLoading := "", "", "", false;
      alerts, registrations := [], [];
    }

    /** The three text fields' `onChangeText`. */
    method Type(name': string, email': string, password': string)
      modifies this
      ensures State() == old(State()).(name := name', email := email', password := password')
    {
      name, email, password := name', email', password';
    }

    /** `handleRegister`: loading is set before the request and cleared
        after it, whatever its result. */
    method HandleRegister(failure: Option<Value>)
      modifies this
      ensures State() == Submit(old(State()), failure)
    {
      var g := Submit(State(), failure);
      alerts, registrations, isLoading := g.alerts, g.registrations, g.isLoading;
    }
  }
}

=== FILE: response_interceptor.dfy ===
/** `ResponseInterceptor`: a handler result that already has the paginated
    shape `{ data: [...], meta }` passes through; anything else is wrapped
    as `{ data: result }`, with null for a missing result. */
module ResponseInterceptor {
  import opened Json

  predicate IsPaginatedResponse(v: Value) {
    v.Obj? && "data" in v.fields && "meta" in v.fields && v.fields["data"].Arr?
  }

  function Intercept(v: Value): (r: Value)
    ensures IsPaginatedResponse(v) ==> r == v
    ensures !IsPaginatedResponse(v) ==> r.Obj? && r.fields.Keys == {"data"}
    ensures !IsPaginatedResponse(v) && IsNullish(v) ==> r.fields["data"] == Null
    ensures !IsPaginatedResponse(v) && !IsNullish(v) ==> r.fields["data"] == v
  {
    if IsPaginatedResponse(v) then v else Obj(map["data" := Coalesce(v, Null)])
  }

  /** Every response leaves with a `data` key, and a wrapped one is never
      mistaken for a paginated one. */
  lemma InterceptShape(v: Value)
    ensures HasKey(Intercept(v), "data")
    ensures !IsPaginatedResponse(v) ==> !IsPaginatedResponse(Intercept(v))
    ensures IsPaginatedResponse(Intercept(v)) <==> IsPaginatedResponse(v)
  {
  }

  /** Intercepting a response that already went through once is a fixed
      point exactly when it was paginated. */
  lemma InterceptTwice(v: Value)
    ensures Intercept(Intercept(v)) == Intercept(v) <==> IsPaginatedResponse(v)
  {
    if !IsPaginatedResponse(v) {
      var once := Intercept(v);
      assert Intercept(once).fields["data"] == once;
      assert once != Intercept(once) by {
        assert !once.fields["data"].Obj? || once.fields["data"] != Intercept(once).fields["data"] by {
          if once.fields["data"].Obj? {
            assert once.fields["data"] == v;
            assert Intercept(once).fields["data"] == once;
            assert v != once;
          }
        }
      }
    }
  }
}

=== FILE: sanitize_log.dfy ===
/** `sanitizeForLog`: copies a log record, replacing the value of every
    top-level key whose lower-cased name is sensitive by `[REDACTED]`. */
module SanitizeLog {
  import opened Json
  import Strings

  const SENSITIVE_KEYS: set<string> :=
    {"password", "token", "access_token", "refresh_token", "authorization", "secret", "jti"}

  const REDACTED: string := "[REDACTED]"

  predicate Sensitive(key: string) {
    Strings.ToLowerAscii(key) in SENSITIVE_KEYS
  }

  function SanitizeForLog(record: map<string, Value>): (r: map<string, Value>)
    ensures r.Keys == record.Keys
    ensures forall k :: k in record && Sensitive(k) ==> r[k] == Str(REDACTED)
    ensures forall k :: k in record && !Sensitive(k) ==> r[k] == record[k]
  {
    map k | k in record :: if Sensitive(k) then Str(REDACTED) else record[k]
  }

  /** Sanitising a sanitised record changes nothing. */
  lemma SanitizeIdempotent(record: map<string, Value>)
    ensures SanitizeForLog(SanitizeForLog(record)) == SanitizeForLog(record)
  {
  }

  /** Keys that differ only in the case of their letters are treated alike. */
  lemma SameLowerCaseSameVerdict(a: string, b: string)
    requires Strings.ToLowerAscii(a) == Strings.ToLowerAscii(b)
    ensures Sensitive(a) <==> Sensitive(b)
  {
  }

  /** `Password` and `TOKEN` are redacted. */
  lemma CaseInsensitiveExamples()
    ensures Sensitive("Password") && Sensitive("TOKEN")
  {
    assert Strings.ToLowerAscii("Password") == "password";
    assert Strings.ToLowerAscii("TOKEN") == "token";
  }

  /** Only the top level is inspected: a nested record under a harmless key
      is kept as it is, sensitive keys inside it included. */
  lemma NestedUntouched(record: map<string, Value>, k: string)
    requires k in record && !Sensitive(k) && record[k].Obj?
    ensures SanitizeForLog(record)[k] == record[k]
  {
  }
}

=== FILE: strings.dfy ===
/** The JavaScript string operations the core relies on (`trim`, `split` on a
    single character, `join`, `toLowerCase` on ASCII letters, `padStart`, the
    decimal rendering of a number in a template literal), written over
    `string == seq<char>`, together with the facts about them that the rest of
    the model uses. */
module Strings {

  /** The characters `String.prototype.trim` removes: ECMAScript WhiteSpace
      and LineTerminator. */
  predicate IsJsWhitespace(c: char) {
    c == '\t' || c == '\n' || c == '\U{000B}' || c == '\U{000C}' || c == '\r' ||
    c == ' ' || c == '\U{00A0}' || c == '\U{1680}' ||
    ('\U{2000}' <= c <= '\U{200A}') ||
    c == '\U{2028}' || c == '\U{2029}' || c == '\U{202F}' || c == '\U{205F}' ||
    c == '\U{3000}' || c == '\U{FEFF}'
  }

  /** ECMAScript LineTerminator: the characters a regular-expression `.` does not match. */
  predicate IsLineTerminator(c: char) {
    c == '\n' || c == '\r' || c == '\U{2028}' || c == '\U{2029}'
  }

  predicate IsAsciiDigit(c: char) { '0' <= c <= '9' }
  predicate IsAsciiUpper(c: char) { 'A' <= c <= 'Z' }
  predicate IsAsciiLower(c: char) { 'a' <= c <= 'z' }
  predicate IsAsciiAlnum(c: char) { IsAsciiDigit(c) || IsAsciiUpper(c) || IsAsciiLower(c) }

  /** `s.trimStart()`: drops the leading whitespace and nothing else. */
  function TrimStart(s: string): (r: string)
    ensures |r| <= |s| && r == s[|s| - |r|..]
    ensures forall i :: 0 <= i < |s| - |r| ==> IsJsWhitespace(s[i])
    ensures r == [] || !IsJsWhitespace(r[0])
  {
    if s == [] || !IsJsWhitespace(s[0]) then s else TrimStart(s[1..])
  }

  /** `s.trimEnd()`: drops the trailing whitespace and nothing else. */
  function TrimEnd(s: string): (r: string)
    ensures |r| <= |s| && r == s[..|r|]
    ensures forall i :: |r| <= i < |s| ==> IsJsWhitespace(s[i])
    ensures r == [] || !IsJsWhitespace(r[|r| - 1])
  {
    if s == [] || !IsJsWhitespace(s[|s| - 1]) then s else TrimEnd(s[..|s| - 1])
  }

  /** `s.trim()` */
  function Trim(s: string): string {
    TrimEnd(TrimStart(s))
  }

  /** `!s.trim()`: the string holds whitespace only. */
  predicate IsBlank(s: string) {
    Trim(s) == ""
  }

  lemma TrimShape(s: string)
    ensures |Trim(s)| <= |s|
    ensures Trim(s) == [] || (!IsJsWhitespace(Trim(s)[0]) && !IsJsWhitespace(Trim(s)[|Trim(s)| - 1]))
  {
  }

  lemma BlankIffAllWhitespace(s: string)
    ensures IsBlank(s) <==> forall i :: 0 <= i < |s| ==> IsJsWhitespace(s[i])
  {
    var t := TrimStart(s);
    if IsBlank(s) {
      assert t == [];
    } else {
      assert t != [] && t[0] == s[|s| - |t|];
      assert !IsJsWhitespace(s[|s| - |t|]);
    }
  }

  /** Trimming a string that already starts and ends with non-whitespace changes nothing. */
  lemma TrimOfTrimmed(s: string)
    requires s == [] || (!IsJsWhitespace(s[0]) && !IsJsWhitespace(s[|s| - 1]))
    ensures Trim(s) == s
  {
  }

  /** `s.split(sep)` for a one-character separator: the pieces between the
      occurrences of `sep`, always at least one (`"".split(",")` is `[""]`). */
  function Split(s: string, sep: char): (parts: seq<string>)
    ensures |parts| >= 1
  {
    if s == [] then [""]
    else if s[0] == sep then [""] + Split(s[1..], sep)
    else
      var rest := Split(s[1..], sep);
      [[s[0]] + rest[0]] + rest[1..]
  }

  /** `parts.join(sep)` */
  function Join(parts: seq<string>, sep: string): string {
    if parts == [] then ""
    else if |parts| == 1 then parts[0]
    else parts[0] + sep + Join(parts[1..], sep)
  }

  lemma {:induction false} SplitWithoutSeparator(s: string, sep: char)
    requires sep !in s
    ensures Split(s, sep) == [s]
  {
    if s != [] {
      SplitWithoutSeparator(s[1..], sep);
      assert [s[0]] + s[1..] == s;
    }
  }

  /** Splitting at the first separator: the piece before it, then the split of the rest. */
  lemma {:induction false} SplitAtFirst(a: string, sep: char, b: string)
    requires sep !in a
    ensures Split(a + [sep] + b, sep) == [a] + Split(b, sep)
  {
    if a == [] {
      assert a + [sep] + b == [sep] + b;
      assert ([sep] + b)[1..] == b;
    } else {
      var s := a + [sep] + b;
      assert s[0] == a[0] && s[1..] == a[1..] + [sep] + b;
      SplitAtFirst(a[1..], sep, b);
      assert [a[0]] + a[1..] == a;
    }
  }

  /** No piece of a split contains the separator. */
  lemma {:induction false} SplitPiecesFree(s: string, sep: char)
    ensures forall p :: p in Split(s, sep) ==> sep !in p
  {
    if s != [] {
      SplitPiecesFree(s[1..], sep);
      if s[0] != sep {
        var rest := Split(s[1..], sep);
        assert sep !in rest[0];
        assert forall p :: p in rest[1..] ==> p in rest;
      }
    }
  }

  /** `s.split(c).join(c) == s` */
  lemma {:induction false} JoinSplit(s: string, sep: char)
    ensures Join(Split(s, sep), [sep]) == s
  {
    if s != [] {
      JoinSplit(s[1..], sep);
      var rest := Split(s[1..], sep);
      if s[0] == sep {
        JoinEmptyFirst(rest, [sep]);
      } else {
        JoinPrepend(s[0], rest, [sep]);
      }
      assert s == [s[0]] + s[1..];
    }
  }

  lemma JoinEmptyFirst(parts: seq<string>, sep: string)
    requires |parts| >= 1
    ensures Join([""] + parts, sep) == sep + Join(parts, sep)
  {
    var q := [""] + parts;
    assert q[0] == "" && q[1..] == parts;
  }

  lemma JoinPrepend(c: char, parts: seq<string>, sep: string)
    requires |parts| >= 1
    ensures Join([[c] + parts[0]] + parts[1..], sep) == [c] + Join(parts, sep)
  {
    var q := [[c] + parts[0]] + parts[1..];
    assert q[0] == [c] + parts[0] && q[1..] == parts[1..];
    if |parts| > 1 {
      assert ([c] + parts[0]) + sep + Join(parts[1..], sep) == [c] + (parts[0] + sep + Join(parts[1..], sep));
    }
  }

  /** `s.toLowerCase()` restricted to ASCII letters (other characters are kept). */
  function ToLowerAscii(s: string): (r: string)
    ensures |r| == |s|
    ensures forall i :: 0 <= i < |s| ==>
              r[i] == (if IsAsciiUpper(s[i]) then (s[i] as int + 32) as char else s[i])
  {
    if s == [] then ""
    else [if IsAsciiUpper(s[0]) then (s[0] as int + 32) as char else s[0]] + ToLowerAscii(s[1..])
  }

  /** `s.padStart(width, fill)`: left-pads with `fill` up to `width`, never shortens. */
  function PadStart(s: string, width: nat, fill: char): (r: string)
    ensures |r| == if |s| >= width then |s| else width
    ensures r[|r| - |s|..] == s
    ensures forall i :: 0 <= i < |r| - |s| ==> r[i] == fill
  {
    if |s| >= width then s else seq(width - |s|, _ => fill) + s
  }

  function DigitChar(d: nat): (c: char)
    requires d < 10
    ensures IsAsciiDigit(c)
  {
    "0123456789"[d]
  }

  /** The decimal rendering of a non-negative integer (`${n}`). */
  function NatToString(n: nat): (r: string)
    ensures |r| >= 1
    ensures n >= 10 ==> |r| >= 2
    ensures forall i :: 0 <= i < |r| ==> IsAsciiDigit(r[i])
  {
    if n < 10 then [DigitChar(n)] else NatToString(n / 10) + [DigitChar(n % 10)]
  }

  /** Different numbers are rendered differently. */
  lemma {:induction false} NatToStringInjective(a: nat, b: nat)
    requires NatToString(a) == NatToString(b)
    ensures a == b
  {
    var sa, sb := NatToString(a), NatToString(b);
    if a >= 10 && b >= 10 {
      assert sa[..|sa| - 1] == NatToString(a / 10);
      assert sb[..|sb| - 1] == NatToString(b / 10);
      NatToStringInjective(a / 10, b / 10);
      assert DigitChar(a % 10) == sa[|sa| - 1] == DigitChar(b % 10);
    }
  }
}

=== FILE: task_form.dfy ===
/** The task form of the web client: the initial field values taken from
    the task being edited, and the submit handler's validation and payload. */
module TaskForm {
  import opened Base
  import opened Strings
  import opened Entities
  import opened Ui

  const TITLE_REQUIRED: string := "O título é obrigatório"

  /** `Partial<Task>`: the fields the form reads, each possibly absent. */
  datatype Initial = Initial(title: Option<string>, description: Option<string>, status: Option<TaskStatus>,
                             dueDate: Option<string>)

  /** The form's state, with the payloads handed to `onSubmit`. */
  datatype Form = Form(title: string, description: string, status: TaskStatus, dueDate: string,
                       error: string, submitted: seq<TaskPayload>)

  /** The initial state: absent text fields empty, status `TODO`, the date
      part of a non-empty due date. */
  function InitialForm(initial: Option<Initial>): (f: Form)
    ensures f.error == "" && f.submitted == []
    ensures initial.None? ==> f.title == "" && f.description == "" && f.status == Todo && f.dueDate == ""
    ensures initial.Some? ==>
              f.title == initial.value.title.GetOr("") &&
              f.description == initial.value.description.GetOr("") &&
              f.status == initial.value.status.GetOr(Todo)
    ensures initial.Some? && initial.value.dueDate.Some? && initial.value.dueDate.value != "" ==>
              f.dueDate == Split(initial.value.dueDate.value, 'T')[0]
    ensures initial.None? || initial.value.dueDate.None? || initial.value.dueDate.value == "" ==> f.dueDate == ""
  {
    match initial
    case None => Form("", "", Todo, "", "", [])
    case Some(i) =>
      var due := if i.dueDate.Some? && i.dueDate.value != "" then Split(i.dueDate.value, 'T')[0] else "";
      Form(i.title.GetOr(""), i.description.GetOr(""), i.status.GetOr(Todo), due, "", [])
  }

  /** `handleSubmit`: a blank title sets the error and submits nothing;
      otherwise the error is cleared and one payload is submitted. */
  function Submit(f: Form): (g: Form)
    ensures g.title == f.title && g.description == f.description && g.status == f.status && g.dueDate == f.dueDate
    ensures IsBlank(f.title) ==> g.error == TITLE_REQUIRED && g.submitted == f.submitted
    ensures !IsBlank(f.title) ==>
              g.error == "" &&
              g.submitted == f.submitted + [TaskPayload(Trim(f.title), NonEmpty(Trim(f.description)), f.status, NonEmpty(f.dueDate))]
  {
    if IsBlank(f.title) then f.(error := TITLE_REQUIRED)
    else f.(error := "", submitted := f.submitted + [TaskPayload(Trim(f.title), NonEmpty(Trim(f.description)), f.status, NonEmpty(f.dueDate))])
  }

  /** Whatever is submitted has a title that is neither empty nor padded. */
  lemma SubmittedTitleIsTrimmed(f: Form)
    requires |Submit(f).submitted| > |f.submitted|
    ensures var p := Submit(f).submitted[|f.submitted|];
            p.title != "" && !IsJsWhitespace(p.title[0]) && !IsJsWhitespace(p.title[|p.title| - 1])
  {
    TrimShape(f.title);
  }

  /** Opening the form on a task and submitting it unchanged sends the task's
      own fields back, the due date cut to its date part. */
  lemma EditUnchanged(title: string, description: Option<string>, status: TaskStatus, date: string, time: string)
    requires title != "" && !IsJsWhitespace(title[0]) && !IsJsWhitespace(title[|title| - 1])
    requires description.Some? ==>
               description.value != "" && !IsJsWhitespace(description.value[0]) &&
               !IsJsWhitespace(description.value[|description.value| - 1])
    requires date != "" && 'T' !in date
    ensures var f := InitialForm(Some(Initial(Some(title), description, Some(status), Some(date + "T" + time))));
            Submit(f).submitted == [TaskPayload(title, description, status, Some(date))]
  {
    var f := InitialForm(Some(Initial(Some(title), description, Some(status), Some(date + "T" + time))));
    SplitAtFirst(date, 'T', time);
    assert date + "T" + time == date + ['T'] + time;
    TrimOfTrimmed(title);
    if description.Some? {
      TrimOfTrimmed(description.value);
    } else {
      TrimOfTrimmed("");
    }
    assert f.dueDate == date;
  }

  class TaskFormView {
    var title: string
    var description: string
    var status: TaskStatus
    var dueDate: string
    var error: string
    var submitted: seq<TaskPayload>

    function State(): Form
      reads this
    {
      Form(title, description, status, dueDate, error, submitted)
    }

    constructor (initial: Option<Initial>)
      ensures State() == InitialForm(initial)
    {
      var f := InitialForm(initial);
      title, description, status, dueDate := f.title, f.description, f.status, f.dueDate;
      error, submitted := f.error, f.submitted;
    }

    method HandleSubmit()
      modifies this
      ensures State() == Submit(old(State()))
    {
      var g := Submit(State());
      error, submitted := g.error, g.submitted;
    }
  }
}

=== FILE: tasks_service.dfy ===
/** `TasksService`: the task table behind a read-through cache. `findAll`
    reads a page through the cache under `tasks:all:<page>:<limit>`; `create`,
    `update` and `delete` write the table and then drop every cache key under
    `tasks:all`. Change notifications are kept as a log of published events;
    delivery is not modelled. */
module Tasks {
  import opened Base
  import opened Errors
  import opened Entities
  import opened Cache
  import Strings
  import Arrays
  import Json

  const LIST_PREFIX: string := "tasks:all"

  /** The `findAll` cache key: `tasks:all:${page}:${limit}`. */
  function ListKey(page: int, limit: int): (key: string)
    requires page >= 1 && limit >= 1
    ensures LIST_PREFIX <= key
  {
    "tasks:all:" + Strings.NatToString(page) + ":" + Strings.NatToString(limit)
  }

  lemma NoColonInNumber(n: nat)
    ensures ':' !in Strings.NatToString(n)
  {
    var s := Strings.NatToString(n);
    forall i | 0 <= i < |s| ensures s[i] != ':' {
      assert Strings.IsAsciiDigit(s[i]);
    }
  }

  /** Two different queries never share a cache key. */
  lemma {:induction false} ListKeyInjective(p1: int, l1: int, p2: int, l2: int)
    requires p1 >= 1 && l1 >= 1 && p2 >= 1 && l2 >= 1
    requires ListKey(p1, l1) == ListKey(p2, l2)
    ensures p1 == p2 && l1 == l2
  {
    var a1, b1 := Strings.NatToString(p1), Strings.NatToString(l1);
    var a2, b2 := Strings.NatToString(p2), Strings.NatToString(l2);
    var tail1, tail2 := a1 + [':'] + b1, a2 + [':'] + b2;
    assert ListKey(p1, l1) == "tasks:all:" + tail1;
    assert ListKey(p2, l2) == "tasks:all:" + tail2;
    assert tail1 == ListKey(p1, l1)[10..] == tail2;
    NoColonInNumber(p1); NoColonInNumber(l1); NoColonInNumber(p2); NoColonInNumber(l2);
    Strings.SplitAtFirst(a1, ':', b1);
    Strings.SplitAtFirst(a2, ':', b2);
    Strings.SplitWithoutSeparator(b1, ':');
    Strings.SplitWithoutSeparator(b2, ':');
    assert [a1, b1] == Strings.Split(tail1, ':') == [a2, b2];
    Strings.NatToStringInjective(p1, p2);
    Strings.NatToStringInjective(l1, l2);
  }

  /** `CreateTaskHttpDto` as the validation pipe delivers it. The DTO declares
      no `userId`, and the pipe refuses a body that carries one, so the owner
      the service destructures from it is always `undefined`. */
  datatype CreateTaskDto = CreateTaskDto(
    title: string,
    description: Option<string>,
    status: Option<TaskStatus>,
    dueDate: Option<string>)

  /** `UpdateTaskHttpDto`: an absent field is left as it is. */
  datatype UpdateTaskDto = UpdateTaskDto(
    title: Option<string>,
    description: Option<string>,
    status: Option<TaskStatus>,
    dueDate: Option<string>)

  /** An MQTT notification the service publishes: owner, task id and title. */
  datatype TaskEvent =
    | TaskCreated(owner: string, id: string, title: string)
    | TaskUpdated(owner: string, id: string, title: string)
    | TaskDeleted(owner: string, id: string, title: string)

  /** `dueDate ? new Date(dueDate) : undefined`: an empty date is no date. */
  function DueDateField(d: Option<string>): (r: Option<string>)
    ensures r.Some? <==> d.Some? && d.value != ""
    ensures r.Some? ==> r == d
  {
    if d.Some? && d.value != "" then d else None
  }

  /** The keys `CreateTaskHttpDto` declares; it has no `userId`. */
  const CREATE_KEYS: set<string> := {"title", "description", "status", "dueDate"}

  /** The `TaskStatus` enum value a JSON string names, if any. */
  function ParseStatus(v: Json.Value): (r: Option<TaskStatus>)
    ensures r.Some? ==> v.Str?
  {
    if v == Json.Str("TODO") then Some(Todo)
    else if v == Json.Str("IN_PROGRESS") then Some(InProgress)
    else if v == Json.Str("DONE") then Some(Done)
    else None
  }

  /** `@IsOptional()` over a string check: absent, null, undefined or a string. */
  predicate OptionalText(fields: map<string, Json.Value>, key: string) {
    key !in fields || Json.IsNullish(fields[key]) || fields[key].Str?
  }

  /** A request body the global `ValidationPipe({ whitelist: true,
      forbidNonWhitelisted: true })` passes on to `create`: an object with
      no key the DTO does not declare, a string title, and optional
      description, status and due date of the declared types (the date
      format itself is not checked here). */
  predicate PipeAcceptsCreate(body: Json.Value) {
    body.Obj? && body.fields.Keys <= CREATE_KEYS &&
    "title" in body.fields && body.fields["title"].Str? &&
    OptionalText(body.fields, "description") && OptionalText(body.fields, "dueDate") &&
    ("status" !in body.fields || Json.IsNullish(body.fields["status"]) || ParseStatus(body.fields["status"]).Some?)
  }

  /** An optional string field as the service reads it: a string, or `undefined`. */
  function TextField(fields: map<string, Json.Value>, key: string): (r: Option<string>)
    ensures r.Some? <==> key in fields && fields[key].Str?
    ensures r.Some? ==> r.value == fields[key].s
  {
    if key in fields && fields[key].Str? then Some(fields[key].s) else None
  }

  /** The DTO the service receives for an accepted body. */
  function CreateDtoOf(body: Json.Value): (dto: CreateTaskDto)
    requires PipeAcceptsCreate(body)
    ensures dto.title == body.fields["title"].s
    ensures dto.description == TextField(body.fields, "description")
    ensures dto.dueDate == TextField(body.fields, "dueDate")
  {
    CreateTaskDto(body.fields["title"].s, TextField(body.fields, "description"),
                  if "status" in body.fields then ParseStatus(body.fields["status"]) else None,
                  TextField(body.fields, "dueDate"))
  }

  /** `const { userId } = dto`: the owner `create` reads from the body. */
  function OwnerOf(body: Json.Value): (owner: Option<string>)
    ensures owner.Some? <==> Json.HasKey(body, "userId") && body.fields["userId"].Str?
  {
    if body.Obj? then TextField(body.fields, "userId") else None
  }

  /** Every body the pipe lets through leaves the owner `undefined`. */
  lemma ValidatedBodyHasNoOwner(body: Json.Value)
    requires PipeAcceptsCreate(body)
    ensures OwnerOf(body) == None
  {
    assert "userId" !in CREATE_KEYS;
  }

  /** The body a client sends passes the pipe, and one that names its owner
      is refused with 400 before the service runs. */
  lemma PipeExamples()
    ensures PipeAcceptsCreate(Json.Obj(map["title" := Json.Str("t"), "status" := Json.Str("TODO")]))
    ensures !PipeAcceptsCreate(Json.Obj(map["title" := Json.Str("t"), "userId" := Json.Str("u")]))
  {
    var sent := map["title" := Json.Str("t"), "status" := Json.Str("TODO")];
    assert sent.Keys == {"title", "status"};
    var owned := map["title" := Json.Str("t"), "userId" := Json.Str("u")];
    assert "userId" in owned.Keys && "userId" !in CREATE_KEYS;
  }

  /** The row `create` inserts; the status defaults to TODO in the schema. */
  function NewTask(id: string, dto: CreateTaskDto, owner: string): (t: Task)
    ensures t.id == id && t.userId == owner && t.title == dto.title && t.description == dto.description
    ensures t.status == dto.status.GetOr(Todo) && t.dueDate == DueDateField(dto.dueDate)
  {
    Task(id, dto.title, dto.description, dto.status.GetOr(Todo), DueDateField(dto.dueDate), owner)
  }

  /** `prisma.task.create`: a row without an owner is refused by the
      required owner column, with the store's message; any other row is
      appended. */
  function InsertTask(rows: seq<Task>, id: string, dto: CreateTaskDto, owner: Option<string>,
                      storeMessage: string): (r: Result<seq<Task>, ServiceError>)
    ensures r.Failure? <==> owner.None?
    ensures r.Failure? ==> r.error == StoreRefused(storeMessage)
    ensures r.Success? ==> r.value == rows + [NewTask(id, dto, owner.value)]
  {
    match owner
    case None => Failure(StoreRefused(storeMessage))
    case Some(o) => Success(rows + [NewTask(id, dto, o)])
  }

  /** The row `update` writes: the set fields replace the old ones. */
  function ApplyUpdate(t: Task, dto: UpdateTaskDto): (u: Task)
    ensures u.id == t.id && u.userId == t.userId
    ensures u.title == dto.title.GetOr(t.title) && u.status == dto.status.GetOr(t.status)
    ensures u.description == if dto.description.Some? then dto.description else t.description
    ensures u.dueDate == if DueDateField(dto.dueDate).Some? then dto.dueDate else t.dueDate
  {
    var due := DueDateField(dto.dueDate);
    Task(t.id, dto.title.GetOr(t.title),
         if dto.description.Some? then dto.description else t.description,
         dto.status.GetOr(t.status),
         if due.Some? then due else t.dueDate,
         t.userId)
  }

  function IndexOfTask(rows: seq<Task>, id: string): (i: int)
    ensures -1 <= i < |rows|
    ensures 0 <= i ==> rows[i].id == id
    ensures i == -1 <==> forall k :: 0 <= k < |rows| ==> rows[k].id != id
  {
    Arrays.FindIndex(rows, (t: Task) => t.id == id)
  }

  /** `findById`: NotFound for an absent id, the row otherwise. */
  function FindById(rows: seq<Task>, id: string): (r: Result<Task, ServiceError>)
    ensures r.Failure? <==> forall k :: 0 <= k < |rows| ==> rows[k].id != id
    ensures r.Failure? ==> r.error == NotFound(TASK_NOT_FOUND)
    ensures r.Success? ==> r.value.id == id && r.value in rows
  {
    var i := IndexOfTask(rows, id);
    if i == -1 then Failure(NotFound(TASK_NOT_FOUND)) else Success(rows[i])
  }

  ghost predicate UniqueIds(rows: seq<Task>) {
    forall i, j :: 0 <= i < j < |rows| ==> rows[i].id != rows[j].id
  }

  /** Every cached task-list page is the page the table would give now. */
  ghost predicate Coherent(rows: seq<Task>, entries: map<string, CacheValue>) {
    forall page, limit :: page >= 1 && limit >= 1 && ListKey(page, limit) in entries ==>
      entries[ListKey(page, limit)] == TaskPage(PageOf(rows, page, limit))
  }

  /** No task-list key is cached. */
  ghost predicate NoListCached(entries: map<string, CacheValue>) {
    forall k :: k in entries ==> !(LIST_PREFIX <= k)
  }

  lemma NoListCachedIsCoherent(rows: seq<Task>, entries: map<string, CacheValue>)
    requires NoListCached(entries)
    ensures Coherent(rows, entries)
  {
  }

  class TasksService {
    var rows: seq<Task>
    var published: seq<TaskEvent>
    const cache: RedisService

    ghost predicate Valid()
      reads this
    {
      UniqueIds(rows)
    }

    constructor (cache: RedisService)
      ensures Valid() && rows == [] && published == [] && this.cache == cache
    {
      rows := [];
      published := [];
      this.cache := cache;
    }

    /** `create` with the owner it passes to the store: the insert, then,
        once a row is written, the drop of every task-list cache entry and
        the notification of the owner. A refused insert ends the call with
        nothing else done. */
    method CreateWithOwner(dto: CreateTaskDto, owner: Option<string>, newId: string, storeMessage: string)
      returns (r: Result<Task, ServiceError>)
      requires Valid() && forall k :: 0 <= k < |rows| ==> rows[k].id != newId
      modifies this, cache
      ensures Valid()
      ensures owner.None? ==>
                r == Failure(StoreRefused(storeMessage)) && rows == old(rows) &&
                published == old(published) && cache.entries == old(cache.entries)
      ensures owner.Some? ==>
                r == Success(NewTask(newId, dto, owner.value)) && rows == old(rows) + [r.value] &&
                published == old(published) + [TaskCreated(owner.value, newId, dto.title)]
      ensures owner.Some? && cache.storeHasKeys ==>
                cache.entries == WithoutPrefixed(old(cache.entries), LIST_PREFIX) && NoListCached(cache.entries)
      ensures owner.None? || !cache.storeHasKeys ==> cache.entries == old(cache.entries)
    {
      var inserted := InsertTask(rows, newId, dto, owner, storeMessage);
      if inserted.Failure? {
        return Failure(inserted.error);
      }
      var t := NewTask(newId, dto, owner.value);
      rows := inserted.value;
      cache.DelByPattern(LIST_PREFIX);
      published := published + [TaskCreated(owner.value, t.id, t.title)];
      r := Success(t);
    }

    /** `create` as written: the owner is read from the validated body, where
        it is never present, so the insert is refused. The store's message
        reaches the client as a 500 through the controller's
        `InternalServerErrorException`; nothing is written, no cache key is
        dropped and nothing is published. */
    method CreateAsWritten(body: Json.Value, newId: string, storeMessage: string) returns (r: Result<Task, ServiceError>)
      requires Valid() && PipeAcceptsCreate(body) && forall k :: 0 <= k < |rows| ==> rows[k].id != newId
      modifies this, cache
      ensures Valid()
      ensures r == Failure(StoreRefused(storeMessage))
      ensures rows == old(rows) && published == old(published) && cache.entries == old(cache.entries)
    {
      ValidatedBodyHasNoOwner(body);
      r := CreateWithOwner(CreateDtoOf(body), OwnerOf(body), newId, storeMessage);
    }

    /** `create` as evidently meant: the row is owned by the authenticated
        caller. Inserts one row, drops every task-list cache entry, and
        notifies the owner. */
    method Create(dto: CreateTaskDto, owner: string, newId: string) returns (t: Task)
      requires Valid() && forall k :: 0 <= k < |rows| ==> rows[k].id != newId
      modifies this, cache
      ensures Valid()
      ensures t == NewTask(newId, dto, owner) && rows == old(rows) + [t]
      ensures published == old(published) + [TaskCreated(owner, t.id, t.title)]
      ensures cache.storeHasKeys ==>
                cache.entries == WithoutPrefixed(old(cache.entries), LIST_PREFIX) && NoListCached(cache.entries)
      ensures !cache.storeHasKeys ==> cache.entries == old(cache.entries)
    {
      var r := CreateWithOwner(dto, Some(owner), newId, "");
      t := r.value;
    }

    /** `findAll`: a truthy cached value under the page's key is returned as
        it is; otherwise the page is read from the table, cached, and
        returned. */
    method FindAll(page: int, limit: int) returns (r: CacheValue)
      requires page >= 1 && limit >= 1
      modifies cache
      ensures var key := ListKey(page, limit);
              if key in old(cache.entries) && Truthy(old(cache.entries)[key]) then
                r == old(cache.entries)[key] && cache.entries == old(cache.entries)
              else
                r == TaskPage(PageOf(rows, page, limit)) && cache.entries == old(cache.entries)[key := r]
      ensures NoListCached(old(cache.entries)) ==> r == TaskPage(PageOf(rows, page, limit))
      ensures Coherent(rows, old(cache.entries)) ==>
                r == TaskPage(PageOf(rows, page, limit)) && Coherent(rows, cache.entries)
    {
      var key := ListKey(page, limit);
      var cached := cache.Get(key);
      if cached.Some? && Truthy(cached.value) {
        return cached.value;
      }
      r := TaskPage(PageOf(rows, page, limit));
      cache.Set(key, r);
      forall p, l | p >= 1 && l >= 1 && ListKey(p, l) == key
        ensures p == page && l == limit
      {
        ListKeyInjective(p, l, page, limit);
      }
    }

    /** `update`: NotFound (table and cache untouched) for an absent id;
        otherwise rewrites that row and drops every task-list cache entry. */
    method Update(id: string, dto: UpdateTaskDto) returns (r: Result<Task, ServiceError>)
      requires Valid()
      modifies this, cache
      ensures Valid()
      ensures FindById(old(rows), id).Failure? ==>
                r == Failure(NotFound(TASK_NOT_FOUND)) && rows == old(rows) &&
                cache.entries == old(cache.entries) && published == old(published)
      ensures FindById(old(rows), id).Success? ==>
                var i := IndexOfTask(old(rows), id);
                var u := ApplyUpdate(old(rows)[i], dto);
                r == Success(u) && rows == old(rows)[i := u] &&
                published == old(published) + [TaskUpdated(u.userId, u.id, u.title)] &&
                (cache.storeHasKeys ==> cache.entries == WithoutPrefixed(old(cache.entries), LIST_PREFIX)) &&
                (!cache.storeHasKeys ==> cache.entries == old(cache.entries))
    {
      var found := FindById(rows, id);
      if found.Failure? {
        return Failure(found.error);
      }
      var i := IndexOfTask(rows, id);
      var u := ApplyUpdate(rows[i], dto);
      rows := rows[i := u];
      cache.DelByPattern(LIST_PREFIX);
      published := published + [TaskUpdated(u.userId, u.id, u.title)];
      r := Success(u);
    }

    /** `delete`: NotFound (table and cache untouched) for an absent id;
        otherwise removes exactly that row and drops every task-list cache
        entry. */
    method Delete(id: string) returns (r: Result<(), ServiceError>)
      requires Valid()
      modifies this, cache
      ensures Valid()
      ensures FindById(old(rows), id).Failure? ==>
                r == Failure(NotFound(TASK_NOT_FOUND)) && rows == old(rows) &&
                cache.entries == old(cache.entries) && published == old(published)
      ensures FindById(old(rows), id).Success? ==>
                var i := IndexOfTask(old(rows), id);
                r == Success(()) && rows == old(rows)[..i] + old(rows)[i + 1..] &&
                (forall k :: 0 <= k < |rows| ==> rows[k].id != id) &&
                published == old(published) + [TaskDeleted(old(rows)[i].userId, id, old(rows)[i].title)] &&
                (cache.storeHasKeys ==> cache.entries == WithoutPrefixed(old(cache.entries), LIST_PREFIX)) &&
                (!cache.storeHasKeys ==> cache.entries == old(cache.entries))
    {
      var found := FindById(rows, id);
      if found.Failure? {
        return Failure(found.error);
      }
      var task := found.value;
      var i := IndexOfTask(rows, id);
      rows := rows[..i] + rows[i + 1..];
      cache.DelByPattern(LIST_PREFIX);
      published := published + [TaskDeleted(task.userId, task.id, task.title)];
      r := Success(());
    }
  }

  /** A read issued after a write sees the table: with a store that can list
      keys, `findAll` right after `delete` returns the current page. */
  method DeleteThenList(s: TasksService, id: string, page: int, limit: int) returns (r: CacheValue)
    requires s.Valid() && s.cache.storeHasKeys && page >= 1 && limit >= 1
    requires FindById(s.rows, id).Success?
    modifies s, s.cache
    ensures forall k :: 0 <= k < |s.rows| ==> s.rows[k].id != id
    ensures r == TaskPage(PageOf(s.rows, page, limit))
  {
    var _ := s.Delete(id);
    r := s.FindAll(page, limit);
  }
}

=== FILE: ui.dfy ===
/** What the client screens hand to the outside world: alert dialogs, and
    the task body they send to the API. */
module Ui {
  import opened Base
  import opened Json
  import opened Entities

  /** `Alert.alert(title, message)` */
  datatype Alert = Alert(title: string, message: Value)

  /** `{ title, description, status, dueDate }`, an absent field left out. */
  datatype TaskPayload = TaskPayload(title: string, description: Option<string>, status: TaskStatus, dueDate: Option<string>)

  /** `x || undefined` for a string. */
  function NonEmpty(s: string): (r: Option<string>)
    ensures r.None? <==> s == ""
    ensures r.Some? ==> r.value == s
  {
    if s == "" then None else Some(s)
  }
}

=== FILE: use_tasks.dfy ===
/** The web client's task list hook (`useTasks`): the list reducers applied
    after a create, an update or a removal, and the paged loading with its
    replace and append modes. A request and its answer are one step here:
    the answer is a parameter, and aborting a request still in flight is not
    part of this model. */
module UseTasks {
  import opened Base
  import opened Entities
  import Arrays

  const PAGE_SIZE: int := 10
  const LOAD_FAILED: string := "Erro ao carregar tarefas"

  /** `[task, ...prev]` */
  function Prepend(tasks: seq<Task>, task: Task): (r: seq<Task>)
    ensures |r| == |tasks| + 1 && r[0] == task && r[1..] == tasks
  {
    [task] + tasks
  }

  /** `prev.map((t) => (t.id === id ? updated : t))` */
  function ReplaceById(tasks: seq<Task>, id: string, updated: Task): (r: seq<Task>)
    ensures |r| == |tasks|
    ensures forall i :: 0 <= i < |r| ==> r[i] == if tasks[i].id == id then updated else tasks[i]
  {
    seq(|tasks|, i requires 0 <= i < |tasks| => if tasks[i].id == id then updated else tasks[i])
  }

  predicate HasId(tasks: seq<Task>, id: string) {
    exists i :: 0 <= i < |tasks| && tasks[i].id == id
  }

  /** Replacing a task that is not on the list changes nothing. */
  lemma ReplaceAbsentIsIdentity(tasks: seq<Task>, id: string, updated: Task)
    requires !HasId(tasks, id)
    ensures ReplaceById(tasks, id, updated) == tasks
  {
  }

  /** `prev.filter((t) => t.id !== id)` */
  function RemoveById(tasks: seq<Task>, id: string): (r: seq<Task>)
    ensures |r| <= |tasks|
    ensures !HasId(r, id)
  {
    var r := Arrays.Filter(tasks, (t: Task) => t.id != id);
    assert forall i :: 0 <= i < |r| ==> r[i].id != id;
    r
  }

  /** Removal drops exactly the tasks with that id. */
  lemma RemoveKeepsOthers(tasks: seq<Task>, id: string)
    ensures forall t :: t in RemoveById(tasks, id) <==> t in tasks && t.id != id
  {
    var keep := (t: Task) => t.id != id;
    Arrays.FilterSubset(tasks, keep);
    forall i | 0 <= i < |tasks| && tasks[i].id != id
      ensures tasks[i] in RemoveById(tasks, id)
    {
      Arrays.FilterKeepsPassing(tasks, keep, i);
    }
  }

  /** Removal keeps the order: removing from a concatenation removes from
      each part. */
  lemma RemoveKeepsOrder(a: seq<Task>, b: seq<Task>, id: string)
    ensures RemoveById(a + b, id) == RemoveById(a, id) + RemoveById(b, id)
  {
    Arrays.FilterConcat(a, b, (t: Task) => t.id != id);
  }

  /** Creating a task and removing it again gives back the list. */
  lemma CreateThenRemove(tasks: seq<Task>, task: Task)
    requires !HasId(tasks, task.id)
    ensures RemoveById(Prepend(tasks, task), task.id) == tasks
  {
    var keep := (t: Task) => t.id != task.id;
    assert Prepend(tasks, task) == [task] + tasks;
    Arrays.FilterConcat([task], tasks, keep);
    assert Arrays.Filter([task], keep) == [];
    Arrays.FilterKeepsAll(tasks, keep);
  }

  datatype Mode = Replace | Append

  /** How the list request ended: the page and the total page count, a
      cancellation, or any other error. */
  datatype Outcome = Loaded(data: seq<Task>, totalPages: int) | Cancelled | Failed

  /** The page and limit of `{ ...filters, page, limit }` as sent; the
      search and status filters are not part of this model. */
  datatype PageRequest = PageRequest(page: int, limit: int)

  /** The hook's state, with `pageRef` and the list requests sent. */
  datatype Hook = Hook(tasks: seq<Task>, isLoading: bool, isLoadingMore: bool, hasMore: bool,
                       error: Option<string>, pageRef: int, requests: seq<PageRequest>)

  /** `fetchPage(pageNum, mode)`: one request; a loaded page replaces or
      extends the list and moves `pageRef`; a failure in replace mode sets the
      error and leaves the list alone; a cancellation changes nothing but the
      loading flag. The flag of the mode is cleared at the end whatever
      happened. */
  function Fetch(h: Hook, pageNum: int, mode: Mode, outcome: Outcome): (g: Hook)
    ensures g.requests == h.requests + [PageRequest(pageNum, PAGE_SIZE)]
    ensures mode == Replace ==> !g.isLoading && g.isLoadingMore == h.isLoadingMore
    ensures mode == Append ==> !g.isLoadingMore && g.isLoading == h.isLoading
    ensures outcome.Loaded? ==>
              g.tasks == (if mode == Append then h.tasks + outcome.data else outcome.data) &&
              g.pageRef == pageNum && g.hasMore == (pageNum < outcome.totalPages)
    ensures !outcome.Loaded? ==> g.tasks == h.tasks && g.pageRef == h.pageRef && g.hasMore == h.hasMore
    ensures mode == Append ==> g.error == h.error
    ensures mode == Replace ==> g.error == if outcome.Failed? then Some(LOAD_FAILED) else None
  {
    var started := if mode == Replace then h.(error := None) else h;
    var sent := started.(requests := h.requests + [PageRequest(pageNum, PAGE_SIZE)]);
    var ended :=
      match outcome
      case Loaded(data, totalPages) =>
        sent.(tasks := if mode == Append then h.tasks + data else data,
              pageRef := pageNum, hasMore := pageNum < totalPages)
      case Cancelled => sent
      case Failed => if mode == Replace then sent.(error := Some(LOAD_FAILED)) else sent;
    if mode == Replace then ended.(isLoading := false) else ended.(isLoadingMore := false)
  }

  /** `loadMore`: the next page, appended, only when nothing is loading. */
  function LoadMore(h: Hook, outcome: Outcome): (g: Hook)
    ensures h.isLoading || h.isLoadingMore ==> g == h
    ensures !h.isLoading && !h.isLoadingMore ==>
              g == Fetch(h, h.pageRef + 1, Append, outcome) && g.requests[|h.requests|].page == h.pageRef + 1
  {
    if !h.isLoading && !h.isLoadingMore then Fetch(h, h.pageRef + 1, Append, outcome) else h
  }

  /** Paging through the server's list: when the list holds pages 1..n and
      the next page loads, it holds pages 1..n+1, that is, the first
      (n + 1) * 10 rows in the server's order. */
  lemma LoadMoreExtendsPrefix(h: Hook, rows: seq<Task>, totalPages: int)
    requires h.pageRef >= 1 && !h.isLoading && !h.isLoadingMore
    requires h.tasks == Concat(rows, PAGE_SIZE, h.pageRef)
    ensures var g := LoadMore(h, Loaded(PageOf(rows, h.pageRef + 1, PAGE_SIZE).data, totalPages));
            g.tasks == Concat(rows, PAGE_SIZE, g.pageRef) && g.pageRef == h.pageRef + 1 &&
            g.tasks == rows[..if g.pageRef * PAGE_SIZE < |rows| then g.pageRef * PAGE_SIZE else |rows|]
  {
    var g := LoadMore(h, Loaded(PageOf(rows, h.pageRef + 1, PAGE_SIZE).data, totalPages));
    assert g.tasks == Concat(rows, PAGE_SIZE, h.pageRef) + PageOf(rows, h.pageRef + 1, PAGE_SIZE).data;
    PagesCoverPrefix(rows, PAGE_SIZE, h.pageRef + 1);
  }

  /** The first page in replace mode starts that sequence. */
  lemma FirstPageStartsPrefix(h: Hook, rows: seq<Task>, totalPages: int)
    ensures var g := Fetch(h, 1, Replace, Loaded(PageOf(rows, 1, PAGE_SIZE).data, totalPages));
            g.tasks == Concat(rows, PAGE_SIZE, 1) && g.pageRef == 1
  {
    assert Concat(rows, PAGE_SIZE, 0) == [];
  }

  class TasksHook {
    var tasks: seq<Task>
    var isLoading: bool
    var isLoadingMore: bool
    var hasMore: bool
    var error: Option<string>
    var pageRef: int
    var requests: seq<PageRequest>

    function State(): Hook
      reads this
    {
      Hook(tasks, isLoading, isLoadingMore, hasMore, error, pageRef, requests)
    }

    constructor ()
      ensures State() == Hook([], false, false, false, None, 1, [])
    {
      tasks, isLoading, isLoadingMore, hasMore := [], false, false, false;
      error, pageRef, requests := None, 1, [];
    }

    method FetchPage(pageNum: int, mode: Mode, outcome: Outcome)
      modifies this
      ensures State() == Fetch(old(State()), pageNum, mode, outcome)
    {
      var g := Fetch(State(), pageNum, mode, outcome);
      tasks, isLoading, isLoadingMore, hasMore := g.tasks, g.isLoading, g.isLoadingMore, g.hasMore;
      error, pageRef, requests := g.error, g.pageRef, g.requests;
    }

    method DoLoadMore(outcome: Outcome)
      modifies this
      ensures State() == LoadMore(old(State()), outcome)
    {
      if !isLoading && !isLoadingMore {
        FetchPage(pageRef + 1, Append, outcome);
      }
    }

    /** `createTask`: `created` is what the API returned. */
    method CreateTask(created: Task) returns (r: Task)
      modifies this
      ensures r == created
      ensures State() == old(State()).(tasks := Prepend(old(tasks), created))
    {
      tasks := Prepend(tasks, created);
      r := created;
    }

    /** `updateTask`: `updated` is what the API returned. */
    method UpdateTask(id: string, updated: Task) returns (r: Task)
      modifies this
      ensures r == updated
      ensures State() == old(State()).(tasks := ReplaceById(old(tasks), id, updated))
    {
      tasks := ReplaceById(tasks, id, updated);
      r := updated;
    }

    method RemoveTask(id: string)
      modifies this
      ensures State() == old(State()).(tasks := RemoveById(old(tasks), id))
    {
      tasks := RemoveById(tasks, id);
    }
  }
}

=== FILE: users_service.dfy ===
/** `UsersService`: the user table (`prisma.user`) with an email-unique
    insert, lookups by id and by email, a paginated listing, an update with an
    email-conflict rule, and a delete. The table is a sequence of rows in
    store order. */
module Users {
  import opened Base
  import opened Crypto
  import opened Errors
  import opened Entities
  import Arrays

  datatype CreateUserDto = CreateUserDto(name: string, email: string, password: string)

  /** `UpdateUserHttpDto`: every field optional; an absent field is left as it is. */
  datatype UpdateUserDto = UpdateUserDto(name: Option<string>, email: Option<string>, password: Option<string>)

  function IndexOfId(rows: seq<User>, id: string): (i: int)
    ensures -1 <= i < |rows|
    ensures 0 <= i ==> rows[i].id == id
    ensures i == -1 <==> forall k :: 0 <= k < |rows| ==> rows[k].id != id
  {
    Arrays.FindIndex(rows, (u: User) => u.id == id)
  }

  /** At most one row per id and at most one row per email (the table's
      primary key and unique constraint). */
  ghost predicate UniqueKeys(rows: seq<User>) {
    forall i, j :: 0 <= i < j < |rows| ==> rows[i].id != rows[j].id && rows[i].email != rows[j].email
  }

  predicate FreshId(rows: seq<User>, id: string) {
    forall k :: 0 <= k < |rows| ==> rows[k].id != id
  }

  /** `findById`: NotFound for an absent id, otherwise the row without its password. */
  function FindById(rows: seq<User>, id: string): (r: Result<PublicUser, ServiceError>)
    ensures r.Failure? <==> FreshId(rows, id)
    ensures r.Failure? ==> r.error == NotFound(USER_NOT_FOUND)
    ensures r.Success? ==>
              r.value.id == id && exists k :: 0 <= k < |rows| && rows[k].id == id && r.value == Public(rows[k])
  {
    var i := IndexOfId(rows, id);
    if i == -1 then Failure(NotFound(USER_NOT_FOUND)) else Success(Public(rows[i]))
  }

  /** `findByEmail`: the row (password included) whose email is exactly `email`, or null. */
  function FindByEmail(rows: seq<User>, email: string): (r: Option<User>)
    ensures r.None? <==> forall k :: 0 <= k < |rows| ==> rows[k].email != email
    ensures r.Some? ==> r.value.email == email && r.value in rows
  {
    var i := Arrays.FindIndex(rows, (u: User) => u.email == email);
    if i == -1 then None else Some(rows[i])
  }

  /** With unique keys, a lookup finds the one row that matches. */
  lemma FindByEmailUnique(rows: seq<User>, k: nat)
    requires UniqueKeys(rows) && k < |rows|
    ensures FindByEmail(rows, rows[k].email) == Some(rows[k])
    ensures FindById(rows, rows[k].id) == Success(Public(rows[k]))
  {
  }

  function FindAll(rows: seq<User>, page: int, limit: int): (r: Paginated<PublicUser>)
    requires page >= 1 && limit >= 1
    ensures r.total == |rows| && |r.data| <= limit
    ensures var skip := Skip(page, limit);
            |r.data| == if skip >= |rows| then 0
                        else if |rows| - skip < limit then |rows| - skip
                        else limit
    ensures |r.data| > 0 ==> Skip(page, limit) + |r.data| <= |rows|
    ensures forall i :: 0 <= i < |r.data| ==> r.data[i] == Public(rows[Skip(page, limit) + i])
  {
    PageOf(seq(|rows|, k requires 0 <= k < |rows| => Public(rows[k])), page, limit)
  }

  /** The row an update writes, as the code does it: `data: { ...dto }`, so a
      new password is stored as given. */
  function ApplyUpdateAsWritten(u: User, dto: UpdateUserDto): User {
    User(u.id, dto.name.GetOr(u.name), dto.email.GetOr(u.email),
         if dto.password.Some? then Plain(dto.password.value) else u.password)
  }

  /** The row an update should write: a new password is hashed first, as `create` does. */
  function ApplyUpdate(u: User, dto: UpdateUserDto, salt: nat): (v: User)
    ensures v.id == u.id && v.name == dto.name.GetOr(u.name) && v.email == dto.email.GetOr(u.email)
    ensures dto.password.Some? ==> CompareCredential(dto.password.value, v.password)
    ensures dto.password.None? ==> v.password == u.password
  {
    User(u.id, dto.name.GetOr(u.name), dto.email.GetOr(u.email),
         if dto.password.Some? then Hashed(Hash(dto.password.value, salt)) else u.password)
  }

  /** After the update as written, the new password does not log in. */
  lemma UpdatedPasswordRejected(u: User, dto: UpdateUserDto)
    requires dto.password.Some?
    ensures !CompareCredential(dto.password.value, ApplyUpdateAsWritten(u, dto).password)
  {
  }

  /** The email-conflict rule of `update`: a set, non-empty email that some
      other user already has. */
  predicate EmailTakenByOther(rows: seq<User>, id: string, email: Option<string>) {
    email.Some? && email.value != "" &&
    var found := FindByEmail(rows, email.value);
    found.Some? && found.value.id != id
  }

  lemma EmailConflictIff(rows: seq<User>, id: string, email: string)
    requires UniqueKeys(rows) && email != ""
    ensures EmailTakenByOther(rows, id, Some(email)) <==>
              exists k :: 0 <= k < |rows| && rows[k].email == email && rows[k].id != id
  {
    if exists k :: 0 <= k < |rows| && rows[k].email == email && rows[k].id != id {
      var k :| 0 <= k < |rows| && rows[k].email == email && rows[k].id != id;
      FindByEmailUnique(rows, k);
    }
  }

  class UsersService {
    var rows: seq<User>

    ghost predicate Valid()
      reads this
    {
      UniqueKeys(rows)
    }

    constructor ()
      ensures Valid() && rows == []
    {
      rows := [];
    }

    /** `create`: Conflict for an email already in use, otherwise one new
        row with the hashed password; the caller gets the row without it.
        `newId` is the id the store generates. */
    method Create(dto: CreateUserDto, newId: string, salt: nat) returns (r: Result<PublicUser, ServiceError>)
      requires Valid() && FreshId(rows, newId)
      modifies this
      ensures Valid()
      ensures FindByEmail(old(rows), dto.email).Some? ==>
                r == Failure(Conflict(EMAIL_ALREADY_EXISTS)) && rows == old(rows)
      ensures FindByEmail(old(rows), dto.email).None? ==>
                rows == old(rows) + [User(newId, dto.name, dto.email, Hashed(Hash(dto.password, salt)))] &&
                r == Success(PublicUser(newId, dto.name, dto.email))
    {
      if FindByEmail(rows, dto.email).Some? {
        return Failure(Conflict(EMAIL_ALREADY_EXISTS));
      }
      rows := rows + [User(newId, dto.name, dto.email, Hashed(Hash(dto.password, salt)))];
      r := Success(PublicUser(newId, dto.name, dto.email));
    }

    /** `update` as written: the existence guard tests an un-awaited promise
        and never fires, the email rule runs first, and the store's update
        then fails for an absent id; the password is stored unhashed. */
    method UpdateAsWritten(id: string, dto: UpdateUserDto) returns (r: Result<PublicUser, ServiceError>)
      requires Valid()
      requires dto.email != Some("")
      modifies this
      ensures Valid()
      ensures EmailTakenByOther(old(rows), id, dto.email) ==>
                r == Failure(Conflict(EMAIL_ALREADY_EXISTS)) && rows == old(rows)
      ensures !EmailTakenByOther(old(rows), id, dto.email) && FreshId(old(rows), id) ==>
                r == Failure(RecordNotFound) && rows == old(rows)
      ensures !EmailTakenByOther(old(rows), id, dto.email) && !FreshId(old(rows), id) ==>
                var i := IndexOfId(old(rows), id);
                rows == old(rows)[i := ApplyUpdateAsWritten(old(rows)[i], dto)] &&
                r == Success(Public(rows[i]))
    {
      if EmailTakenByOther(rows, id, dto.email) {
        return Failure(Conflict(EMAIL_ALREADY_EXISTS));
      }
      var i := IndexOfId(rows, id);
      if i == -1 {
        return Failure(RecordNotFound);
      }
      UpdateKeepsKeysUnique(rows, i, ApplyUpdateAsWritten(rows[i], dto));
      rows := rows[i := ApplyUpdateAsWritten(rows[i], dto)];
      r := Success(Public(rows[i]));
    }

    /** `update` as evidently intended: NotFound for an absent id, Conflict
        when the new email belongs to another user, otherwise that one row
        changes, with a new password hashed. */
    method Update(id: string, dto: UpdateUserDto, salt: nat) returns (r: Result<PublicUser, ServiceError>)
      requires Valid()
      requires dto.email != Some("")
      modifies this
      ensures Valid()
      ensures FreshId(old(rows), id) ==> r == Failure(NotFound(USER_NOT_FOUND)) && rows == old(rows)
      ensures !FreshId(old(rows), id) && EmailTakenByOther(old(rows), id, dto.email) ==>
                r == Failure(Conflict(EMAIL_ALREADY_EXISTS)) && rows == old(rows)
      ensures !FreshId(old(rows), id) && !EmailTakenByOther(old(rows), id, dto.email) ==>
                var i := IndexOfId(old(rows), id);
                rows == old(rows)[i := ApplyUpdate(old(rows)[i], dto, salt)] &&
                r == Success(Public(rows[i]))
    {
      var i := IndexOfId(rows, id);
      if i == -1 {
        return Failure(NotFound(USER_NOT_FOUND));
      }
      if EmailTakenByOther(rows, id, dto.email) {
        return Failure(Conflict(EMAIL_ALREADY_EXISTS));
      }
      UpdateKeepsKeysUnique(rows, i, ApplyUpdate(rows[i], dto, salt));
      rows := rows[i := ApplyUpdate(rows[i], dto, salt)];
      r := Success(Public(rows[i]));
    }

    /** `delete`: NotFound for an absent id (thrown by `findById`); otherwise
        exactly that row is removed and returned. */
    method Delete(id: string) returns (r: Result<User, ServiceError>)
      requires Valid()
      modifies this
      ensures Valid()
      ensures FreshId(old(rows), id) ==> r == Failure(NotFound(USER_NOT_FOUND)) && rows == old(rows)
      ensures !FreshId(old(rows), id) ==>
                var i := IndexOfId(old(rows), id);
                r == Success(old(rows)[i]) && rows == old(rows)[..i] + old(rows)[i + 1..]
    {
      var i := IndexOfId(rows, id);
      if i == -1 {
        return Failure(NotFound(USER_NOT_FOUND));
      }
      r := Success(rows[i]);
      rows := rows[..i] + rows[i + 1..];
    }
  }

  /** Rewriting row `i` keeps the keys unique when its id is kept and its
      email is not another row's. */
  lemma UpdateKeepsKeysUnique(rows: seq<User>, i: nat, v: User)
    requires UniqueKeys(rows) && i < |rows| && v.id == rows[i].id
    requires v.email == rows[i].email || forall k :: 0 <= k < |rows| && k != i ==> rows[k].email != v.email
    ensures UniqueKeys(rows[i := v])
  {
  }
}
